=== FILE: README.md ===
# ServerServing: a Dafny model of the SSH executor and the server service

ServerServing manages Linux servers over SSH. An administrator account
opens an SSH session on each server. The service uses it to:

- list, add, delete and recover login accounts;
- back up and restore their home directories;
- grant them sudo;
- read the server's hardware and usage (lscpu, lspci, `/proc/meminfo`,
  `top`, `w`, `nvidia-smi`).

It also reconciles the accounts it finds with the rows stored in its
database.

This project models that core in Dafny. It covers:

- the Linux executor template (`linux.go`) and its script cache
  (`executor_service.go`);
- the service functions that drive it (`server.go`, `server_account.go`);
- the password rule, the line splitter and the integer parser;
- the API error values.

The pieces, as modules:

- `Errors`: the sentinel errors, `CustomMessage` and `CustomMessageF`. `Sprintf` is restricted to the verbs the core uses.
- `Util`, `Strings`, `Validator`: `SplitLine`, `ParseInt` (64-bit, base 10), the Go `strings` helpers the core uses, and the password pattern as a left-to-right scan.
- `Catalog`: the `loadCmdScript` cache. Keys are first seen once, and refreshed after a minute that is never reset.
- `Transport`: `SendCommands` and its reader goroutine. The reader answers each `[sudo] password for` prompt with the password. The output is then cleaned of prompt lines.
- `Host`: the remote Linux host as a value, with the following parts.
  - Its state: a file table, the passwd entries, the sudoers lines, and the text each probing command prints.
  - Two sets of script names: the commands that exit non-zero, and the script files that cannot be read.
  - `Execute`: what each command of the script catalog does to that state.
  - `Send`: records every command line sent on the connection.
- `Runs`, `Probes`, `Greedy`, `Parsers`: the regular expressions of `linux.go`, each written as the one match RE2 finds.
  - Patterns made of character-class runs become maximal-run scans.
  - A greedy `.*` becomes "the last position where the rest fits".
- `Executor`, `Accounts`, `Readings`: the template methods, each run against a connection to a `Host`.
- `Bootstrap`: `openLinuxSSHExecutorService`, `CheckSudoPrivilege`, `CheckOSInfo` and `OpenExecutorService`.
- `Reconcile`: `loadAccounts`, `combineDBAccounts` and the backup-directory lookups.
- `Servers`: `withConnection`, `Info`/`Infos`, `loadInfoFromServer` and the account use cases of `server_account.go`.

Some things are parameters rather than modelled:

- The SSH dial is a parameter: the host it reaches, or nothing.
- The SSH session of `Transport` is a parameter: what it does with a command line.
- The clock is a parameter (`now`), and so is what reading a script file gives.
- Which texts `strconv.ParseFloat` accepts is a parameter (`floatOk`).
- The database's answers are parameters. The rows an operation asks it to upsert are part of the operation's result.

Two details of `RecoverAccountHomeDir` (internal/service/server_executor/linux.go:654-684), modelled as the code does them:

- It refuses an occupied home directory with `BackupTargetDirAlreadyExists` (linux.go:666-668). The sentinel `RecoverHomeDirAlreadyExists` is declared (err/err.go:64) but nothing in the modelled code returns it.
- Its `force` flag only lifts that refusal. The move that follows always passes `false`, so it is the plain `mv` (linux.go:677).
- `RecoverAccount` first re-creates the account with `useradd -m`, which makes the home directory, and then calls `RecoverAccountHomeDir` with `force` set. The plain `mv` of a directory onto an existing directory moves it inside, so the backup ends up within the new home rather than replacing it (`Executor.RecoverIntoExistingHome`, `Servers.RecoverMovesBackupLast`). Whether this is intended cannot be read from the code, so it is modelled as written and not listed as a finding.

## Model

| member | source | states |
|---|---|---|
| Errors.CustomMessage | err/err.go:96-102 | The copy carries the new message and keeps the status, the stable flag and the sentinel it came from |
| Errors.CustomMessageF | err/err.go:104-110 | The copy's message is the format with its arguments filled in; status, stable flag and sentinel are kept |
| Errors.OnlyInternalUnstable | err/err.go:8-84 | InternalErr is the one sentinel whose stable flag is false |
| Util.SplitLine | util/regexp.go:5-9 | At least one piece, and no piece holds a line break |
| Util.SplitLineCount | util/regexp.go:5-9 | There is one piece more than separators, counting a CR LF pair as one separator |
| Util.JoinSplitLine | util/regexp.go:5-9 | Without carriage returns, joining the pieces with newlines gives the text back |
| Util.SplitLineJoin | util/regexp.go:5-9 | Splitting a newline-join of line-break-free pieces gives those pieces back |
| Util.ParseInt | util/parse.go:7-13 | A failure yields 0; a success lies in the 64-bit range and ends in a digit; a character other than a digit or sign makes it fail |
| Util.ParseIntDigits | util/parse.go:7-13 | A digit string within range parses to its decimal value |
| Util.ParseIntRender | util/parse.go:7-13 | Parsing the decimal rendering of any 64-bit integer gives it back |
| Validator.ValidateAccountPassword | internal/service/validator.go:9-12 | Accepts exactly the passwords of the anchored pattern: a letter, then 5 to 14 letters, digits or the listed symbols |
| Validator.PasswordShapeIsPlain | internal/service/validator.go:9-12 | An accepted password is non-empty and holds no white space, colon or quote |
| Catalog.KeyInjective | internal/service/server_executor/executor_service.go:47-49 | Two scripts whose directories hold no comma never share a cache key |
| Catalog.Touch | internal/service/server_executor/executor_service.go:51-54 | The first-seen time of a key is set on first sight and never moved; no other key's time changes |
| Catalog.ReadError | internal/service/server_executor/executor_service.go:66-70 | An unreadable script is an InternalErr with status 500 that is not stable |
| Catalog.LoadCmdScript | internal/service/server_executor/executor_service.go:43-75 | The key's first-seen time is recorded once; only this key's text slot can change. A hit returns the cached text and leaves the text unchanged. Without a hit, a successful read returns the file's text and stores it under the key. The lookup errors exactly when there is no hit and the read fails, and then nothing is stored. The cache invariant is kept |
| Catalog.CachedWithinMinute | internal/service/server_executor/executor_service.go:52-60 | After a script is first read, lookups within the minute return that text whatever the disk now says |
| Catalog.StaleForever | internal/service/server_executor/executor_service.go:52-60 | Once a minute has passed since first sight, every later lookup answers from the file system, because the time is never refreshed |
| Transport.ReadOutput | internal/service/server_executor/linux.go:1168-1196 | Every received byte is kept in order, and the password plus newline is written once for every byte after which the line looks like a sudo prompt |
| Transport.CurrentLineIsLastLine | internal/service/server_executor/linux.go:1174-1188 | The reader's current line is exactly the text after the last newline received |
| Transport.NoPromptNoWrite | internal/service/server_executor/linux.go:1189-1194 | If the prompt text never arrives, the password is never written |
| Transport.DropPrompts | internal/service/server_executor/linux.go:1206-1213 | The kept lines are input lines that do not start with the prompt text |
| Transport.DropPromptsAppend | internal/service/server_executor/linux.go:1206-1213 | Dropping prompt lines distributes over concatenation, so kept lines stay in the order received |
| Transport.DropPromptsKeeps | internal/service/server_executor/linux.go:1206-1213 | Lines that do not start with the prompt text are all kept |
| Transport.SanitiseIsClean | internal/service/server_executor/linux.go:1204-1214 | The cleaned output holds no carriage return and no prompt line |
| Transport.SanitiseKeepsClean | internal/service/server_executor/linux.go:1204-1214 | Output that is already clean passes unchanged |
| Transport.SanitiseIdempotent | internal/service/server_executor/linux.go:1204-1214 | Cleaning twice is the same as cleaning once |
| Transport.SanitiseDropsFirstLine | internal/service/server_executor/linux.go:1204-1214 | A first line that starts with the prompt is removed and the rest is kept |
| Transport.SanitiseDropsPromptLine | internal/service/server_executor/linux.go:1204-1214 | The sudo prompt line printed before a command's output is removed, leaving only that output |
| Transport.SendCommands | internal/service/server_executor/linux.go:1119-1215 | There is no error exactly when the run finished. Then the output is the cleaned, prompt-free text. A failed run keeps the raw output; a missing session or pty gives empty output. Errors are stable SSH connection errors |
| Host.Send | internal/service/server_executor/linux.go:1119-1129 | The command is appended to the sent log; there is no error exactly when it exits 0; host state and output are the command's effect |
| Host.LoadScript | internal/service/server_executor/executor_service.go:61-70 | Loading a verb's script fails, with an internal error, exactly when its file cannot be read |
| Host.SplitLines | util/regexp.go:5-9 | Splitting a cat output of line-break-free lines gives the lines back, followed by one empty piece |
| Runs.FirstSome | internal/service/server_executor/linux.go:291-307 | Nothing is found exactly when no line is recognised |
| Runs.FirstSomeSound | internal/service/server_executor/linux.go:291-307 | What is found was recognised on some line with no recognised line before it |
| Runs.FirstSomeAt | internal/service/server_executor/linux.go:291-307 | A recognised line with none before it decides the result |
| Runs.LastSome | internal/service/server_executor/linux.go:392-402 | Nothing is found exactly when no line is recognised |
| Runs.LastSomeSound | internal/service/server_executor/linux.go:392-402 | What is found was recognised on some line with no recognised line after it, so a later match overwrites an earlier one |
| Runs.LastSomeAt | internal/service/server_executor/linux.go:392-402 | A recognised line with none after it decides the result |
| Runs.AllSome | internal/service/server_executor/linux.go:366-373 | At most one result per line |
| Runs.AllSomeComplete | internal/service/server_executor/linux.go:366-373 | Every recognised line contributes its result |
| Runs.AllSomeSound | internal/service/server_executor/linux.go:366-373 | Every result comes from a recognised line |
| Runs.AllSomeAppend | internal/service/server_executor/linux.go:366-373 | Results of two runs of lines come in line order |
| Probes.KeyValueSound | internal/service/server_executor/linux.go:456-467 | A value read from a key line is a non-blank word that ends the trimmed line, with only white space between key and value |
| Probes.KeyValueOf | internal/service/server_executor/linux.go:456-467 | A key, white space, then one word: that word is the value |
| Probes.KeyNumber | internal/service/server_executor/linux.go:469-484 | A numeric field is present exactly when the key line has a value that parses as an integer |
| Probes.KeyRestOf | internal/service/server_executor/linux.go:503-515 | A key, white space, then a text trimmed at both ends: that text is the value |
| Probes.ParseMeminfo | internal/service/server_executor/linux.go:387-408 | The fallback reports figures only from meminfo, and only when both MemTotal and MemFree are above zero |
| Probes.KbValueOf | internal/service/server_executor/linux.go:388-401 | A meminfo line of key, blanks, digits and kB yields exactly those digits |
| Probes.KbValueDigits | internal/service/server_executor/linux.go:388-389 | What the kB pattern captures is a digit string |
| Probes.KbDigitsNonNegative | internal/service/server_executor/linux.go:403-405 | The meminfo figures parse to values no smaller than zero, so the zero check is the only guard needed |
| Probes.SessionLineSound | internal/service/server_executor/linux.go:703-704 | A session's account is a non-empty run of word characters that starts the trimmed line, and what it runs ends the line |
| Probes.SessionLineOf | internal/service/server_executor/linux.go:703-704 | A line of w (account, three columns, command) yields that account and command |
| Probes.AsUint | internal/service/server_executor/linux.go:343-347 | The PID conversion to uint wraps modulo 2 to the 64 and stays below it |
| Probes.ProcessRow | internal/service/server_executor/linux.go:331-365 | A row is read only from a trimmed line of exactly twelve fields whose PID parses and whose CPU figure is a float |
| Probes.ProcessRowOf | internal/service/server_executor/linux.go:331-365 | A right-aligned twelve-column row yields its PID, owner, command and CPU and memory columns |
| Greedy.CpuFieldSound | internal/service/server_executor/linux.go:295-299 | The CPU figure is digits and dots read at the last Cpu(s) label of the line, with only blanks before it |
| Greedy.CpuFieldOf | internal/service/server_executor/linux.go:295-299 | A top CPU line gives its user figure back, whatever text precedes the label |
| Greedy.MemFieldSound | internal/service/server_executor/linux.go:312-316 | The memory figures are three digit runs, each followed by its label, read at the last comma where the pattern fits |
| Greedy.MemFieldOf | internal/service/server_executor/linux.go:312-316 | A top memory line gives its free, used and buff/cache figures back |
| Greedy.GpuProductSound | internal/service/server_executor/linux.go:544-546 | The product ends the trimmed line after the last "controller: " that follows VGA, and holds no further "controller: " |
| Greedy.GpuProductOf | internal/service/server_executor/linux.go:544-546 | An lspci VGA line names its product, provided the product does not itself contain "controller: " |
| Greedy.MemUsable | internal/service/server_executor/linux.go:308-324 | Memory figures taken from top are top's own, and none of them is zero |
| Greedy.MemUsableOf | internal/service/server_executor/linux.go:312-324 | A top memory line with figures in range yields those values |
| Greedy.TopCpuFirst | internal/service/server_executor/linux.go:291-307 | The first line with a usable CPU figure decides the CPU usage |
| Greedy.TopMemFirst | internal/service/server_executor/linux.go:308-330 | The first line with usable memory figures decides the memory usage |
| Greedy.TopMemPositive | internal/service/server_executor/linux.go:318-324 | A memory usage read from top has all three figures above zero |
| Greedy.TopProcessesInOrder | internal/service/server_executor/linux.go:366-373 | Process rows are reported in the order of their lines |
| Parsers.SplitAccountLine | internal/service/server_executor/linux.go:908-917 | A recognised line is a name, a uid and a gid joined by bars, with digit-only uid and gid and a non-empty name |
| Parsers.SplitAccountLineComplete | internal/service/server_executor/linux.go:908-917 | Every line of that shape is recognised with exactly those groups, even when the name holds bars |
| Parsers.ParseAccountLine | internal/service/server_executor/linux.go:912-935 | An account is reported exactly when the line matches and both numbers convert, with the converted uid and gid |
| Parsers.ParseRenderAccount | internal/service/server_executor/linux.go:908-935 | Parsing the line rendered for an account gives the account back |
| Parsers.ParseRenderAccounts | internal/service/server_executor/linux.go:907-937 | Rendering a list of accounts line by line and parsing it back gives the list, skipping the empty last piece |
| Parsers.Principal | internal/service/server_executor/linux.go:821-827 | The captured principal is the longest prefix followed by a full grant tail, as the greedy group takes it; there is no match when no suffix is a grant tail |
| Parsers.PrincipalOfGrant | internal/service/server_executor/linux.go:821-831 | The line add_sudoers writes is recognised as a grant for exactly that name |
| Parsers.SudoersFilter | internal/service/server_executor/linux.go:802-812 | No kept line is a comment, and no more lines are kept than read |
| Parsers.SudoersFilterMember | internal/service/server_executor/linux.go:802-812 | A line is kept exactly when it is the trimmed form of an input line and not a comment |
| Parsers.HasGrantExists | internal/service/server_executor/linux.go:822-832 | A name counts as granted exactly when some kept line's principal is that name |
| Accounts.GetAccountList | internal/service/server_executor/linux.go:895-939 | The host is unchanged; there is no error exactly when the script loads and runs; on an error no accounts are reported |
| Accounts.AccountListRoundTrip | internal/service/server_executor/linux.go:895-939 | On a host whose accounts can be listed, every passwd entry is reported in order with its uid and gid |
| Accounts.DeleteAccount | internal/service/server_executor/linux.go:942-956 | Succeeds exactly for a known account on a working host, removing only that account; on failure the host is unchanged |
| Accounts.LoadSudoersLines | internal/service/server_executor/linux.go:760-813 | Reads the sudoers file without changing it; on success the lines are the kept, trimmed, non-comment lines |
| Accounts.Add2Sudoers | internal/service/server_executor/linux.go:816-845 | Only the sudoers lines can change. An existing grant for the name means nothing is appended. Otherwise exactly the grant line is appended. On failure the host is unchanged |
| Accounts.Add2SudoersIdempotent | internal/service/server_executor/linux.go:816-845 | After a successful grant, a second call only reads the sudoers file and changes nothing |
| Accounts.AppendGrant | internal/service/server_executor/linux.go:834-844 | Success appends exactly the grant line; failure changes nothing |
| Accounts.GrantKept | internal/service/server_executor/linux.go:821-831 | After the grant line is appended the name reads as granted |
| Accounts.SendUserAdd | internal/service/server_executor/linux.go:873-883 | useradd succeeds exactly for a new name on a working host and creates that account; an unreadable script is not checked for: its empty text is formatted anyway, so Sprintf's `%!(EXTRA …)` text holding the password and the name is sent (modelled as the abstract `Garbled` command), and that command fails; failure changes nothing |
| Accounts.AddAccount | internal/service/server_executor/linux.go:848-893 | Success means the name was new and now exists, and a grantable name is granted sudo. An existing name fails and changes nothing. An unreadable useradd script sends the garbled command and fails |
| Accounts.AddAccountStopsOnUserAdd | internal/service/server_executor/linux.go:878-883 | A failing useradd stops before the sudoers file is read: one command, no change |
| Executor.FlagRead | internal/service/server_executor/linux.go:212-218 | The "output contains 1" test reads back the flag the existence scripts print |
| Executor.PathExists | internal/service/server_executor/linux.go:198-219 | There is no error exactly when the script works, and then found means the path is in the file table; an error reads as not found. The output is the flag the check prints |
| Executor.DirExists | internal/service/server_executor/linux.go:166-196 | Errors from either step are passed on; found means the path is a directory; a missing path sends only the existence check |
| Executor.FileExists | internal/service/server_executor/linux.go:133-163 | Only a failing is_file command on an existing path is an error; a failing existence check or an unreadable is_file script reads as no file; found implies a regular file |
| Executor.ExistsAsymmetry | internal/service/server_executor/linux.go:133-172 | With a failing existence check, DirExists reports an error while FileExists reports "no file" without one |
| Executor.Mkdir | internal/service/server_executor/linux.go:222-235 | Succeeds exactly on a working host when the path is absent, then adds exactly one empty directory; otherwise nothing changes |
| Executor.MkdirIfNotExists | internal/service/server_executor/linux.go:238-252 | After success the path exists. Only an absent path is created. Nothing else on the host changes. An existing path gets only the existence check. On success the output is the existence check's flag, even when mkdir ran; mkdir's output is returned only with mkdir's error |
| Executor.MkdirIfNotExistsIdempotent | internal/service/server_executor/linux.go:238-252 | A second call after a successful one only asks whether the path exists and changes nothing |
| Executor.Move | internal/service/server_executor/linux.go:109-130 | Succeeds exactly when the script works and mv can move the source; then the file table is the moved one, otherwise the host is unchanged |
| Executor.GetAccountHomeDir | internal/service/server_executor/linux.go:959-976 | The host is unchanged; on a host of tidy home paths the trimmed answer is the account's home, or empty for an unknown account |
| Executor.BackupPath | internal/service/server_executor/linux.go:596-603 | The backup directory lies strictly inside /backup |
| Executor.GetBackupDir | internal/service/server_executor/linux.go:594-616 | On success /backup exists and nothing else was created. The response names the backup path and says whether it exists and whether it is a directory. Its output is the existence check of /backup |
| Executor.BackupAccountHomeDir | internal/service/server_executor/linux.go:619-651 | On success the home directory was present and the target free. The host is the one after the plain mv of home to the backup path, which is the last command sent. Accounts never change |
| Executor.BackupHome | internal/service/server_executor/linux.go:626-651 | On a host where nothing fails, the backup succeeds exactly when the home is a directory, the target is free and the move can be made |
| Executor.BackupMove | internal/service/server_executor/linux.go:635-651 | With the home known to be a directory, success is exactly a free target and a possible move |
| Executor.RecoverAccountHomeDir | internal/service/server_executor/linux.go:654-684 | On success the backup was a directory and the home was free unless forced. The host is the one after the plain mv back to the home, which is the last command sent |
| Executor.RecoverHome | internal/service/server_executor/linux.go:661-684 | On a host where nothing fails, recovery succeeds exactly when the home is free or forced, the backup is a directory and the move can be made |
| Executor.RecoverMove | internal/service/server_executor/linux.go:669-684 | With the home path usable, success is exactly a backup directory and a possible move |
| Executor.BackupRefusesMissingHome | internal/service/server_executor/linux.go:626-633 | A home that is not a directory gives BackupDirNotExists before anything is created or moved |
| Executor.BackupRefusesTakenTarget | internal/service/server_executor/linux.go:635-643 | A taken backup path gives BackupTargetDirAlreadyExists, with only /backup made sure of |
| Executor.BackupSucceeds | internal/service/server_executor/linux.go:619-651 | Otherwise, on a working host, the backup succeeds |
| Executor.RecoverRefusesTakenHome | internal/service/server_executor/linux.go:661-668 | An occupied home stops a non-forced recovery with BackupTargetDirAlreadyExists, changing nothing |
| Executor.RecoverRefusesMissingBackup | internal/service/server_executor/linux.go:669-676 | A backup path that is not a directory gives BackupDirNotExists before any move |
| Executor.RecoverSucceeds | internal/service/server_executor/linux.go:654-684 | Otherwise, when the move can be made, the recovery succeeds |
| Executor.BackupThenRecover | internal/service/server_executor/linux.go:619-684 | Backing up then recovering without force restores the file table, apart from /backup, and frees the backup path |
| Executor.RecoverIntoExistingHome | internal/service/server_executor/linux.go:666-677 | A forced recovery onto an existing home moves the backup inside it, under its own name, and leaves the home's own entry unchanged |
| Readings.TopProbe | internal/service/server_executor/linux.go:274-290 | top leaves the host unchanged; on success the output is top's text and the report is what the top parser reads from it |
| Readings.WithMeminfo | internal/service/server_executor/linux.go:374-413 | The meminfo step keeps CPU and processes. On success it appends its output after the separator, and the memory figures become the meminfo reading |
| Readings.GetCPUMemProcessesUsages | internal/service/server_executor/linux.go:255-416 | There is no error exactly when top works and, if top has no usable memory line, meminfo works. CPU figure and process rows are top's. The output starts with top's text |
| Readings.TopMemoryWins | internal/service/server_executor/linux.go:374-375 | When top has usable memory figures they are reported and meminfo is never run |
| Readings.MeminfoFallback | internal/service/server_executor/linux.go:374-413 | Without a usable memory line in top, the figures are exactly meminfo's and both outputs are kept |
| Readings.GetCPUHardware | internal/service/server_executor/linux.go:418-526 | The host is unchanged; there is no error exactly when lscpu works, and then the fields are parsed from its output |
| Readings.ArchitectureFirst | internal/service/server_executor/linux.go:454-467 | The architecture comes from the first line that names one |
| Readings.GetGPUHardware | internal/service/server_executor/linux.go:528-560 | The host is unchanged; there is no error exactly when lspci works; at most one product per line |
| Readings.GpuHardwareSound | internal/service/server_executor/linux.go:542-557 | Every reported product follows the last "controller: " of a line that mentions VGA before it |
| Readings.GpuHardwareComplete | internal/service/server_executor/linux.go:542-557 | Every VGA line of the listing is reported |
| Readings.GetMemoryHardware | internal/service/server_executor/linux.go:562-591 | The host is unchanged; there is no error exactly when meminfo works, and then the output is meminfo's text |
| Readings.MemoryTotalOf | internal/service/server_executor/linux.go:574-589 | The text after the first MemTotal label and its blanks is the reported total, unit included |
| Readings.GetRemoteAccessInfos | internal/service/server_executor/linux.go:686-722 | The host is unchanged; there is no error exactly when w works; at most one session per line |
| Readings.RemoteAccessSound | internal/service/server_executor/linux.go:701-720 | Every reported session names a word-character account that starts its line, and its command ends the line |
| Readings.RemoteAccessComplete | internal/service/server_executor/linux.go:701-720 | Every line of w's output that the session pattern matches is reported as a session |
| Readings.GetGPUUsages | internal/service/server_executor/linux.go:724-757 | The result is the GPU names, a newline, then the usage table. A failing name query prints nothing and is not an error. Only a missing script or a failing usage query is |
| Readings.GpuNameFailureIgnored | internal/service/server_executor/linux.go:738-743 | Whether the name query fails never changes whether the call errors |
| Bootstrap.Classify | internal/service/server_executor/linux.go:1068-1076 | A successful check never yields the unset type |
| Bootstrap.ClassifyOccurs | internal/service/server_executor/linux.go:1068-1076 | Ubuntu exactly when "ubuntu" occurs in the lower-cased text; CentOS exactly when "centos" occurs and "ubuntu" does not; otherwise unknown |
| Bootstrap.ClassifyIgnoresCase | internal/service/server_executor/linux.go:1068-1070 | The distribution is read without regard to case |
| Bootstrap.CheckSudoPrivilege | internal/service/server_executor/linux.go:1044-1055 | The host is unchanged; there is no error exactly when the check runs and the admin has sudo; "has sudo" holds exactly when there is no error |
| Bootstrap.CheckOSInfo | internal/service/server_executor/linux.go:1058-1078 | The host is unchanged; there is no error exactly when os_info works, and then the output is the release text; the type is unset exactly on an error |
| Bootstrap.OpenErrorFormat | internal/service/server_executor/linux.go:28-44 | Each stage's error is the SSH connection sentinel re-worded with the source's four-argument format: host, port, account, password |
| Bootstrap.MessageHead | internal/service/server_executor/linux.go:28-44 | The first two characters of a message tell the no-sudo message apart from every other stage's |
| Bootstrap.OpenLinux | internal/service/server_executor/linux.go:25-65 | Opening succeeds exactly when the host is reached, the sudo check passes, os_info works and the distribution is known. Each failing stage gives its own error, in stage order. An opened service carries the classified type and the two checks sent |
| Bootstrap.OpeningSendsChecksOnly | internal/service/server_executor/linux.go:25-45 | Opening sends at most the sudo check and then the os_info check |
| Bootstrap.NoSudoNeverReported | internal/service/server_executor/linux.go:30-37 | The "no sudo" message is never produced: an admin without sudo gets the failed-check message |
| Bootstrap.OpenedIsSupported | internal/service/server_executor/linux.go:43-63 | An opened service is Ubuntu or CentOS, so the switch never panics |
| Bootstrap.OpenExecutorService | internal/service/server_executor/executor_service.go:33-40 | A Linux server opens on the dialled host with its own host, port and admin credentials; failures are stable SSH connection errors |
| Reconcile.LiveMap | internal/service/server.go:304-307 | Every entry is stored under its own name |
| Reconcile.LiveMapSpec | internal/service/server.go:304-307 | The map holds every listed name, each with the last entry the listing gave for it |
| Reconcile.Match | internal/service/server.go:329-341 | One result per stored account; what is left of the copy is a part of it |
| Reconcile.MatchSpec | internal/service/server.go:329-341 | The first stored account with a listed name takes the host's uid and gid. Every other one is marked not in the server. Names, passwords and addresses are kept |
| Reconcile.MatchLeft | internal/service/server.go:325-341 | The copy keeps exactly the listed names that no stored account has |
| Reconcile.Combine | internal/service/server.go:324-369 | No stored account is lost, and the upsert batch has one row per appended account |
| Reconcile.CombineKeepsStored | internal/service/server.go:329-341 | Stored accounts keep their place and name. Listed ones take the host's uid and gid, and the others are marked not in the server |
| Reconcile.CombineUpsertIff | internal/service/server.go:343-360 | An upsert is issued exactly when the host lists a name that no stored account has |
| Reconcile.CombineShape | internal/service/server.go:343-368 | The result is the matched stored accounts followed by the appended ones, which the upsert writes |
| Reconcile.AddedSound | internal/service/server.go:350-368 | Each appended account is a listed one no stored account names, as the host lists it, with no name twice |
| Reconcile.AddedComplete | internal/service/server.go:350-368 | Every listed name that no stored account has is appended |
| Reconcile.CombineAddsUnstored | internal/service/server.go:343-368 | Every listed, unstored account is appended after the stored ones and written by the one upsert batch |
| Reconcile.CombineAddsOnce | internal/service/server.go:366-368 | No listed account is appended twice |
| Reconcile.CombineAddsOnlyUnstored | internal/service/server.go:366-368 | Everything appended is a listed account no stored account names |
| Reconcile.LookupBackups | internal/service/server.go:371-400 | Every account gets its own backup information and nothing else about it changes; the host changes at most by /backup |
| Reconcile.LookupBackupsFaithful | internal/service/server.go:377-395 | On a working host, each account is told its backup path, whether it exists and whether it is a directory |
| Reconcile.BarrierSchedule | internal/service/server.go:375-399 | The loop waits after starting lookup `i` exactly when `i % 5 == 0` or `i` is the last index, so the first batch is the single lookup 0 and later batches hold five; the waits come in increasing order, and at most five lookups are outstanding |
| Reconcile.LoadAccounts | internal/service/server.go:285-322 | Without the option nothing changes. A listing failure is recorded with no accounts and no upsert. Ignoring the database never upserts. The host changes at most by /backup |
| Reconcile.ByNameSpec | internal/service/server.go:304-314 | Accounts taken by name never repeat a name, and each is the entry the name-keyed map holds |
| Reconcile.ByNameCovers | internal/service/server.go:304-314 | Every listed name is among the accounts taken by name |
| Reconcile.ByNameListed | internal/service/server.go:304-314 | Every account taken by name is a listed one |
| Reconcile.LoadAccountsIgnoringDB | internal/service/server.go:289-314 | Ignoring the database, the accounts are exactly the listed ones by name and nothing is written back |
| Servers.PackAccounts | internal/service/server.go:540-546 | Every stored row becomes one account, in order |
| Servers.ConnectFailure | internal/service/server.go:186-194 | A failed opening becomes a stable SSH connection error with status 200 |
| Servers.ConnectFailureFormat | internal/service/server.go:189-191 | The re-worded message is the source's format with the inner message quoted |
| Servers.OpenWrapped | internal/service/server.go:186-194 | Succeeds exactly when the executor opens, with the stored credentials; a failure quotes the original message inside the connection error |
| Servers.ConnectionTest | internal/service/server.go:51-64 | There is no error exactly when the executor opens |
| Servers.OpenByHostPort | internal/service/server.go:196-209 | A database error is returned as it is; otherwise opening succeeds exactly when the stored server's executor opens |
| Servers.WithConnection | internal/service/server.go:37-49 | The work runs only on an opened executor, which is always closed afterwards; a failed opening is returned unchanged and nothing is written |
| Servers.LoadHardwareInfo | internal/service/server.go:403-441 | Off, nothing changes. On, lscpu and lspci each record their own failure without stopping the other |
| Servers.LoadRemoteAccessUsages | internal/service/server.go:444-464 | Off, nothing changes. On, the section fails exactly when w fails, and then it has no sessions |
| Servers.LoadCPUMemProcessesUsageInfo | internal/service/server.go:486-503 | Off, nothing changes. On, the section fails exactly when top fails or when top has no usable memory line and the meminfo fallback fails; a failed section holds no report, even when top worked; otherwise the CPU figure and the process rows are top's. Top's text always heads the output when top ran |
| Servers.LoadGPUUsagesAsWritten | internal/service/server.go:467-483 | As written, the load panics exactly when GPU usage is asked for and the query errors |
| Servers.GPUUsagesPanicWithoutNvidia | internal/service/server.go:477-480 | A host whose nvidia usage query fails makes the load panic |
| Servers.LoadGPUUsages | internal/service/server.go:467-483 | Corrected: the section fails exactly when the query errors, and then its output is empty |
| Servers.GPUUsagesAgree | internal/service/server.go:467-483 | The corrected load agrees with the source wherever the source does not panic, and records the query's error where it does |
| Servers.LoadInfoFromServer | internal/service/server.go:211-231 | Each section is filled exactly when asked for and left as it was otherwise; the basic data and access failure are kept. Built on the corrected GPU load: where the GPU usage query errors the source panics instead (see ## Findings) |
| Servers.LoadNothing | internal/service/server.go:211-231 | A load that asks for nothing sends nothing and changes nothing |
| Servers.Fresh | internal/service/server.go:160-165 | A fresh info holds the stored server and its stored accounts, with no access failure |
| Servers.Info | internal/service/server.go:155-184 | A database error is returned as it is. Otherwise the info is present and fails exactly when the executor does not open. A failure keeps the original message as the access failure and upserts nothing |
| Servers.InfoOf | internal/service/server.go:253-279 | A listed server yields an info exactly when its executor opens |
| Servers.AttemptOf | internal/service/server.go:250-279 | One server's goroutine yields an info exactly when its executor opens, for that server |
| Servers.Attempts | internal/service/server.go:250-280 | Each listed server gets its own attempt, in order |
| Servers.OpenedIff | internal/service/server.go:267-272 | An info is kept exactly when some attempt produced it |
| Servers.Infos | internal/service/server.go:234-283 | A listing error is returned as it is; otherwise there is no error, the total is the table's count and there are at most as many infos as rows |
| Servers.InfosComplete | internal/service/server.go:250-282 | Every listed server whose executor opens is among the infos |
| Servers.InfosSound | internal/service/server.go:250-282 | Every info is that of a listed server whose executor opened |
| Servers.NameCheckFailure | internal/service/server_account.go:38-42 | A failed name check is an internal, unstable error |
| Servers.AccountNameExists | internal/service/server_account.go:32-49 | The host is unchanged and nothing is written; it errors exactly when listing fails, and then answers no |
| Servers.NameExistsIff | internal/service/server_account.go:32-49 | The check answers yes exactly for names the host lists now, whatever the database stores |
| Servers.NameExistsIsUser | internal/service/server_account.go:32-49 | On a host whose accounts can all be listed, the answer is yes exactly for passwd accounts |
| Servers.NameExistsByName | internal/service/server_account.go:43-48 | The check looks the name up among the listed accounts taken by name |
| Servers.PasswordRejected | internal/service/server_account.go:52-54 | A bad password is a stable invalid-parameter error |
| Servers.PasswordRejectedFormat | internal/service/server_account.go:52-54 | The message has no verb, so the formatted error prints it as it is |
| Servers.DoAddAccount | internal/service/server_account.go:51-75 | A bad password stops before the host is touched. Success means a valid password, a new account and one row written. An existing name fails without change. A failed upsert does not change the result |
| Servers.AddWork | internal/service/server_account.go:16-25 | A listing failure is internal. A listed name gives CreateAccountNameAlreadyExists without change. Success means a new name, a valid password, the account created and its row written |
| Servers.AddAccount | internal/service/server_account.go:15-30 | Database and connection errors are returned; otherwise the result is the work's error |
| Servers.RemoveStep | internal/service/server_account.go:99-105 | The delete succeeds exactly for a known account and then reports the directory; failure changes nothing |
| Servers.DeleteWork | internal/service/server_account.go:80-107 | A listing failure is internal. An unlisted name gives DeleteAccountNameNotExists without change. Success removes the account and reports the backup path when asked for. Nothing is written |
| Servers.DeleteBacksUpFirst | internal/service/server_account.go:89-104 | With a backup, the home is moved before the account is deleted: the last two commands are the move and userdel |
| Servers.DeleteAccount | internal/service/server_account.go:78-112 | Database and connection errors are returned, with an empty directory on any error; otherwise the result is the work's |
| Servers.RecoverWork | internal/service/server_account.go:116-139 | A listed name gives CreateAccountNameAlreadyExists without change; success means the account exists and one row was written |
| Servers.RecoverWithoutBackupIsAdd | internal/service/server_account.go:116-139 | Without the backup, recovering is adding: same host, same rows, same success |
| Servers.RecoverMovesBackupLast | internal/service/server_account.go:124-137 | With the backup, the row is written even when the move fails; a successful recovery ends with the plain move of the backup to the new home |
| Servers.RecoverAccount | internal/service/server_account.go:115-144 | Database errors are returned; an opened executor gives the work's error |
| Servers.UpdateWork | internal/service/server_account.go:148-169 | Only the stored row can change. The row is written exactly when the name is listed. Unlike adding, the upsert's error is the result. An unlisted name gives UpdateAccountNameNotExists |
| Servers.UpdateAccount | internal/service/server_account.go:147-174 | Database errors are returned; an opened executor gives the work's error |
| Servers.BackupDirInfo | internal/service/server_account.go:177-195 | Exactly one of view and error is present; the view names the backup path and whether it exists and is a directory |

## Left out

- SSH and network I/O: dialling, sessions, pty requests and pipes are parameters. `log.Fatal` on a pipe error and the password write to stdin are taken to succeed.
- Environment variables: `SendCommandsNoSudo`, `SendCommandsWithEnv` and `os.Setenv` are not part of this model, because the core's commands all go through `SendCommands`.
- The `os.Open` panic of `loadCmdScript` is a precondition (`CanLoad`), because every script the core names ships with it.
- Panics as requires:
  - the executor's `AddAccount` panics on an empty name or password;
  - `OpenExecutorService` panics on a non-Linux server.
- `encrypt` (sha512-crypt password hashing) is left out: it is a foreign computation whose result only reaches the `useradd` command line.
- Strings.ToLower: lower-cases ASCII letters only, where `strings.ToLower` (linux.go:1067) is Unicode. `Bootstrap.Classify` only looks for the ASCII words "ubuntu" and "centos", and the only non-ASCII letters that lower-case to ASCII are U+212A (to `k`) and U+0130 (to `i`), neither of which is a letter of those words, so the classification is the same.
- Floating point: CPU and memory percentages and the float arithmetic on `MemTotal` are left out. `strconv.ParseFloat` acceptance is the `floatOk` parameter, and the CPU and memory columns are kept as text.
- `path.Join` is written as concatenation with `/`. The core only joins `/backup` with a plain file name.
- Goroutines and locks are modelled as a sequential schedule.
  - The fan-out of `Infos` and of the backup lookups is sequential; `BarrierSchedule` models only the waiting schedule.
  - The race of two lookups creating `/backup` at once is not modelled.
  - The order of `Infos` results is list order, not arrival order under the mutex.
- Go map iteration order is unspecified. The model visits listed names in order of first appearance (`KeysOf`).
- Message texts are reproduced for the account operations, including the service's `String()` text (`Bootstrap.ServiceText`). The info sections are not given their `CauseDescription` texts (server.go:300, 428, 437, 459, 479, 497): a failed section keeps the executor's error itself, whose `Error()` is the `[%s]` part of that text, and the `es=[…]` part is not built. The backup lookup (server.go:388) likewise keeps the error rather than its `Error()` string. `NameCheckFailure` quotes the listing's output instead of the `util.Pretty` text.
- `Host.Send` takes a command's output as already cleaned of carriage returns and sudo prompts. `Transport` models the reader and the cleaning (`Transport.Sanitise`) on its own, and the two are not connected, because `Host` models commands by their effect rather than by their bytes.
- The database is outside the model: queries are parameters, and upserts are rows in the result. The server-row operations (create, update, delete of servers) and `basicInfo`'s query are not part of this model.
- `util.SplitSpaces` is not part of this model. Its callers are modelled with `strings.Fields` semantics.
- The SSH connection that `openLinuxSSHExecutorService` leaves open on a failed check is not modelled, because connections carry no resource state here.
- The text of `GetGPUUsages` is returned as it is, since the source does not parse it either.
- Servers.LoadInfoFromServer: it, `Servers.Info` and `Servers.Infos` use the corrected `LoadGPUUsages`, so where the GPU usage query errors they describe a recorded failure; the source panics there (server.go:479), and inside the unrecovered goroutine of `Infos` that ends the process. The panic itself is modelled by `Servers.LoadGPUUsagesAsWritten` (see ## Findings).
- Servers.RecoverWork: the contract does not characterise every error of the recovery, only the name check and the success case, because the add and move steps are covered by AddWork and Executor.RecoverAccountHomeDir.
- Readings.GetMemoryHardware: the parsed total is stated only by MemoryTotalOf, for a meminfo whose first MemTotal line has the usual shape.
- Probes.ProcessRow: the memory column's `ParseFloat` error is ignored in the source, and the model keeps that column as text without a check.

## Findings

| source | as written | input that shows it | evidently intended | confidence | as-written member | corrected member |
|---|---|---|---|---|---|---|
| internal/service/server.go:477-480 | On an error of `GetGPUUsages`, `loadGPUUsages` sets `FailedInfo` to nil and then assigns to its `CauseDescription`, a nil pointer dereference | A server info load with GPU usages asked for, on a host whose `nvidia_gpu_usage` command fails (no NVIDIA driver) or whose GPU script cannot be read | Record the failure in a fresh `FailedInfo` and leave the output empty | not executed | Servers.LoadGPUUsagesAsWritten | Servers.LoadGPUUsages |

=== FILE: accounts.dfy ===
/** The account methods of LinuxSSHExecutorServiceTemplate (linux.go):
    listing and deleting accounts, reading /etc/sudoers, granting sudo and
    adding an account. */
module Accounts {
  import opened Wrappers
  import opened Strings
  import opened Util
  import opened Errors
  import opened Host
  import opened Parsers
  import opened Executor

  // ---------------------------------------------------------------------
  // GetAccountList and DeleteAccount (linux.go:895-955)

  /** ExecutorServiceGetAccountListResp: the output, kept even on an
      error, and the accounts read from it. */
  datatype AccountListResp = AccountListResp(output: string, accounts: seq<ListedAccount>)

  /** What get_account_list prints, read back: `name|uid|gid` lines that
      match and whose numbers convert, in order. The connection's host and
      port are attached to every entry by the caller. */
  function GetAccountList(c: Conn): (r: Out<AccountListResp>)
    ensures r.conn.remote == c.remote && r.conn.host == c.host && r.conn.port == c.port
    ensures r.err.None? <==> Healthy(c.remote, "get_account_list")
    ensures r.err.Some? ==> r.resp.accounts == []
  {
    AccountListEffect(c.remote);
    var run := Run(c, "get_account_list", AccountList);
    if run.err.Some? then Out(run.conn, AccountListResp(run.resp, []), run.err)
    else Out(run.conn, AccountListResp(run.resp, ParseAccountLines(SplitLine(run.resp))), None)
  }

  /** get_account_list prints the account lines and changes nothing. */
  lemma AccountListEffect(r: Remote)
    ensures Execute(r, AccountList) == if "get_account_list" in r.failing then Effect(r, "", false)
      else Effect(r, Lines(AccountLines(r.users)), true)
  {
  }

  /** user_del removes a known account and fails on an unknown one. */
  lemma UserDelEffect(r: Remote, name: string)
    ensures Execute(r, UserDel(name)) ==
      if "user_del" in r.failing || FindUser(r.users, name).None? then Effect(r, "", false)
      else Effect(r.(users := RemoveUser(r.users, name)), "", true)
  {
  }

  /** cat_sudoers prints the sudoers lines and changes nothing. */
  lemma CatSudoersEffect(r: Remote)
    ensures Execute(r, CatSudoers) == if "cat_sudoers" in r.failing then Effect(r, "", false)
      else Effect(r, Lines(r.sudoers), true)
  {
  }

  /** add_sudoers appends the grant line. */
  lemma AddSudoersEffect(r: Remote, name: string)
    ensures Execute(r, AddSudoers(name)) == if "add_sudoers" in r.failing then Effect(r, "", false)
      else Effect(r.(sudoers := r.sudoers + [GrantLine(name)]), "", true)
  {
  }

  /** An account get_account_list can print on one line and read back. */
  predicate Listable(u: UserEntry) {
    |u.name| > 0 && NoLineBreak(u.name) && u.uid <= MaxInt64 && u.gid <= MaxInt64
  }

  function Listed(users: seq<UserEntry>): (r: seq<ListedAccount>)
    ensures |r| == |users|
    ensures forall k :: 0 <= k < |r| ==>
      r[k] == ListedAccount(users[k].name, users[k].uid, users[k].gid)
  {
    if |users| == 0 then [] else [ListedAccount(users[0].name, users[0].uid, users[0].gid)] + Listed(users[1..])
  }

  lemma {:induction false} AccountLinesRender(users: seq<UserEntry>)
    requires forall k :: 0 <= k < |users| ==> Listable(users[k])
    ensures forall k :: 0 <= k < |Listed(users)| ==> Renderable(Listed(users)[k])
    ensures AccountLines(users) == RenderAccounts(Listed(users))
    ensures forall k :: 0 <= k < |AccountLines(users)| ==> NoLineBreak(AccountLines(users)[k])
    decreases |users|
  {
    if |users| > 0 {
      AccountLinesRender(users[1..]);
      assert Listed(users)[1..] == Listed(users[1..]);
      var line := AccountLine(users[0]);
      var n, u, g := users[0].name, NatToString(users[0].uid), NatToString(users[0].gid);
      assert line == n + "|" + u + "|" + g;
      forall i | 0 <= i < |line|
        ensures line[i] != '\n' && line[i] != '\r'
      {
        if i < |n| {
          assert line[i] == n[i];
        } else if |n| < i < |n| + 1 + |u| {
          assert line[i] == u[i - |n| - 1];
        } else if |n| + 1 + |u| < i {
          assert line[i] == g[i - |n| - 2 - |u|];
        }
      }
    }
  }

  /** On a host whose accounts can be listed, GetAccountList reports every
      passwd entry, in order, with its uid and gid. */
  lemma AccountListRoundTrip(c: Conn)
    requires Healthy(c.remote, "get_account_list")
    requires forall k :: 0 <= k < |c.remote.users| ==> Listable(c.remote.users[k])
    ensures GetAccountList(c).resp.accounts == Listed(c.remote.users)
  {
    var users := c.remote.users;
    var lines := AccountLines(users);
    assert GetAccountList(c).resp.accounts == ParseAccountLines(SplitLine(Lines(lines))) by {
      assert Run(c, "get_account_list", AccountList).resp == Lines(lines);
    }
    AccountLinesRender(users);
    assert SplitLine(Lines(lines)) == RenderAccounts(Listed(users)) + [""] by {
      SplitLines(lines);
    }
    ParseRenderAccounts(Listed(users));
  }

  /** DeleteAccount: userdel, which fails for an unknown account. */
  function DeleteAccount(c: Conn, name: string): (r: Out<string>)
    ensures r.err.None? <==> Healthy(c.remote, "user_del") && FindUser(c.remote.users, name).Some?
    ensures r.err.None? ==> r.conn.remote == c.remote.(users := RemoveUser(c.remote.users, name))
    ensures r.err.Some? ==> r.conn.remote == c.remote
  {
    UserDelEffect(c.remote, name);
    Run(c, "user_del", UserDel(name))
  }

  // ---------------------------------------------------------------------
  // Sudoers (linux.go:759-846)

  /** The lines of `cat /etc/sudoers` LoadSudoersLines keeps. */
  function SudoersLines(r: Remote): seq<string> {
    SudoersFilter(SplitLine(Lines(r.sudoers)))
  }

  /** Whether /etc/sudoers already grants `name` everything. */
  predicate Granted(r: Remote, name: string) {
    HasGrant(SudoersLines(r), name)
  }

  /** LoadSudoersLines: its text result is always "". */
  function LoadSudoersLines(c: Conn): (r: Out<seq<string>>)
    ensures r.conn.remote == c.remote
    ensures r.err.None? <==> Healthy(c.remote, "cat_sudoers")
    ensures r.err.None? ==> r.resp == SudoersLines(c.remote) && r.conn.sent == c.sent + [CatSudoers]
    ensures r.err.Some? ==> r.resp == []
  {
    CatSudoersEffect(c.remote);
    var run := Run(c, "cat_sudoers", CatSudoers);
    if run.err.Some? then Out(run.conn, [], run.err)
    else Out(run.conn, SudoersFilter(SplitLine(run.resp)), None)
  }

  /** Add2Sudoers: append the grant line unless one for the name is there. */
  function Add2Sudoers(c: Conn, name: string): (r: Out<string>)
    ensures r.conn.remote.users == c.remote.users && r.conn.remote.fs == c.remote.fs
    ensures r.conn.remote.failing == c.remote.failing && r.conn.remote.unreadable == c.remote.unreadable
    ensures r.err.None? && Granted(c.remote, name) ==>
      r.resp == "" && r.conn.remote == c.remote && r.conn.sent == c.sent + [CatSudoers]
    ensures r.err.None? && !Granted(c.remote, name) ==>
      r.conn.remote == c.remote.(sudoers := c.remote.sudoers + [GrantLine(name)])
      && r.conn.sent == c.sent + [CatSudoers, AddSudoers(name)]
    ensures r.err.None? <==> (Healthy(c.remote, "cat_sudoers")
      && (!Granted(c.remote, name) ==> Healthy(c.remote, "add_sudoers")))
    ensures r.err.Some? ==> r.conn.remote == c.remote
  {
    var ls := LoadSudoersLines(c);
    if ls.err.Some? then Out(ls.conn, "", ls.err)
    else
      assert HasGrant(ls.resp, name) == Granted(c.remote, name);
      if HasGrant(ls.resp, name) then Out(ls.conn, "", None)
      else
        assert c.sent + [CatSudoers] + [AddSudoers(name)] == c.sent + [CatSudoers, AddSudoers(name)];
        AppendGrant(ls.conn, name)
  }

  /** The add_sudoers step on its own. */
  function AppendGrant(c: Conn, name: string): (r: Out<string>)
    ensures r.err.None? <==> Healthy(c.remote, "add_sudoers")
    ensures r.err.None? ==> (r.conn.remote == c.remote.(sudoers := c.remote.sudoers + [GrantLine(name)])
      && r.conn.sent == c.sent + [AddSudoers(name)])
    ensures r.err.Some? ==> r.conn.remote == c.remote
  {
    AddSudoersEffect(c.remote, name);
    Run(c, "add_sudoers", AddSudoers(name))
  }

  /** A name whose grant line LoadSudoersLines keeps and reads back: not
      empty, no white space around it, not a comment, one line. */
  predicate Grantable(name: string) {
    |name| > 0 && !IsSpace(name[0]) && name[0] != '#' && NoLineBreak(name)
  }

  /** Every sudoers line is one line. */
  predicate SudoersWellFormed(r: Remote) {
    forall k :: 0 <= k < |r.sudoers| ==> NoLineBreak(r.sudoers[k])
  }

  /** The grant line of a grantable name is one line, with no blank at
      either end. */
  lemma GrantLineClean(name: string)
    requires Grantable(name)
    ensures NoLineBreak(GrantLine(name)) && TrimSpace(GrantLine(name)) == GrantLine(name)
    ensures GrantLine(name)[..1] == name[..1]
  {
    var g := GrantLine(name);
    assert g == name + " ALL=(ALL:ALL) ALL";
    forall i | 0 <= i < |g|
      ensures g[i] != '\n' && g[i] != '\r'
    {
      if i < |name| {
        assert g[i] == name[i];
      }
    }
    assert g[0] == name[0] && g[|g| - 1] == 'L';
    TrimSpaceStable(g);
    assert g[..1] == name[..1];
  }

  /** After the grant line is appended, the name is granted. */
  lemma GrantKept(r: Remote, name: string)
    requires Grantable(name) && SudoersWellFormed(r)
    ensures Granted(r.(sudoers := r.sudoers + [GrantLine(name)]), name)
  {
    var ls := r.sudoers + [GrantLine(name)];
    var g := GrantLine(name);
    GrantLineClean(name);
    assert forall k :: 0 <= k < |ls| ==> NoLineBreak(ls[k]);
    SplitLines(ls);
    var pieces := SplitLine(Lines(ls));
    assert pieces[|r.sudoers|] == g;
    SudoersFilterMember(pieces, g);
    PrincipalOfGrant(name);
    var kept := SudoersFilter(pieces);
    var k :| 0 <= k < |kept| && kept[k] == g;
    HasGrantExists(kept, name);
  }

  /** Add2Sudoers is idempotent: once it has succeeded, running it again
      reads /etc/sudoers, sends no add_sudoers and changes nothing. */
  lemma Add2SudoersIdempotent(c: Conn, name: string)
    requires Grantable(name) && SudoersWellFormed(c.remote)
    requires Add2Sudoers(c, name).err.None?
    ensures var c1 := Add2Sudoers(c, name).conn;
      var r := Add2Sudoers(c1, name);
      r.err.None? && r.resp == "" && r.conn.remote == c1.remote && r.conn.sent == c1.sent + [CatSudoers]
  {
    if !Granted(c.remote, name) {
      GrantKept(c.remote, name);
    }
  }

  // ---------------------------------------------------------------------
  // AddAccount (linux.go:848-893)

  /** The useradd step. An unreadable script is not checked for: its empty
      text is formatted anyway, which leaves Sprintf's `%!(EXTRA ...)` report
      of the password and the name, and that text is sent and fails. */
  function SendUserAdd(c: Conn, name: string, pwd: string): (r: (Conn, Reply))
    ensures r.1.err.None? <==> (Healthy(c.remote, "user_add_with_openssl_pwd")
      && FindUser(c.remote.users, name).None?)
    ensures r.1.err.None? ==> (FindUser(r.0.remote.users, name).Some?
      && r.0.remote.sudoers == c.remote.sudoers)
    ensures r.1.err.Some? ==> r.0.remote == c.remote
    ensures r.0.remote.failing == c.remote.failing && r.0.remote.unreadable == c.remote.unreadable
    ensures r.0.sent == c.sent + [if "user_add_with_openssl_pwd" in c.remote.unreadable then Garbled else UserAdd(pwd, name)]
  {
    var cmd := if "user_add_with_openssl_pwd" in c.remote.unreadable then Garbled else UserAdd(pwd, name);
    UserAddEffect(c.remote, pwd, name);
    Send(c, cmd)
  }

  /** AddAccount: useradd, then Add2Sudoers. Go panics on an empty name or
      password. */
  function AddAccount(c: Conn, name: string, pwd: string): (r: Out<string>)
    requires name != "" && pwd != ""
    ensures r.err.None? ==> (FindUser(c.remote.users, name).None?
      && FindUser(r.conn.remote.users, name).Some?
      && (Grantable(name) && SudoersWellFormed(c.remote) ==> Granted(r.conn.remote, name)))
    ensures FindUser(c.remote.users, name).Some? ==> r.err.Some? && r.conn.remote == c.remote
    ensures "user_add_with_openssl_pwd" in c.remote.unreadable ==>
      r.err.Some? && r.conn.remote == c.remote && r.conn.sent == c.sent + [Garbled]
    ensures r.conn.remote.failing == c.remote.failing && r.conn.remote.unreadable == c.remote.unreadable
  {
    var (c1, reply) := SendUserAdd(c, name, pwd);
    if reply.err.Some? then Out(c1, reply.output, reply.err)
    else
      assert Grantable(name) && SudoersWellFormed(c1.remote) ==>
        Granted(c1.remote.(sudoers := c1.remote.sudoers + [GrantLine(name)]), name) by {
        if Grantable(name) && SudoersWellFormed(c1.remote) {
          GrantKept(c1.remote, name);
        }
      }
      Add2Sudoers(c1, name)
  }

  /** A failing useradd stops AddAccount before /etc/sudoers is read. */
  lemma AddAccountStopsOnUserAdd(c: Conn, name: string, pwd: string)
    requires name != "" && pwd != ""
    requires !Execute(c.remote, UserAdd(pwd, name)).ok
    ensures var r := AddAccount(c, name, pwd);
      r.err.Some? && r.conn.remote == c.remote && |r.conn.sent| == |c.sent| + 1
  {
  }
}

=== FILE: bootstrap.dfy ===
/** Opening an executor service (linux.go:25-65 and 1017-1078,
    executor_service.go:17-39): dial the host, check that the admin account
    may use sudo, find out which Linux it runs, and build the template for
    that distribution. */
module Bootstrap {
  import opened Wrappers
  import opened Strings
  import opened Util
  import opened Errors
  import opened Host
  import opened Executor

  /** LinuxOSType. `Unset` is the empty value CheckOSInfo returns together
      with an error. */
  datatype LinuxOSType = Unset | Unknown | Ubuntu | CentOS

  /** The OSType column of a server row. */
  datatype ServerOSType = OSTypeLinux | OSTypeWindowsServer

  /** The names os_info is searched for, in lower case. */
  const UbuntuName: string := "ubuntu"
  const CentOSName: string := "centos"

  /** The distribution os_info names; "ubuntu" is looked for first. */
  function Classify(output: string): (t: LinuxOSType)
    ensures t != Unset
  {
    var lower := ToLower(output);
    if Contains(lower, UbuntuName) then Ubuntu
    else if Contains(lower, CentOSName) then CentOS
    else Unknown
  }

  lemma ToLowerIdempotent(s: string)
    ensures ToLower(ToLower(s)) == ToLower(s)
  {
    assert forall i :: 0 <= i < |s| ==> LowerChar(LowerChar(s[i])) == LowerChar(s[i]);
  }

  /** The distribution is read without regard to case. */
  lemma ClassifyIgnoresCase(s: string)
    ensures Classify(ToLower(s)) == Classify(s)
  {
    ToLowerIdempotent(s);
  }

  /** Classify in terms of where the names occur in the lower-cased text. */
  lemma ClassifyOccurs(s: string)
    ensures Classify(s) == Ubuntu <==> exists i :: OccursAt(ToLower(s), UbuntuName, i)
    ensures Classify(s) == CentOS <==>
      (forall i :: !OccursAt(ToLower(s), UbuntuName, i)) && exists i :: OccursAt(ToLower(s), CentOSName, i)
    ensures Classify(s) == Unknown <==>
      forall i :: !OccursAt(ToLower(s), UbuntuName, i) && !OccursAt(ToLower(s), CentOSName, i)
  {
    var lower := ToLower(s);
    ContainsIff(lower, UbuntuName);
    ContainsIff(lower, CentOSName);
    if Contains(lower, UbuntuName) {
      assert Classify(s) == Ubuntu;
      assert exists i :: OccursAt(ToLower(s), UbuntuName, i);
    } else if Contains(lower, CentOSName) {
      assert Classify(s) == CentOS;
      assert exists i :: OccursAt(ToLower(s), CentOSName, i);
    } else {
      assert Classify(s) == Unknown;
    }
  }

  // ---------------------------------------------------------------------
  // The two checks (linux.go:1043-1078)

  datatype SudoCheck = SudoCheck(output: string, hasSudo: bool)

  /** CheckSudoPrivilege: sudo_privilege exits 0 exactly when the admin
      account may use sudo. */
  function CheckSudoPrivilege(c: Conn): (r: Out<SudoCheck>)
    ensures r.conn.remote == c.remote && r.conn.host == c.host && r.conn.port == c.port
    ensures r.err.None? <==> Healthy(c.remote, "sudo_privilege") && c.remote.adminHasSudo
    ensures r.resp.hasSudo <==> r.err.None?
    ensures "sudo_privilege" in c.remote.unreadable ==> r.conn.sent == c.sent
    ensures "sudo_privilege" !in c.remote.unreadable ==> r.conn.sent == c.sent + [SudoPrivilege]
  {
    SudoEffect(c.remote);
    var e := Execute(c.remote, SudoPrivilege);
    assert e.remote == c.remote && e.output == "";
    assert e.ok <==> "sudo_privilege" !in c.remote.failing && c.remote.adminHasSudo;
    var run := Run(c, "sudo_privilege", SudoPrivilege);
    Out(run.conn, SudoCheck(run.resp, run.err.None?), run.err)
  }

  datatype OSCheck = OSCheck(output: string, osType: LinuxOSType)

  /** CheckOSInfo: os_info prints the release text, which Classify reads. */
  function CheckOSInfo(c: Conn): (r: Out<OSCheck>)
    ensures r.conn.remote == c.remote && r.conn.host == c.host && r.conn.port == c.port
    ensures r.err.None? <==> Healthy(c.remote, "os_info")
    ensures r.err.None? ==> r.resp.output == c.remote.osRelease && r.conn.sent == c.sent + [OsInfo]
    ensures r.err.Some? <==> r.resp.osType == Unset
    ensures "os_info" in c.remote.unreadable ==> r.conn.sent == c.sent
    ensures "os_info" !in c.remote.unreadable ==> r.conn.sent == c.sent + [OsInfo]
  {
    OsInfoEffect(c.remote);
    var run := Run(c, "os_info", OsInfo);
    if run.err.Some? then Out(run.conn, OSCheck(run.resp, Unset), run.err)
    else Out(run.conn, OSCheck(run.resp, Classify(run.resp)), None)
  }

  /** sudo_privilege prints nothing, changes nothing, and exits 0 exactly
      when the admin account may use sudo. */
  lemma SudoEffect(r: Remote)
    ensures Execute(r, SudoPrivilege) == if "sudo_privilege" in r.failing then Effect(r, "", false)
      else Effect(r, "", r.adminHasSudo)
  {
  }

  /** os_info prints the release text and changes nothing. */
  lemma OsInfoEffect(r: Remote)
    ensures Execute(r, OsInfo) == if "os_info" in r.failing then Effect(r, "", false)
      else Effect(r, r.osRelease, true)
  {
  }

  // ---------------------------------------------------------------------
  // openLinuxSSHExecutorService (linux.go:25-65)

  /** The step at which opening stopped. */
  datatype Stage = Dial | SudoCheckFailed | NoSudo | OSCheckFailed | Unsupported

  /** The head of the message for each stage. */
  function Lead(s: Stage): string {
    match s
    case Dial => "与该服务器建立SSH连接失败！"
    case SudoCheckFailed => "检查用户是否具有sudo权限时失败！"
    case NoSudo => "该用户并不具有sudo权限！"
    case OSCheckFailed => "检查该服务器的操作系统类型失败！"
    case Unsupported => "该服务器的操作系统类型为不支持的类型！"
  }

  /** The format of the tail every message shares,
      "服务器地址为%s:%d，用户名为：%s，密码为：%s"; the password is printed
      as it is. */
  const AddressFormat: string :=
    "服务器地址为" + ("%s" + (":" + ("%d" + ("，用户名为：" + ("%s" + ("，密码为：" + "%s"))))))

  /** The tail, filled in. */
  function Address(host: string, port: nat, account: string, pwd: string): string {
    "服务器地址为" + (host + (":" + (NatToString(port) + ("，用户名为：" + (account + ("，密码为：" + pwd))))))
  }

  /** The error of a stage, with the format filled in. */
  function OpenError(s: Stage, host: string, port: nat, account: string, pwd: string): APIErr {
    CustomMessage(SentinelErr(SSHConnection), Lead(s) + Address(host, port, account, pwd))
  }

  /** A format of four verbs between plain texts. */
  lemma SprintfFour(t0: string, t1: string, t2: string, t3: string, host: string, p: string, account: string, pwd: string)
    requires '%' !in t0 && '%' !in t1 && '%' !in t2 && '%' !in t3
    ensures var f := t0 + ("%s" + (t1 + ("%d" + (t2 + ("%s" + (t3 + "%s"))))));
      VerbCount(f) == 4 && Sprintf(f, [host, p, account, pwd])
        == t0 + (host + (t1 + (p + (t2 + (account + (t3 + pwd))))))
  {
    SprintfPlain("");
    SprintfVerb('s', "", pwd, []);
    assert "%s" == ['%', 's'] + "";
    var g3 := t3 + "%s";
    SprintfPrefix(t3, "%s", [pwd]);
    var f3 := "%s" + g3;
    SprintfVerb('s', g3, account, [pwd]);
    var g2 := t2 + f3;
    SprintfPrefix(t2, f3, [account, pwd]);
    var f2 := "%d" + g2;
    SprintfVerb('d', g2, p, [account, pwd]);
    var g1 := t1 + f2;
    SprintfPrefix(t1, f2, [p, account, pwd]);
    var f1 := "%s" + g1;
    SprintfVerb('s', g1, host, [p, account, pwd]);
    SprintfPrefix(t0, f1, [host, p, account, pwd]);
  }

  /** OpenError is the format applied to the four arguments. */
  lemma OpenErrorFormat(s: Stage, host: string, port: nat, account: string, pwd: string)
    ensures VerbCount(Lead(s) + AddressFormat) == 4
    ensures OpenError(s, host, port, account, pwd)
      == CustomMessageF(SentinelErr(SSHConnection), Lead(s) + AddressFormat, [host, NatToString(port), account, pwd])
  {
    var args := [host, NatToString(port), account, pwd];
    SprintfFour("服务器地址为", ":", "，用户名为：", "，密码为：", host, NatToString(port), account, pwd);
    assert Sprintf(AddressFormat, args) == Address(host, port, account, pwd);
    LeadPlain(s);
    SprintfPrefix(Lead(s), AddressFormat, args);
  }

  /** No stage's head holds a '%'. */
  lemma LeadPlain(s: Stage)
    ensures '%' !in Lead(s)
  {
    match s
    case Dial => assert Lead(s) == "与该服务器建立SSH连接失败！";
    case SudoCheckFailed => assert Lead(s) == "检查用户是否具有sudo权限时失败！";
    case NoSudo => assert Lead(s) == "该用户并不具有sudo权限！";
    case OSCheckFailed => assert Lead(s) == "检查该服务器的操作系统类型失败！";
    case Unsupported => assert Lead(s) == "该服务器的操作系统类型为不支持的类型！";
  }

  /** The first two characters of a message name its stage; only NoSudo
      starts with "该用". */
  lemma MessageHead(s: Stage, host: string, port: nat, account: string, pwd: string)
    ensures var m := OpenError(s, host, port, account, pwd).message;
      |m| >= 2 && (m[0] == '该' && m[1] == '用' <==> s == NoSudo)
  {
    var m := OpenError(s, host, port, account, pwd).message;
    var l := Lead(s);
    assert m[0] == l[0] && m[1] == l[1];
  }

  /** The template of an opened service: the connection it keeps and what
      it was opened with. */
  datatype Service = Service(conn: Conn, osType: LinuxOSType, account: string, pwd: string)

  /** The string value of a LinuxOSType; the unset type is the empty string. */
  function OSTypeText(t: LinuxOSType): string {
    match t
    case Unset => ""
    case Unknown => "unknown"
    case Ubuntu => UbuntuName
    case CentOS => CentOSName
  }

  /** String() of the template (linux.go:104-106), the `ES=[...]` of the
      account messages. It prints the password in the clear. */
  function ServiceText(es: Service): string {
    "LinuxSSHExecutorServiceTemplate=[Host=" + es.conn.host + ", Port=" + NatToString(es.conn.port)
      + ", ServerAccount=" + es.account + ", Pwd=" + es.pwd + ", OSType=" + OSTypeText(es.osType) + "]"
  }

  /** The commands sent while opening, and the service or the error. */
  datatype Opening = Opening(sent: seq<Command>, result: Result<Service, APIErr>)

  /** openLinuxSSHExecutorService. `dial` is what ssh.Dial reaches: the
      host, or None when the connection cannot be made. */
  function OpenLinux(host: string, port: nat, account: string, pwd: string, dial: Option<Remote>): (r: Opening)
    ensures r.result.Ok? <==> (dial.Some? && Healthy(dial.value, "sudo_privilege") && dial.value.adminHasSudo
      && Healthy(dial.value, "os_info") && Classify(dial.value.osRelease) != Unknown)
    ensures r.result.Ok? ==> (r.result.value.conn == Conn(dial.value, [SudoPrivilege, OsInfo], host, port)
      && r.result.value.osType == Classify(dial.value.osRelease)
      && r.result.value.account == account && r.result.value.pwd == pwd)
    ensures r.result.Err? ==> r.result.error.origin == SSHConnection
    ensures dial.None? ==> r == Opening([], Err(OpenError(Dial, host, port, account, pwd)))
    ensures (dial.Some? && !(Healthy(dial.value, "sudo_privilege") && dial.value.adminHasSudo)) ==>
      r.result == Err(OpenError(SudoCheckFailed, host, port, account, pwd))
    ensures (dial.Some? && Healthy(dial.value, "sudo_privilege") && dial.value.adminHasSudo
      && !Healthy(dial.value, "os_info")) ==> r.result == Err(OpenError(OSCheckFailed, host, port, account, pwd))
    ensures (dial.Some? && Healthy(dial.value, "sudo_privilege") && dial.value.adminHasSudo
      && Healthy(dial.value, "os_info") && Classify(dial.value.osRelease) == Unknown) ==>
      r.result == Err(OpenError(Unsupported, host, port, account, pwd))
  {
    match dial
    case None => Opening([], Err(OpenError(Dial, host, port, account, pwd)))
    case Some(remote) =>
      var sudo := CheckSudoPrivilege(Conn(remote, [], host, port));
      if sudo.err.Some? then Opening(sudo.conn.sent, Err(OpenError(SudoCheckFailed, host, port, account, pwd)))
      else if !sudo.resp.hasSudo then Opening(sudo.conn.sent, Err(OpenError(NoSudo, host, port, account, pwd)))
      else
        var os := CheckOSInfo(sudo.conn);
        if os.err.Some? then Opening(os.conn.sent, Err(OpenError(OSCheckFailed, host, port, account, pwd)))
        else if os.resp.osType == Unknown then Opening(os.conn.sent, Err(OpenError(Unsupported, host, port, account, pwd)))
        else Opening(os.conn.sent, Ok(Service(os.conn, os.resp.osType, account, pwd)))
  }

  /** Opening only reads the host: it sends at most the two checks, in
      order. */
  lemma OpeningSendsChecksOnly(host: string, port: nat, account: string, pwd: string, dial: Option<Remote>)
    ensures OpenLinux(host, port, account, pwd, dial).sent <= [SudoPrivilege, OsInfo]
  {
    if dial.Some? {
      var sudo := CheckSudoPrivilege(Conn(dial.value, [], host, port));
      assert sudo.conn.sent <= [SudoPrivilege];
      if sudo.err.None? {
        var os := CheckOSInfo(sudo.conn);
        assert os.conn.sent <= [SudoPrivilege, OsInfo];
      }
    }
  }

  /** The no-sudo message is never produced: CheckSudoPrivilege reports
      "no sudo" only together with an error, so an account without sudo
      gets the message of a failed check. */
  lemma NoSudoNeverReported(host: string, port: nat, account: string, pwd: string, dial: Option<Remote>)
    ensures OpenLinux(host, port, account, pwd, dial).result != Err(OpenError(NoSudo, host, port, account, pwd))
  {
    var r := OpenLinux(host, port, account, pwd, dial);
    MessageHead(NoSudo, host, port, account, pwd);
    if r.result.Err? {
      var st :| st != NoSudo && r.result == Err(OpenError(st, host, port, account, pwd));
      MessageHead(st, host, port, account, pwd);
    }
  }

  /** The distribution of an opened service is one the template supports,
      so the `panic` of the switch is never reached. */
  lemma OpenedIsSupported(host: string, port: nat, account: string, pwd: string, dial: Option<Remote>)
    requires OpenLinux(host, port, account, pwd, dial).result.Ok?
    ensures OpenLinux(host, port, account, pwd, dial).result.value.osType in {Ubuntu, CentOS}
  {
  }

  // ---------------------------------------------------------------------
  // OpenExecutorService (executor_service.go:25-39)

  datatype OpenParam = OpenParam(host: string, port: nat, osType: ServerOSType, adminAccount: string, adminPwd: string)

  /** OpenExecutorService: only Linux servers are implemented; Go panics on
      any other type. */
  function OpenExecutorService(param: OpenParam, dial: Option<Remote>): (r: Opening)
    requires param.osType == OSTypeLinux
    ensures r.result.Ok? ==> (dial.Some? && r.result.value.conn.host == param.host && r.result.value.conn.port == param.port
      && r.result.value.account == param.adminAccount && r.result.value.pwd == param.adminPwd
      && r.result.value.conn.remote == dial.value)
    ensures r.result.Err? ==> r.result.error.origin == SSHConnection && r.result.error.stable
  {
    OpenLinux(param.host, param.port, param.adminAccount, param.adminPwd, dial)
  }
}

=== FILE: catalog.dfy ===
/** executor_service.go, loadCmdScript: the per-process cache of command
    scripts read from the scripts directory. The clock and the file system
    are parameters: `now` is the reading of time.Now() (both calls of one
    lookup are taken to read the same instant) and `read` is what opening
    and reading the script file gives. */
module Catalog {
  import opened Errors

  /** One minute, in nanoseconds (time.Duration). */
  const RefreshInterval: int := 60_000_000_000

  /** The two maps the closure keeps: cached text and first-seen time. */
  datatype Cache = Cache(text: map<string, string>, seen: map<string, int>)

  const EmptyCache := Cache(map[], map[])

  /** What the file system gives for a script path. */
  datatype ReadOutcome =
    | Unopenable              // os.Open fails: loadCmdScript panics
    | ReadFailed(why: string) // ioutil.ReadAll fails
    | Read(content: string)

  datatype Load = Loaded(cmd: string) | LoadErr(err: APIErr)

  /** genKey. */
  function Key(path: string, name: string): string {
    "Path:" + path + ", Name:" + name
  }

  /** Position of the first comma, or |s|. */
  function FirstComma(s: string): (n: nat)
    ensures n <= |s|
    ensures forall i :: 0 <= i < n ==> s[i] != ','
    ensures n < |s| ==> s[n] == ','
  {
    if |s| == 0 || s[0] == ',' then 0 else 1 + FirstComma(s[1..])
  }

  lemma {:induction false} FirstCommaExact(s: string, n: nat)
    requires n < |s| && s[n] == ','
    requires forall i :: 0 <= i < n ==> s[i] != ','
    ensures FirstComma(s) == n
  {
    if n > 0 {
      FirstCommaExact(s[1..], n - 1);
    }
  }

  /** Keys of scripts whose directory path holds no comma never collide, so
      two different scripts never share a cache slot. */
  lemma KeyInjective(p1: string, n1: string, p2: string, n2: string)
    requires ',' !in p1 && ',' !in p2
    requires Key(p1, n1) == Key(p2, n2)
    ensures p1 == p2 && n1 == n2
  {
    var k := Key(p1, n1);
    var tail := k[5..];
    assert tail == p1 + ", Name:" + n1;
    assert tail == p2 + ", Name:" + n2;
    FirstCommaExact(tail, |p1|);
    FirstCommaExact(tail, |p2|);
    assert p1 == tail[..|p1|];
    assert p2 == tail[..|p2|];
    assert n1 == tail[|p1| + 7..];
    assert n2 == tail[|p2| + 7..];
  }

  /** The cache answers without touching the file system. */
  predicate Hit(c: Cache, key: string, now: int) {
    key in c.seen && now - c.seen[key] < RefreshInterval
    && key in c.text && c.text[key] != ""
  }

  /** Text is only ever cached under a key whose first-seen time is set. */
  predicate Valid(c: Cache) {
    forall k :: k in c.text ==> k in c.seen
  }

  /** The first-seen time after a lookup: set on first sight, never again. */
  function Touch(c: Cache, key: string, now: int): (r: Cache)
    ensures r.text == c.text
    ensures key in r.seen && r.seen[key] == (if key in c.seen then c.seen[key] else now)
    ensures forall k :: k in c.seen ==> k in r.seen && r.seen[k] == c.seen[k]
    ensures forall k :: k in r.seen && k != key ==> k in c.seen
  {
    if key in c.seen then c else Cache(c.text, c.seen[key := now])
  }

  /** The panic on an unopenable file is a precondition: every script the core
      names ships with it. */
  predicate CanLoad(c: Cache, path: string, name: string, now: int, read: ReadOutcome) {
    Hit(Touch(c, Key(path, name), now), Key(path, name), now) || !read.Unopenable?
  }

  /** The InternalErr reported when the script cannot be read; the format
      "...err=[%s]" is written out as a concatenation. */
  function ReadError(why: string): (e: APIErr)
    ensures e.origin == Internal && e.status == StatusInternalServerError && !e.stable
  {
    CustomMessage(SentinelErr(Internal), "loadCmdScript加载命令行数据失败！err=[" + why + "]")
  }

  /** loadCmdScript. */
  function LoadCmdScript(c: Cache, path: string, name: string, now: int, read: ReadOutcome): (r: (Cache, Load))
    requires CanLoad(c, path, name, now, read)
    ensures var key := Key(path, name);
      var (c', res) := r;
      // the first-seen time is recorded once and never moved
      && key in c'.seen
      && c'.seen[key] == (if key in c.seen then c.seen[key] else now)
      && (forall k :: k in c.seen ==> k in c'.seen && c'.seen[k] == c.seen[k])
      // the text changes only in the slot of this key, and only on a fresh read
      && (forall k :: k in c.text && k != key ==> k in c'.text && c'.text[k] == c.text[k])
      && (forall k :: k in c'.text && k != key ==> k in c.text)
      // a hit answers from the cache; otherwise the answer is the file
      && (Hit(c', key, now) && res.LoadErr? ==> false)
      && (res.Loaded? && key in c'.text ==> c'.text[key] == res.cmd)
      // what is returned: the cached text on a hit, the file's text otherwise
      && (Hit(Touch(c, key, now), key, now) ==> c' == Touch(c, key, now) && res == Loaded(c.text[key]))
      && (!Hit(Touch(c, key, now), key, now) && read.Read? ==>
            res == Loaded(read.content) && c'.text == c.text[key := read.content])
      && (res.LoadErr? <==> (!Hit(Touch(c, key, now), key, now) && read.ReadFailed?))
      && (Valid(c) ==> Valid(c'))
      && (res.LoadErr? ==> res.err.origin == Internal && res.err.status == StatusInternalServerError
                           && c'.text == c.text)
  {
    var key := Key(path, name);
    var c1 := Touch(c, key, now);
    if Hit(c1, key, now) then (c1, Loaded(c1.text[key]))
    else
      match read
      case ReadFailed(why) =>
        (c1, LoadErr(ReadError(why)))
      case Read(content) =>
        (Cache(c1.text[key := content], c1.seen), Loaded(content))
  }

  /** A script read with non-empty text is served from the cache for the rest
      of the minute after its key was first seen, whatever the disk says. */
  lemma CachedWithinMinute(c: Cache, path: string, name: string, t1: int, t2: int,
                           content: string, later: ReadOutcome)
    requires Valid(c)
    requires content != ""
    requires Key(path, name) !in c.seen
    requires t1 <= t2 < t1 + RefreshInterval
    ensures var (c1, res1) := LoadCmdScript(c, path, name, t1, Read(content));
      && res1 == Loaded(content)
      && CanLoad(c1, path, name, t2, later)
      && LoadCmdScript(c1, path, name, t2, later).1 == Loaded(content)
  {
  }

  /** The first-seen time is never refreshed: once a minute has passed since
      a key was first seen, every later lookup goes to the file system. */
  lemma StaleForever(c: Cache, path: string, name: string, now: int, read: ReadOutcome)
    requires Key(path, name) in c.seen && now - c.seen[Key(path, name)] >= RefreshInterval
    requires !read.Unopenable?
    ensures var (c', res) := LoadCmdScript(c, path, name, now, read);
      && (read.Read? ==> res == Loaded(read.content))
      && (read.ReadFailed? ==> res.LoadErr?)
      && Key(path, name) in c'.seen && now - c'.seen[Key(path, name)] >= RefreshInterval
  {
  }
}

=== FILE: errors.dfy ===
/** The API error value of err/err.go: a message, an HTTP status and a
    "stable" flag that separates expected conditions from real faults. */
module Errors {

  /** The package-level sentinel errors. */
  datatype Sentinel =
    | Internal
    | NotFound
    | BadRequest
    | AdminOnlyAction
    | NeedLogin
    | InvalidParam
    | Forbidden
    | WrongPwd
    | SSHConnection
    | BackupDirNotExists
    | BackupTargetDirAlreadyExists
    | RecoverHomeDirAlreadyExists
    | CreateAccountNameAlreadyExists
    | UpdateAccountNameNotExists
    | DeleteAccountNameNotExists

  const StatusOK: int := 200
  const StatusBadRequest: int := 400
  const StatusForbidden: int := 403
  const StatusNotFound: int := 404
  const StatusInternalServerError: int := 500

  /** An APIErr. `origin` records the sentinel the value was derived from;
      Go does not store it (it is implied by which sentinel's method built
      the value), the model keeps it so that contracts can name the error. */
  datatype APIErr = APIErr(message: string, status: int, stable: bool, origin: Sentinel)

  /** The sentinel table. */
  function SentinelErr(k: Sentinel): APIErr {
    match k
    case Internal => APIErr("服务器内部错误！", StatusInternalServerError, false, k)
    case NotFound => APIErr("未找到该API", StatusNotFound, true, k)
    case BadRequest => APIErr("错误的请求格式", StatusBadRequest, true, k)
    case AdminOnlyAction => APIErr("该行为需要管理员权限！", StatusOK, true, k)
    case NeedLogin => APIErr("需要登录！", StatusOK, true, k)
    case InvalidParam => APIErr("请求参数有误", StatusOK, true, k)
    case Forbidden => APIErr("禁止访问", StatusForbidden, true, k)
    case WrongPwd => APIErr("密码有误！", StatusOK, true, k)
    case SSHConnection => APIErr("与服务器建立SSH连接失败！", StatusOK, true, k)
    case BackupDirNotExists => APIErr("备份用户文件夹时，该用户的home目录文件夹不存在！", StatusOK, true, k)
    case BackupTargetDirAlreadyExists => APIErr("备份用户文件夹时，目标的文件夹已经存在！", StatusOK, true, k)
    case RecoverHomeDirAlreadyExists => APIErr("恢复备份的用户文件夹时，该用户的home目录文件夹已经存在！", StatusOK, true, k)
    case CreateAccountNameAlreadyExists => APIErr("创建账户时，该账户名已经存在！", StatusOK, true, k)
    case UpdateAccountNameNotExists => APIErr("更新账户信息时，该账户名不存在！", StatusOK, true, k)
    case DeleteAccountNameNotExists => APIErr("删除账户时，要删除的账户名不存在！", StatusOK, true, k)
  }

  /** Error() of the Go error interface. */
  function Error(e: APIErr): string {
    e.message
  }

  /** A fresh error with another message; the receiver is a value and is
      therefore never changed. */
  function CustomMessage(e: APIErr, message: string): (r: APIErr)
    ensures Error(r) == message
    ensures r.status == e.status && r.stable == e.stable && r.origin == e.origin
  {
    APIErr(message, e.status, e.stable, e.origin)
  }

  /** Number of argument-consuming verbs (%s, %d, %v) in a format string. */
  function VerbCount(f: string): nat {
    if |f| < 2 then 0
    else if f[0] == '%' && f[1] == '%' then VerbCount(f[2..])
    else if f[0] == '%' && f[1] in {'s', 'd', 'v'} then 1 + VerbCount(f[2..])
    else VerbCount(f[1..])
  }

  /** fmt.Sprintf restricted to the verbs the core uses, with every argument
      already rendered as text. */
  function Sprintf(f: string, args: seq<string>): string
    requires VerbCount(f) == |args|
  {
    if |f| < 2 then f
    else if f[0] == '%' && f[1] == '%' then "%" + Sprintf(f[2..], args)
    else if f[0] == '%' && f[1] in {'s', 'd', 'v'} then args[0] + Sprintf(f[2..], args[1..])
    else [f[0]] + Sprintf(f[1..], args)
  }

  /** A format without any '%' is printed as it is. */
  lemma {:induction false} SprintfPlain(f: string)
    requires '%' !in f
    ensures VerbCount(f) == 0 && Sprintf(f, []) == f
  {
    if |f| >= 2 {
      assert f[0] != '%';
      SprintfPlain(f[1..]);
      assert [f[0]] + f[1..] == f;
    }
  }

  /** Text without '%' in front of a format is printed as it is. */
  lemma {:induction false} SprintfPrefix(pre: string, g: string, args: seq<string>)
    requires '%' !in pre && VerbCount(g) == |args|
    ensures VerbCount(pre + g) == VerbCount(g)
    ensures Sprintf(pre + g, args) == pre + Sprintf(g, args)
    decreases |pre|
  {
    if |pre| > 0 {
      var f := pre + g;
      assert f[0] == pre[0] && f[1..] == pre[1..] + g;
      SprintfPrefix(pre[1..], g, args);
      if |f| < 2 {
        assert g == [] && f == pre;
      } else {
        assert [pre[0]] + (pre[1..] + Sprintf(g, args)) == pre + Sprintf(g, args);
      }
    } else {
      assert pre + g == g;
    }
  }

  /** A format with one verb prints its argument in place of the verb; this
      is how the model writes formatted messages as concatenations. */
  lemma SprintfOneVerb(pre: string, v: char, post: string, a: string)
    requires '%' !in pre && '%' !in post && (v == 's' || v == 'd' || v == 'v')
    ensures VerbCount(pre + ['%', v] + post) == 1
    ensures Sprintf(pre + ['%', v] + post, [a]) == pre + a + post
  {
    var g := ['%', v] + post;
    var f := pre + ['%', v] + post;
    assert f == pre + g;
    SprintfLastVerb(v, post, a);
    assert Sprintf(g, [a]) == a + post;
    SprintfPrefix(pre, g, [a]);
    assert Sprintf(f, [a]) == pre + (a + post);
    assert pre + (a + post) == pre + a + post;
  }

  /** A verb followed by plain text prints the argument and then the text. */
  lemma SprintfLastVerb(v: char, post: string, a: string)
    requires '%' !in post && (v == 's' || v == 'd' || v == 'v')
    ensures VerbCount(['%', v] + post) == 1
    ensures Sprintf(['%', v] + post, [a]) == a + post
  {
    SprintfPlain(post);
    SprintfVerb(v, post, a, []);
    assert [a] + [] == [a];
  }

  /** A verb at the head of a format consumes the first argument. */
  lemma SprintfVerb(v: char, g: string, a: string, args: seq<string>)
    requires VerbCount(g) == |args| && (v == 's' || v == 'd' || v == 'v')
    ensures VerbCount(['%', v] + g) == 1 + |args|
    ensures Sprintf(['%', v] + g, [a] + args) == a + Sprintf(g, args)
  {
    var f := ['%', v] + g;
    assert f[0] == '%' && f[1] == v && f[2..] == g;
    assert ([a] + args)[0] == a && ([a] + args)[1..] == args;
  }

  /** CustomMessageF: the same as CustomMessage on the formatted text. */
  function CustomMessageF(e: APIErr, format: string, args: seq<string>): (r: APIErr)
    requires VerbCount(format) == |args|
    ensures r.message == Sprintf(format, args)
    ensures r.status == e.status && r.stable == e.stable && r.origin == e.origin
  {
    CustomMessage(e, Sprintf(format, args))
  }

  /** InternalErr is the one sentinel that is not stable. */
  lemma OnlyInternalUnstable(k: Sentinel)
    ensures !SentinelErr(k).stable <==> k == Internal
    ensures SentinelErr(k).origin == k
  {
  }
}

=== FILE: executor.dfy ===
/** The file and account methods of LinuxSSHExecutorServiceTemplate
    (linux.go), run against an open connection. A method loads its script,
    sends the formatted command and reads what comes back; a script that
    cannot be loaded or a command that fails becomes the method's error,
    except where the method swallows it, as the contracts say. */
module Executor {
  import opened Wrappers
  import opened Strings
  import opened Util
  import opened Errors
  import opened Host
  import opened Parsers

  /** A template method's result: the connection after it, the response
      struct, and the error. Go returns the response even with an error. */
  datatype Out<T> = Out(conn: Conn, resp: T, err: Option<APIErr>)

  /** ExecutorServiceExistsResp. */
  datatype Probe = Probe(output: string, found: bool)

  /** The "output contains 1" convention of the existence scripts reads the
      flag the host prints. */
  lemma FlagRead(b: bool)
    ensures Contains(Flag(b), "1") == b
  {
    if b {
      assert HasPrefix(Flag(b), "1");
    } else {
      var f := Flag(b);
      assert f[..1][0] == '0' && f[1..][..1][0] == '\n' && f[1..][1..] == "";
      assert !Contains(f[1..][1..], "1");
      assert !Contains(f[1..], "1");
    }
  }

  /** Runs one command whose script loaded; a failure keeps the output. */
  function Run(c: Conn, verb: string, cmd: Command): (r: Out<string>)
    requires Verb(cmd) == verb
    ensures r.err.None? <==> Healthy(c.remote, verb) && Execute(c.remote, cmd).ok
    ensures r.err.Some? && verb !in c.remote.unreadable ==> r.err.value.origin == SSHConnection
    ensures r.err.Some? && verb in c.remote.unreadable ==> r.err.value.origin == Internal
    ensures verb in c.remote.unreadable ==> r.conn == c && r.resp == ""
    ensures verb !in c.remote.unreadable ==>
      r.conn.sent == c.sent + [cmd] && r.conn.remote == Execute(c.remote, cmd).remote
      && r.resp == Execute(c.remote, cmd).output
    ensures r.conn.host == c.host && r.conn.port == c.port
  {
    var load := LoadScript(c, verb);
    if load.Some? then Out(c, "", load)
    else
      var (c1, reply) := Send(c, cmd);
      Out(c1, reply.output, reply.err)
  }

  // ---------------------------------------------------------------------
  // Files (linux.go:108-253)

  /** PathExists: `[ -f p ] || [ -d p ]`, read through the flag. */
  function PathExists(c: Conn, p: string): (r: Out<Probe>)
    ensures r.conn.remote == c.remote
    ensures r.err.None? <==> Healthy(c.remote, "path_exists")
    ensures r.err.None? ==> (r.resp.found == (p in c.remote.fs)
      && r.conn.sent == c.sent + [Command.PathExists(p)])
    ensures r.err.None? ==> r.resp.output == Flag(p in c.remote.fs)
    ensures r.err.Some? ==> !r.resp.found
  {
    var run := Run(c, "path_exists", Command.PathExists(p));
    if run.err.Some? then Out(run.conn, Probe(run.resp, false), run.err)
    else
      FlagRead(p in c.remote.fs);
      Out(run.conn, Probe(run.resp, Contains(run.resp, "1")), None)
  }

  predicate IsDirIn(r: Remote, p: string) {
    p in r.fs && r.fs[p].Dir?
  }

  predicate IsFileIn(r: Remote, p: string) {
    p in r.fs && r.fs[p].File?
  }

  /** DirExists: PathExists first; `is_dir` only for a path that exists.
      Every error is passed on. */
  function DirExists(c: Conn, p: string): (r: Out<Probe>)
    ensures r.conn.remote == c.remote
    ensures r.err.None? <==> (Healthy(c.remote, "path_exists")
      && (p in c.remote.fs ==> Healthy(c.remote, "is_dir")))
    ensures r.err.None? ==> r.resp.found == IsDirIn(c.remote, p)
    ensures r.err.Some? ==> !r.resp.found
    ensures r.err.None? && p !in c.remote.fs ==> r.conn.sent == c.sent + [Command.PathExists(p)]
  {
    var pe := PathExists(c, p);
    if pe.err.Some? || !pe.resp.found then pe
    else
      var run := Run(pe.conn, "is_dir", IsDir(p));
      if run.err.Some? then Out(run.conn, Probe(if "is_dir" in c.remote.unreadable then pe.resp.output else run.resp, false), run.err)
      else
        FlagRead(IsDirIn(c.remote, p));
        Out(run.conn, Probe(run.resp, Contains(run.resp, "1")), None)
  }

  /** FileExists: like DirExists, but a failing PathExists or an unreadable
      `is_file` script reads as "no such file" without an error; only a
      failing `is_file` command is passed on. */
  function FileExists(c: Conn, p: string): (r: Out<Probe>)
    ensures r.conn.remote == c.remote
    ensures r.err.Some? <==> (Healthy(c.remote, "path_exists") && p in c.remote.fs
      && "is_file" !in c.remote.unreadable && "is_file" in c.remote.failing)
    ensures r.resp.found ==> IsFileIn(c.remote, p)
    ensures Healthy(c.remote, "path_exists") && Healthy(c.remote, "is_file") ==>
      r.err.None? && r.resp.found == IsFileIn(c.remote, p)
  {
    var pe := PathExists(c, p);
    if pe.err.Some? then Out(pe.conn, pe.resp, None)
    else if !pe.resp.found then pe
    else
      var run := Run(pe.conn, "is_file", IsFile(p));
      if "is_file" in c.remote.unreadable then Out(run.conn, pe.resp.(found := false), None)
      else if run.err.Some? then Out(run.conn, Probe(run.resp, false), run.err)
      else
        FlagRead(IsFileIn(c.remote, p));
        Out(run.conn, Probe(run.resp, Contains(run.resp, "1")), None)
  }

  /** The two checks treat a failing `path_exists` in opposite ways. */
  lemma ExistsAsymmetry(c: Conn, p: string)
    requires "path_exists" in c.remote.failing
    ensures DirExists(c, p).err.Some?
    ensures FileExists(c, p).err.None? && !FileExists(c, p).resp.found
  {
  }

  /** Mkdir: no existence check of its own; mkdir fails on an existing path. */
  function Mkdir(c: Conn, p: string): (r: Out<string>)
    ensures r.err.None? <==> Healthy(c.remote, "mkdir") && p !in c.remote.fs
    ensures r.err.None? ==> r.conn.remote == c.remote.(fs := c.remote.fs[p := Dir("")])
    ensures r.err.Some? ==> r.conn.remote == c.remote
  {
    Run(c, "mkdir", Command.Mkdir(p))
  }

  /** MkdirIfNotExists: mkdir only when PathExists says the path is absent.
      The response keeps PathExists's output unless mkdir fails: the Go code
      shadows `resp` inside the branch, so mkdir's output only escapes with
      mkdir's error. */
  function MkdirIfNotExists(c: Conn, p: string): (r: Out<string>)
    ensures r.err.None? <==> (Healthy(c.remote, "path_exists")
      && (p !in c.remote.fs ==> Healthy(c.remote, "mkdir")))
    ensures r.err.None? ==> r.resp == Flag(p in c.remote.fs)
    ensures Healthy(c.remote, "path_exists") && p !in c.remote.fs && r.err.Some? ==>
      r.resp == Mkdir(PathExists(c, p).conn, p).resp
    ensures r.err.None? ==> p in r.conn.remote.fs
    ensures r.err.None? && p !in c.remote.fs ==> r.conn.remote.fs == c.remote.fs[p := Dir("")]
    ensures p in c.remote.fs || r.err.Some? ==> r.conn.remote == c.remote
    ensures r.conn.remote.users == c.remote.users && r.conn.remote.sudoers == c.remote.sudoers
    ensures r.conn.remote.failing == c.remote.failing && r.conn.remote.unreadable == c.remote.unreadable
    ensures r.err.None? && p in c.remote.fs ==> r.conn.sent == c.sent + [Command.PathExists(p)]
  {
    var pe := PathExists(c, p);
    if pe.err.Some? then Out(pe.conn, pe.resp.output, pe.err)
    else if !pe.resp.found then
      var mk := Mkdir(pe.conn, p);
      if mk.err.Some? then mk else Out(mk.conn, pe.resp.output, None)
    else Out(pe.conn, pe.resp.output, None)
  }

  /** A second MkdirIfNotExists after a successful one only asks whether the
      path exists and changes nothing. */
  lemma MkdirIfNotExistsIdempotent(c: Conn, p: string)
    requires MkdirIfNotExists(c, p).err.None?
    ensures var c1 := MkdirIfNotExists(c, p).conn;
      var r := MkdirIfNotExists(c1, p);
      r.err.None? && r.conn.remote == c1.remote && r.conn.sent == c1.sent + [Command.PathExists(p)]
  {
  }

  function MoveVerb(force: bool): string {
    if force then "mv_force" else "mv"
  }

  /** Move: `mv` (or `mv -f`) of src to dst. */
  function Move(c: Conn, src: string, dst: string, force: bool): (r: Out<string>)
    ensures r.err.None? <==> Healthy(c.remote, MoveVerb(force)) && MoveSucceeds(c.remote.fs, src, dst)
    ensures r.err.None? ==> r.conn.remote == c.remote.(fs := MoveFs(c.remote.fs, src, dst))
    ensures r.err.Some? ==> r.conn.remote == c.remote
    ensures MoveVerb(force) !in c.remote.unreadable ==> r.conn.sent == c.sent + [Mv(src, dst, force)]
  {
    Run(c, MoveVerb(force), Mv(src, dst, force))
  }

  // ---------------------------------------------------------------------
  // Home directories and backups (linux.go:594-684, 957-976)

  /** Text that TrimSpace leaves alone. */
  predicate Tidy(s: string) {
    |s| > 0 ==> !IsSpace(s[0]) && !IsSpace(s[|s| - 1])
  }

  /** Every home path in passwd is tidy, so `getent | cut` reads it back. */
  predicate TidyHomes(r: Remote) {
    forall k :: 0 <= k < |r.users| ==> Tidy(r.users[k].home)
  }

  /** The home directory getent reports: empty for an unknown account. */
  function HomeOf(r: Remote, name: string): string {
    var u := FindUser(r.users, name);
    if u.Some? then u.value.home else ""
  }

  lemma {:induction false} TrimNewline(s: string)
    requires Tidy(s)
    ensures TrimSpace(s + "\n") == s
  {
    var x := s + "\n";
    assert IsSpace(x[|x| - 1]);
    if |s| == 0 {
      assert x[1..] == "";
      assert TrimLeft(x) == TrimLeft("") == "";
    } else {
      assert x[0] == s[0];
      assert TrimLeft(x) == x;
      assert x[..|x| - 1] == s;
      assert TrimRight(x) == TrimRight(s);
      assert TrimRight(s) == s;
    }
  }

  /** ExecutorServiceGetAccountHomeDirResp. */
  datatype HomeDirResp = HomeDirResp(output: string, home: string)

  /** GetAccountHomeDir: getent's answer with white space trimmed. An unknown
      account is not an error; its home reads as "". */
  function GetAccountHomeDir(c: Conn, name: string): (r: Out<HomeDirResp>)
    ensures r.conn.remote == c.remote
    ensures r.err.None? <==> Healthy(c.remote, "get_user_home_dir")
    ensures r.err.None? && TidyHomes(c.remote) ==> r.resp.home == HomeOf(c.remote, name)
  {
    HomeDirEffect(c.remote, name);
    var run := Run(c, "get_user_home_dir", HomeDir(name));
    if run.err.Some? then Out(run.conn, HomeDirResp(run.resp, ""), run.err)
    else Out(run.conn, HomeDirResp(run.resp, TrimSpace(run.resp)), None)
  }

  /** getent prints the home and a newline, or nothing for an unknown
      account; it changes nothing. Trimmed, a tidy home reads as itself. */
  lemma HomeDirEffect(r: Remote, name: string)
    ensures var u := FindUser(r.users, name);
      Execute(r, HomeDir(name)) == if "get_user_home_dir" in r.failing then Effect(r, "", false)
        else Effect(r, if u.Some? then u.value.home + "\n" else "", true)
    ensures TidyHomes(r) && "get_user_home_dir" !in r.failing ==>
      TrimSpace(Execute(r, HomeDir(name)).output) == HomeOf(r, name)
  {
    var u := FindUser(r.users, name);
    if u.Some? && TidyHomes(r) {
      var k :| 0 <= k < |r.users| && r.users[k] == u.value;
      TrimNewline(u.value.home);
    }
    assert TrimSpace("") == "";
  }

  const BackupRoot: string := "/backup"

  /** path.Join("/backup", name + ".backup"). */
  function BackupPath(name: string): (p: string)
    ensures p != BackupRoot && HasPrefix(p, BackupRoot + "/")
  {
    BackupRoot + "/" + name + ".backup"
  }

  /** The host after `/backup` has been made sure of. */
  function WithBackupRoot(r: Remote): (r': Remote)
    ensures BackupRoot in r'.fs
    ensures forall p :: p != BackupRoot ==> (p in r'.fs <==> p in r.fs)
  {
    if BackupRoot in r.fs then r else r.(fs := r.fs[BackupRoot := Dir("")])
  }

  /** ExecutorServiceGetBackupDirResp. */
  datatype BackupDirResp = BackupDirResp(output: string, pathExists: bool, dirExists: bool, backupDir: string)

  /** GetBackupDir: create /backup if it is missing, then report on
      /backup/<name>.backup. */
  function GetBackupDir(c: Conn, name: string): (r: Out<BackupDirResp>)
    ensures r.err.None? <==> (Healthy(c.remote, "path_exists")
      && (BackupRoot !in c.remote.fs ==> Healthy(c.remote, "mkdir"))
      && (BackupPath(name) in c.remote.fs ==> Healthy(c.remote, "is_dir")))
    ensures r.err.None? ==> (r.conn.remote == WithBackupRoot(c.remote)
      && r.resp.backupDir == BackupPath(name)
      && r.resp.pathExists == (BackupPath(name) in c.remote.fs)
      && r.resp.dirExists == IsDirIn(c.remote, BackupPath(name)))
    ensures r.err.None? ==> r.resp.output == Flag(BackupRoot in c.remote.fs)
    ensures r.conn.remote == c.remote || r.conn.remote == WithBackupRoot(c.remote)
  {
    var mk := MkdirIfNotExists(c, BackupRoot);
    if mk.err.Some? then Out(mk.conn, BackupDirResp(mk.resp, false, false, ""), mk.err)
    else
      assert mk.conn.remote == WithBackupRoot(c.remote);
      var target := BackupPath(name);
      var de := DirExists(mk.conn, target);
      if de.err.Some? then Out(de.conn, BackupDirResp(mk.resp, false, false, ""), de.err)
      else
        var pe := PathExists(de.conn, target);
        if pe.err.Some? then Out(pe.conn, BackupDirResp(mk.resp, false, false, ""), pe.err)
        else Out(pe.conn, BackupDirResp(mk.resp, pe.resp.found, de.resp.found, target), None)
  }

  /** ExecutorServiceBackupAccountResp. */
  datatype BackupResp = BackupResp(output: string, targetDir: string)

  function BackupHomeMissing(home: string): APIErr {
    CustomMessage(SentinelErr(BackupDirNotExists), "备份用户文件夹时，该用户的home目录文件夹不存在！该目录为" + home)
  }

  function BackupTargetTaken(target: string): APIErr {
    CustomMessage(SentinelErr(BackupTargetDirAlreadyExists), "备份用户文件夹时，目标的文件夹被占用！该目标路径为：" + target)
  }

  /** BackupAccountHomeDir: move the home directory to
      /backup/<name>.backup, refusing a missing home and a taken target. */
  function BackupAccountHomeDir(c: Conn, name: string): (r: Out<BackupResp>)
    ensures r.err.None? ==> var home := HomeOf(c.remote, name);
      && r.resp.targetDir == BackupPath(name)
      && (TidyHomes(c.remote) ==>
            IsDirIn(c.remote, home) && BackupPath(name) !in c.remote.fs
            && MoveSucceeds(WithBackupRoot(c.remote).fs, home, BackupPath(name))
            && r.conn.remote == WithBackupRoot(c.remote).(fs := MoveFs(WithBackupRoot(c.remote).fs, home, BackupPath(name)))
            && |r.conn.sent| > 0 && r.conn.sent[|r.conn.sent| - 1] == Mv(home, BackupPath(name), false))
    ensures r.err.Some? ==> r.resp.targetDir == ""
    ensures r.err.Some? ==> r.conn.remote == c.remote || r.conn.remote == WithBackupRoot(c.remote)
    ensures r.conn.remote.users == c.remote.users
  {
    var hd := GetAccountHomeDir(c, name);
    if hd.err.Some? then Out(hd.conn, BackupResp(hd.resp.output, ""), hd.err)
    else BackupHome(hd.conn, name, hd.resp.home)
  }

  /** The backup once the home path is known. On a host where nothing
      fails it succeeds exactly when the home is a directory, the target
      is free and the move can be made. */
  function BackupHome(c: Conn, name: string, home: string): (r: Out<BackupResp>)
    ensures r.err.None? ==>
      && r.resp.targetDir == BackupPath(name)
      && IsDirIn(c.remote, home) && BackupPath(name) !in c.remote.fs
      && MoveSucceeds(WithBackupRoot(c.remote).fs, home, BackupPath(name))
      && r.conn.remote == WithBackupRoot(c.remote).(fs := MoveFs(WithBackupRoot(c.remote).fs, home, BackupPath(name)))
      && |r.conn.sent| > 0 && r.conn.sent[|r.conn.sent| - 1] == Mv(home, BackupPath(name), false)
    ensures r.err.Some? ==> r.resp.targetDir == ""
    ensures r.err.Some? ==> r.conn.remote == c.remote || r.conn.remote == WithBackupRoot(c.remote)
    ensures r.conn.remote.users == c.remote.users
    ensures AllHealthy(c.remote) ==> (r.err.None? <==> (IsDirIn(c.remote, home)
      && BackupPath(name) !in c.remote.fs && MoveSucceeds(WithBackupRoot(c.remote).fs, home, BackupPath(name))))
  {
    var de := DirExists(c, home);
    if de.err.Some? then Out(de.conn, BackupResp(de.resp.output, ""), de.err)
    else if !de.resp.found then Out(de.conn, BackupResp(de.resp.output, ""), Some(BackupHomeMissing(home)))
    else BackupMove(de.conn, name, home)
  }

  /** The backup once the home is known to be a directory: the target must
      be free, and the move must go through. */
  function BackupMove(c: Conn, name: string, home: string): (r: Out<BackupResp>)
    ensures r.err.None? ==>
      && r.resp.targetDir == BackupPath(name)
      && BackupPath(name) !in c.remote.fs
      && MoveSucceeds(WithBackupRoot(c.remote).fs, home, BackupPath(name))
      && r.conn.remote == WithBackupRoot(c.remote).(fs := MoveFs(WithBackupRoot(c.remote).fs, home, BackupPath(name)))
      && |r.conn.sent| > 0 && r.conn.sent[|r.conn.sent| - 1] == Mv(home, BackupPath(name), false)
    ensures r.err.Some? ==> r.resp.targetDir == ""
    ensures r.err.Some? ==> r.conn.remote == c.remote || r.conn.remote == WithBackupRoot(c.remote)
    ensures r.conn.remote.users == c.remote.users
    ensures AllHealthy(c.remote) ==> (r.err.None? <==> (BackupPath(name) !in c.remote.fs
      && MoveSucceeds(WithBackupRoot(c.remote).fs, home, BackupPath(name))))
  {
    var bd := GetBackupDir(c, name);
    if bd.err.Some? then Out(bd.conn, BackupResp(bd.resp.output, ""), bd.err)
    else if bd.resp.pathExists then Out(bd.conn, BackupResp(bd.resp.output, ""), Some(BackupTargetTaken(bd.resp.backupDir)))
    else
      var mv := Move(bd.conn, home, bd.resp.backupDir, false);
      if mv.err.Some? then Out(mv.conn, BackupResp(mv.resp, ""), mv.err)
      else Out(mv.conn, BackupResp(mv.resp, bd.resp.backupDir), None)
  }

  /** ExecutorServiceRecoverAccountResp. */
  datatype RecoverResp = RecoverResp(output: string, homeDir: string)

  function RecoverHomeTaken(home: string): APIErr {
    CustomMessage(SentinelErr(BackupTargetDirAlreadyExists), "您要恢复到的home文件夹已被占用！请避免覆盖数据！该目标路径为" + home)
  }

  function RecoverBackupMissing(backup: string): APIErr {
    CustomMessage(SentinelErr(BackupDirNotExists), "恢复用户的目录文件夹时，该备份的文件夹不存在！其路径为：" + backup)
  }

  /** RecoverAccountHomeDir: move /backup/<name>.backup back to the home
      path. `force` only lifts the "home exists" refusal: the move itself
      is always the plain `mv`. */
  function RecoverAccountHomeDir(c: Conn, name: string, force: bool): (r: Out<RecoverResp>)
    ensures r.err.None? ==> var home := HomeOf(c.remote, name);
      (TidyHomes(c.remote) ==>
            r.resp.homeDir == home
            && (!force ==> home !in c.remote.fs)
            && IsDirIn(c.remote, BackupPath(name))
            && MoveSucceeds(WithBackupRoot(c.remote).fs, BackupPath(name), home)
            && r.conn.remote == WithBackupRoot(c.remote).(fs := MoveFs(WithBackupRoot(c.remote).fs, BackupPath(name), home))
            && |r.conn.sent| > 0 && r.conn.sent[|r.conn.sent| - 1] == Mv(BackupPath(name), home, false))
    ensures r.err.Some? ==> r.resp.homeDir == ""
    ensures r.err.Some? ==> r.conn.remote == c.remote || r.conn.remote == WithBackupRoot(c.remote)
    ensures r.conn.remote.users == c.remote.users
  {
    var hd := GetAccountHomeDir(c, name);
    if hd.err.Some? then Out(hd.conn, RecoverResp(hd.resp.output, ""), hd.err)
    else RecoverHome(hd.conn, name, hd.resp.home, force)
  }

  /** The recovery once the home path is known. On a host where nothing
      fails it succeeds exactly when the home is free (or `force` is set),
      the backup is a directory and the move can be made. */
  function RecoverHome(c: Conn, name: string, home: string, force: bool): (r: Out<RecoverResp>)
    ensures r.err.None? ==>
      && r.resp.homeDir == home
      && (!force ==> home !in c.remote.fs)
      && IsDirIn(c.remote, BackupPath(name))
      && MoveSucceeds(WithBackupRoot(c.remote).fs, BackupPath(name), home)
      && r.conn.remote == WithBackupRoot(c.remote).(fs := MoveFs(WithBackupRoot(c.remote).fs, BackupPath(name), home))
      && |r.conn.sent| > 0 && r.conn.sent[|r.conn.sent| - 1] == Mv(BackupPath(name), home, false)
    ensures r.err.Some? ==> r.resp.homeDir == ""
    ensures r.err.Some? ==> r.conn.remote == c.remote || r.conn.remote == WithBackupRoot(c.remote)
    ensures r.conn.remote.users == c.remote.users
    ensures AllHealthy(c.remote) ==> (r.err.None? <==> ((force || home !in c.remote.fs)
      && IsDirIn(c.remote, BackupPath(name)) && MoveSucceeds(WithBackupRoot(c.remote).fs, BackupPath(name), home)))
  {
    var pe := PathExists(c, home);
    if pe.err.Some? then Out(pe.conn, RecoverResp(pe.resp.output, ""), pe.err)
    else if pe.resp.found && !force then Out(pe.conn, RecoverResp(pe.resp.output, ""), Some(RecoverHomeTaken(home)))
    else RecoverMove(pe.conn, name, home)
  }

  /** The recovery once the home path may be used: the backup must be a
      directory, and the move must go through. */
  function RecoverMove(c: Conn, name: string, home: string): (r: Out<RecoverResp>)
    ensures r.err.None? ==>
      && r.resp.homeDir == home
      && IsDirIn(c.remote, BackupPath(name))
      && MoveSucceeds(WithBackupRoot(c.remote).fs, BackupPath(name), home)
      && r.conn.remote == WithBackupRoot(c.remote).(fs := MoveFs(WithBackupRoot(c.remote).fs, BackupPath(name), home))
      && |r.conn.sent| > 0 && r.conn.sent[|r.conn.sent| - 1] == Mv(BackupPath(name), home, false)
    ensures r.err.Some? ==> r.resp.homeDir == ""
    ensures r.err.Some? ==> r.conn.remote == c.remote || r.conn.remote == WithBackupRoot(c.remote)
    ensures r.conn.remote.users == c.remote.users
    ensures AllHealthy(c.remote) ==> (r.err.None? <==> (IsDirIn(c.remote, BackupPath(name))
      && MoveSucceeds(WithBackupRoot(c.remote).fs, BackupPath(name), home)))
  {
    var bd := GetBackupDir(c, name);
    if bd.err.Some? then Out(bd.conn, RecoverResp(bd.resp.output, ""), bd.err)
    else if !bd.resp.dirExists then Out(bd.conn, RecoverResp(bd.resp.output, ""), Some(RecoverBackupMissing(bd.resp.backupDir)))
    else
      var mv := Move(bd.conn, bd.resp.backupDir, home, false);
      if mv.err.Some? then Out(mv.conn, RecoverResp(mv.resp, ""), mv.err)
      else Out(mv.conn, RecoverResp(mv.resp, home), None)
  }

  /** No script is missing and no command fails by injection. */
  predicate AllHealthy(r: Remote) {
    r.failing == {} && r.unreadable == {}
  }

  /** A home path that is not a directory stops the backup before /backup
      is created or anything is moved. */
  lemma BackupRefusesMissingHome(c: Conn, name: string)
    requires AllHealthy(c.remote) && TidyHomes(c.remote)
    requires !IsDirIn(c.remote, HomeOf(c.remote, name))
    ensures var r := BackupAccountHomeDir(c, name);
      r.err.Some? && r.err.value.origin == BackupDirNotExists && r.conn.remote == c.remote
  {
  }

  /** A taken /backup/<name>.backup stops the backup before any move. */
  lemma BackupRefusesTakenTarget(c: Conn, name: string)
    requires AllHealthy(c.remote) && TidyHomes(c.remote)
    requires IsDirIn(c.remote, HomeOf(c.remote, name)) && BackupPath(name) in c.remote.fs
    ensures var r := BackupAccountHomeDir(c, name);
      r.err.Some? && r.err.value.origin == BackupTargetDirAlreadyExists
      && r.conn.remote == WithBackupRoot(c.remote)
  {
    var hd := GetAccountHomeDir(c, name);
    var de := DirExists(hd.conn, hd.resp.home);
    assert de.err.None? && de.resp.found;
    assert BackupAccountHomeDir(c, name) == BackupMove(de.conn, name, hd.resp.home);
    var bd := GetBackupDir(de.conn, name);
    assert bd.err.None? && bd.resp.pathExists;
  }

  /** Otherwise the backup succeeds. */
  lemma BackupSucceeds(c: Conn, name: string)
    requires AllHealthy(c.remote) && TidyHomes(c.remote)
    requires IsDirIn(c.remote, HomeOf(c.remote, name)) && BackupPath(name) !in c.remote.fs
    ensures BackupAccountHomeDir(c, name).err.None?
  {
    var home := HomeOf(c.remote, name);
    var fs0 := WithBackupRoot(c.remote).fs;
    assert BackupPath(name) !in fs0;
    assert home in fs0;
    assert MoveTarget(fs0, home, BackupPath(name)) == BackupPath(name);
  }

  /** An occupied home path stops a non-forced recovery before anything is
      created or moved. */
  lemma RecoverRefusesTakenHome(c: Conn, name: string)
    requires AllHealthy(c.remote) && TidyHomes(c.remote)
    requires HomeOf(c.remote, name) in c.remote.fs
    ensures var r := RecoverAccountHomeDir(c, name, false);
      r.err.Some? && r.err.value.origin == BackupTargetDirAlreadyExists && r.conn.remote == c.remote
  {
  }

  /** A backup path that is not a directory stops the recovery before any
      move. */
  lemma RecoverRefusesMissingBackup(c: Conn, name: string, force: bool)
    requires AllHealthy(c.remote) && TidyHomes(c.remote)
    requires force || HomeOf(c.remote, name) !in c.remote.fs
    requires !IsDirIn(c.remote, BackupPath(name))
    ensures var r := RecoverAccountHomeDir(c, name, force);
      r.err.Some? && r.err.value.origin == BackupDirNotExists && r.conn.remote == WithBackupRoot(c.remote)
  {
    var hd := GetAccountHomeDir(c, name);
    var pe := PathExists(hd.conn, hd.resp.home);
    assert pe.err.None? && (pe.resp.found ==> force);
    assert RecoverAccountHomeDir(c, name, force) == RecoverMove(pe.conn, name, hd.resp.home);
    RecoverMoveMissing(pe.conn, name, hd.resp.home);
  }

  /** A missing backup stops the move once /backup has been made sure of. */
  lemma RecoverMoveMissing(c: Conn, name: string, home: string)
    requires AllHealthy(c.remote) && !IsDirIn(c.remote, BackupPath(name))
    ensures var r := RecoverMove(c, name, home);
      r.err.Some? && r.err.value.origin == BackupDirNotExists && r.conn.remote == WithBackupRoot(c.remote)
  {
    var bd := GetBackupDir(c, name);
    assert bd.err.None? && !bd.resp.dirExists;
  }

  /** Otherwise the recovery succeeds, when the move can be made. */
  lemma RecoverSucceeds(c: Conn, name: string, force: bool)
    requires AllHealthy(c.remote) && TidyHomes(c.remote)
    requires force || HomeOf(c.remote, name) !in c.remote.fs
    requires IsDirIn(c.remote, BackupPath(name))
    requires MoveSucceeds(WithBackupRoot(c.remote).fs, BackupPath(name), HomeOf(c.remote, name))
    ensures RecoverAccountHomeDir(c, name, force).err.None?
  {
    var hd := GetAccountHomeDir(c, name);
    assert RecoverAccountHomeDir(c, name, force) == RecoverHome(hd.conn, name, hd.resp.home, force);
  }

  /** Backing a home directory up and recovering it without force puts the
      file table back as it was, apart from /backup itself, and leaves
      /backup/<name>.backup free again. */
  lemma BackupThenRecover(c: Conn, name: string)
    requires AllHealthy(c.remote) && TidyHomes(c.remote)
    requires IsDirIn(c.remote, HomeOf(c.remote, name)) && BackupPath(name) !in c.remote.fs
    requires HomeOf(c.remote, name) != BackupRoot
    ensures var b := BackupAccountHomeDir(c, name);
      && b.err.None?
      && var rc := RecoverAccountHomeDir(b.conn, name, false);
      && rc.err.None?
      && rc.conn.remote == WithBackupRoot(c.remote)
      && BackupPath(name) !in rc.conn.remote.fs
  {
    var home := HomeOf(c.remote, name);
    var target := BackupPath(name);
    var r0 := WithBackupRoot(c.remote);
    BackupSucceeds(c, name);
    var b := BackupAccountHomeDir(c, name);
    MoveBack(r0.fs, home, target);
    var r1 := b.conn.remote;
    assert r1 == r0.(fs := MoveFs(r0.fs, home, target));
    assert r1.users == c.remote.users;
    assert HomeOf(r1, name) == home;
    assert TidyHomes(r1);
    assert home !in r1.fs;
    assert WithBackupRoot(r1) == r1;
    assert IsDirIn(r1, target);
    assert AllHealthy(r1);
    RecoverSucceeds(b.conn, name, false);
  }

  /** path.Base of a path whose last element has no slash. */
  lemma {:induction false} BaseOfLast(p: string, e: string)
    requires '/' !in e
    ensures Base(p + "/" + e) == e
    decreases |e|
  {
    var x := p + "/" + e;
    if |e| > 0 {
      assert x[..|x| - 1] == p + "/" + e[..|e| - 1];
      BaseOfLast(p, e[..|e| - 1]);
      assert e == e[..|e| - 1] + [e[|e| - 1]];
    }
  }

  /** Where `mv` puts the backup when the home directory exists. */
  function Inside(home: string, name: string): string {
    home + "/" + name + ".backup"
  }

  lemma HomeBackupDistinct(home: string, name: string)
    requires home != BackupRoot
    ensures Inside(home, name) != BackupPath(name)
  {
    var x := Inside(home, name);
    if |home| == |BackupRoot| {
      assert x[..|home|] == home;
      assert BackupPath(name)[..|BackupRoot|] == BackupRoot;
    } else {
      assert |x| != |BackupPath(name)|;
    }
  }

  /** A forced recovery into a home directory that exists (as `useradd -m`
      leaves it) moves the backup INTO the home directory: it ends up at
      <home>/<name>.backup and the home directory keeps its contents. */
  lemma RecoverIntoExistingHome(c: Conn, name: string)
    requires AllHealthy(c.remote) && TidyHomes(c.remote) && '/' !in name
    requires var home := HomeOf(c.remote, name);
      IsDirIn(c.remote, home) && IsDirIn(c.remote, BackupPath(name))
      && home != BackupRoot && home != BackupPath(name)
      && Inside(home, name) !in c.remote.fs
    ensures var home := HomeOf(c.remote, name);
      var r := RecoverAccountHomeDir(c, name, true);
      && r.err.None?
      && r.conn.remote.fs[home] == c.remote.fs[home]
      && Inside(home, name) in r.conn.remote.fs
      && r.conn.remote.fs[Inside(home, name)] == c.remote.fs[BackupPath(name)]
      && BackupPath(name) !in r.conn.remote.fs
  {
    var home := HomeOf(c.remote, name);
    var inner := Inside(home, name);
    var src := BackupPath(name);
    BaseOfLast(BackupRoot, name + ".backup");
    assert src == BackupRoot + "/" + (name + ".backup");
    assert inner == home + "/" + Base(src);
    var fs0 := WithBackupRoot(c.remote).fs;
    HomeBackupDistinct(home, name);
    assert inner !in fs0 && home in fs0 && fs0[home] == c.remote.fs[home];
    assert src in fs0 && fs0[src] == c.remote.fs[src];
    MoveIntoDir(fs0, src, home);
    RecoverSucceeds(c, name, true);
  }

  /** `mv` onto a directory puts the source inside it, under its base name,
      and leaves the directory itself as it was. */
  lemma MoveIntoDir(fs: map<string, Node>, src: string, dir: string)
    requires dir in fs && fs[dir].Dir? && src in fs && dir != src
    requires dir + "/" + Base(src) !in fs && dir + "/" + Base(src) != src
    ensures MoveSucceeds(fs, src, dir)
    ensures var fs1, inner := MoveFs(fs, src, dir), dir + "/" + Base(src);
      && dir in fs1 && fs1[dir] == fs[dir]
      && inner in fs1 && fs1[inner] == fs[src] && src !in fs1
  {
    var inner := dir + "/" + Base(src);
    assert MoveTarget(fs, src, dir) == inner;
    assert |inner| > |dir|;
  }

}

=== FILE: greedy.dfy ===
/** The patterns of linux.go that open with a greedy `.*`: the CPU line of
    `top` (`^.*Cpu\(s\):\s+([0-9.]+) us.*$`), its memory line
    (`^.*Mem.*:.*,\s+([0-9]+) free,\s+([0-9]+) used,\s+([0-9]+) buff/cache.*$`)
    and the graphics line of lspci (`^.*VGA.*controller: (.*)$`). A greedy
    `.*` makes the match that counts the one at the LAST position where the
    rest of the pattern fits. The lines come from SplitLine and hold no line
    break, so `.` matches every character. */
module Greedy {
  import opened Wrappers
  import opened Strings
  import opened Util
  import opened Runs
  import opened Probes

  const Rates: Step := Step(Rate, true)              // `[0-9.]+`
  const CpuLabel: string := "Cpu(s):"
  const Controller: string := "controller: "

  /** The three anchored patterns. */
  datatype Anchor = CpuMark | MemMark | VgaMark

  /** The pattern fits with its anchor at position p. */
  predicate FitsAt(a: Anchor, line: string, p: nat) {
    match a
    case CpuMark => CpuAt(line, p)
    case MemMark => MemAt(line, p)
    case VgaMark => VgaAt(line, p)
  }

  /** The last position up to k where the pattern fits. */
  function LastFit(a: Anchor, line: string, k: nat): (r: Option<nat>)
    ensures r.Some? ==> r.value <= k && FitsAt(a, line, r.value)
    ensures r.Some? ==> forall j :: r.value < j <= k ==> !FitsAt(a, line, j)
    ensures r.None? ==> forall j :: 0 <= j <= k ==> !FitsAt(a, line, j)
  {
    if FitsAt(a, line, k) then Some(k) else if k == 0 then None else LastFit(a, line, k - 1)
  }

  /** Blanks: a non-empty run of `\s`. */
  predicate Blank(p: string) {
    |p| > 0 && forall i :: 0 <= i < |p| ==> IsRe2Space(p[i])
  }

  // ---------------------------------------------------------------------
  // occurrences

  /** An occurrence starts with the needle's first character. */
  lemma {:induction false} OccursFirst(line: string, t: string, j: int)
    requires |t| > 0
    ensures OccursAt(line, t, j) ==> line[j] == t[0]
  {
    if OccursAt(line, t, j) {
      assert line[j..j + |t|][0] == line[j];
    }
  }

  /** An occurrence from `lo` on is an occurrence in the text from `lo`. */
  lemma {:induction false} OccursShift(line: string, t: string, lo: nat, j: int)
    requires lo <= |line| && lo <= j
    ensures OccursAt(line, t, j) ==> OccursAt(line[lo..], t, j - lo)
  {
    if OccursAt(line, t, j) {
      assert line[lo..][j - lo..j - lo + |t|] == line[j..j + |t|];
    }
  }

  /** No position in [lo, hi) starts `t` when none holds its first character. */
  lemma {:induction false} NoOccurrenceWithin(line: string, t: string, lo: int, hi: int)
    requires |t| > 0
    requires forall i :: lo <= i < hi && 0 <= i < |line| ==> line[i] != t[0]
    ensures forall j :: lo <= j < hi ==> !OccursAt(line, t, j)
  {
    forall j | lo <= j < hi
      ensures !OccursAt(line, t, j)
    {
      OccursFirst(line, t, j);
    }
  }

  /** No position from `lo` on starts `t` when the text from `lo` does not
      contain it. */
  lemma {:induction false} NoOccurrenceFrom(line: string, t: string, lo: nat)
    requires lo <= |line| && !Contains(line[lo..], t)
    ensures forall j :: lo <= j ==> !OccursAt(line, t, j)
  {
    ContainsIff(line[lo..], t);
    forall j | lo <= j
      ensures !OccursAt(line, t, j)
    {
      OccursShift(line, t, lo, j);
    }
  }

  /** Text placed between two others is contained in the whole. */
  lemma {:induction false} ContainsMiddle(pre: string, x: string, post: string)
    ensures Contains(pre + x + post, x)
  {
    var line := pre + x + post;
    assert line[|pre|..|pre| + |x|] == x;
    assert OccursAt(line, x, |pre|);
    ContainsIff(line, x);
  }

  /** A text contains what occurs somewhere in it, and nothing else. */
  lemma {:induction false} NotContains(s: string, t: string)
    requires forall i :: 0 <= i ==> !OccursAt(s, t, i)
    ensures !Contains(s, t)
  {
    ContainsIff(s, t);
  }

  /** What the text from `lo` on contains, the text contains. */
  lemma {:induction false} ContainsSuffix(line: string, lo: nat, x: string)
    requires lo <= |line| && Contains(line[lo..], x)
    ensures Contains(line, x)
  {
    ContainsIff(line[lo..], x);
    var i :| OccursAt(line[lo..], x, i);
    assert line[lo..][i..i + |x|] == line[lo + i..lo + i + |x|];
    assert OccursAt(line, x, lo + i);
    ContainsIff(line, x);
  }

  /** What a shorter prefix contains, a longer one contains. */
  lemma {:induction false} ContainsPrefix(line: string, a: nat, b: nat, x: string)
    requires a <= b <= |line| && Contains(line[..a], x)
    ensures Contains(line[..b], x)
  {
    ContainsIff(line[..a], x);
    var i :| OccursAt(line[..a], x, i);
    assert line[..a][i..i + |x|] == line[..b][i..i + |x|];
    assert OccursAt(line[..b], x, i);
    ContainsIff(line[..b], x);
  }

  // ---------------------------------------------------------------------
  // the CPU line

  /** The CPU pattern fits with `Cpu(s):` at position p. */
  predicate CpuAt(line: string, p: nat) {
    OccursAt(line, CpuLabel, p)
    && var sc := Scan(line[p + 7..], [Spaces, Rates]);
    sc.Some? && HasPrefix(sc.value.1, " us")
  }

  /** The figure the CPU pattern captures when it fits at p. */
  function CpuValue(line: string, p: nat): string
    requires CpuAt(line, p)
  {
    Scan(line[p + 7..], [Spaces, Rates]).value.0[1]
  }

  /** The user CPU figure of one line, as text. */
  function CpuField(line: string): (r: Option<string>)
  {
    if |line| < 7 then None
    else
      var p := LastFit(CpuMark, line, |line| - 7);
      if p.None? then None else Some(CpuValue(line, p.value))
  }

  /** A fit at p: the figure is a run of digits and dots that follows
      `Cpu(s):` and blanks and is followed by ` us`. */
  lemma {:induction false} CpuValueSound(line: string, p: nat)
    requires CpuAt(line, p)
    ensures var v := CpuValue(line, p);
      && |v| > 0 && (forall i :: 0 <= i < |v| ==> IsDigit(v[i]) || v[i] == '.')
      && exists q: nat :: (p + 7 < q && OccursAt(line, v + " us", q)
        && forall i :: p + 7 <= i < q ==> IsRe2Space(line[i]))
  {
    var s := line[p + 7..];
    ScanPair(s, Spaces, Rates);
    var (ps, rest) := Scan(s, [Spaces, Rates]).value;
    var v := ps[1];
    var q := p + 7 + |ps[0]|;
    assert s == ps[0] + (v + rest);
    assert line[q..] == v + rest;
    assert line[q..q + |v| + 3] == v + " us";
    forall i | p + 7 <= i < q
      ensures IsRe2Space(line[i])
    {
      assert line[i] == ps[0][i - p - 7];
    }
    assert OccursAt(line, v + " us", q);
  }

  /** What the CPU pattern promises: the figure is a run of digits and dots
      that follows `Cpu(s):` and blanks and is followed by ` us`, and no
      later `Cpu(s):` starts another fit. */
  lemma {:induction false} CpuFieldSound(line: string)
    requires CpuField(line).Some?
    ensures var v := CpuField(line).value;
      && |v| > 0 && (forall i :: 0 <= i < |v| ==> IsDigit(v[i]) || v[i] == '.')
      && exists p: nat, q: nat ::
        && OccursAt(line, CpuLabel, p) && p + 7 < q && OccursAt(line, v + " us", q)
        && (forall i :: p + 7 <= i < q ==> IsRe2Space(line[i]))
        && (forall j :: p < j <= |line| - 7 ==> !FitsAt(CpuMark, line, j))
  {
    var p := LastFit(CpuMark, line, |line| - 7).value;
    CpuValueSound(line, p);
  }

  /** The CPU pattern fits at the label of a `top` CPU line. */
  lemma {:induction false} CpuAtOf(pre: string, pad: string, v: string, post: string)
    requires Blank(pad)
    requires |v| > 0 && forall i :: 0 <= i < |v| ==> IsDigit(v[i]) || v[i] == '.'
    ensures var line := pre + CpuLabel + pad + v + " us" + post;
      CpuAt(line, |pre|) && CpuValue(line, |pre|) == v
  {
    var tail := " us" + post;
    var line := pre + CpuLabel + pad + v + " us" + post;
    var p := |pre|;
    assert line[p..p + 7] == CpuLabel;
    assert line[p + 7..] == pad + v + tail;
    ScanPairOf(pad, v, tail, Spaces, Rates);
  }

  /** No `Cpu(s):` after the label of a `top` CPU line, unless in its end. */
  lemma {:induction false} CpuNoLater(pre: string, pad: string, v: string, post: string)
    requires Blank(pad)
    requires |v| > 0 && forall i :: 0 <= i < |v| ==> IsDigit(v[i]) || v[i] == '.'
    requires !Contains(post, CpuLabel)
    ensures var line := pre + CpuLabel + pad + v + " us" + post;
      forall j :: |pre| < j ==> !OccursAt(line, CpuLabel, j)
  {
    var line := pre + CpuLabel + pad + v + " us" + post;
    var after := |pre| + 7 + |pad| + |v| + 3;
    assert line[after..] == post;
    NoOccurrenceWithin(line, CpuLabel, |pre| + 1, after);
    NoOccurrenceFrom(line, CpuLabel, after);
  }

  /** A `top` CPU line gives its user figure back, whatever precedes it,
      provided no later `Cpu(s):` follows. */
  lemma {:induction false} CpuFieldOf(pre: string, pad: string, v: string, post: string)
    requires Blank(pad)
    requires |v| > 0 && forall i :: 0 <= i < |v| ==> IsDigit(v[i]) || v[i] == '.'
    requires !Contains(post, CpuLabel)
    ensures CpuField(pre + CpuLabel + pad + v + " us" + post) == Some(v)
  {
    var line := pre + CpuLabel + pad + v + " us" + post;
    CpuAtOf(pre, pad, v, post);
    CpuNoLater(pre, pad, v, post);
    LastFitAt(CpuMark, line, |line| - 7, |pre|);
  }

  /** The last fit is the one no later fit follows. */
  lemma {:induction false} LastFitAt(a: Anchor, line: string, k: nat, p: nat)
    requires p <= k && FitsAt(a, line, p)
    requires forall j :: p < j <= k ==> !FitsAt(a, line, j)
    ensures LastFit(a, line, k) == Some(p)
    decreases k
  {
    if k > p {
      LastFitAt(a, line, k - 1, p);
    }
  }

  // ---------------------------------------------------------------------
  // the memory line

  /** `\s+([0-9]+)` then `tag`: the digits and what follows the tag. */
  function Number(s: string, tag: string): (r: Option<(string, string)>)
  {
    var sc := Scan(s, [Spaces, Digits]);
    if sc.Some? && HasPrefix(sc.value.1, tag) then Some((sc.value.0[1], sc.value.1[|tag|..]))
    else None
  }

  /** Blanks, digits, then a text that does not go on with a digit. */
  lemma {:induction false} NumberScan(pad: string, ds: string, rest: string)
    requires Blank(pad) && |ds| > 0 && AllDigits(ds)
    requires |rest| > 0 && !IsDigit(rest[0])
    ensures Scan(pad + ds + rest, [Spaces, Digits]) == Some(([pad, ds], rest))
  {
    ScanPairOf(pad, ds, rest, Spaces, Digits);
  }

  /** A recognised number is blanks, digits and the tag, in that order. */
  lemma {:induction false} NumberSound(s: string, tag: string) returns (pad: string)
    requires Number(s, tag).Some?
    ensures var (ds, after) := Number(s, tag).value;
      && Blank(pad) && |ds| > 0 && AllDigits(ds)
      && s == pad + (ds + tag) + after
  {
    ScanPair(s, Spaces, Digits);
    var (ps, rest) := Scan(s, [Spaces, Digits]).value;
    pad := ps[0];
    assert rest == tag + rest[|tag|..];
    assert s == pad + (ps[1] + tag) + rest[|tag|..];
  }

  /** The three figures after the comma the pattern stops at. */
  function MemChain(s: string): (r: Option<(string, string, string)>)
  {
    var n1 := Number(s, " free,");
    if n1.None? then None
    else
      var n2 := Number(n1.value.1, " used,");
      if n2.None? then None
      else
        var n3 := Number(n2.value.1, " buff/cache");
        if n3.None? then None
        else Some((n1.value.0, n2.value.0, n3.value.0))
  }

  /** `Mem`, later a colon, and the colon before position c. */
  predicate MemColonBefore(line: string, c: int)
    requires c <= |line|
  {
    exists k :: 0 <= k < c && line[k] == ':' && Contains(line[..k], "Mem")
  }

  /** The memory pattern fits with its comma at position c. */
  predicate MemAt(line: string, c: nat) {
    c < |line| && line[c] == ',' && MemColonBefore(line, c) && MemChain(line[c + 1..]).Some?
  }

  /** The free, used and buff/cache figures of one line, as text. */
  function MemField(line: string): (r: Option<(string, string, string)>)
  {
    if |line| == 0 then None
    else
      var c := LastFit(MemMark, line, |line| - 1);
      if c.None? then None else MemChain(line[c.value + 1..])
  }

  /** A recognised chain holds each figure followed by its label. */
  lemma {:induction false} MemChainSound(s0: string)
    requires MemChain(s0).Some?
    ensures var (f, u, b) := MemChain(s0).value;
      && |f| > 0 && AllDigits(f) && |u| > 0 && AllDigits(u) && |b| > 0 && AllDigits(b)
      && Contains(s0, f + " free,") && Contains(s0, u + " used,") && Contains(s0, b + " buff/cache")
  {
    var p1 := NumberSound(s0, " free,");
    var (f, s1) := Number(s0, " free,").value;
    var p2 := NumberSound(s1, " used,");
    var (u, s2) := Number(s1, " used,").value;
    var p3 := NumberSound(s2, " buff/cache");
    var (b, s3) := Number(s2, " buff/cache").value;
    ContainsMiddle(p1, f + " free,", s1);
    ContainsMiddle(p2, u + " used,", s2);
    ContainsMiddle(p3, b + " buff/cache", s3);
    var k1 := |p1| + |f| + 6;
    assert s0[k1..] == s1;
    ContainsSuffix(s0, k1, u + " used,");
    var k2 := |p2| + |u| + 6;
    assert s1[k2..] == s2;
    ContainsSuffix(s1, k2, b + " buff/cache");
    ContainsSuffix(s0, k1, b + " buff/cache");
  }

  /** A fit at c: three digit runs, each followed by its label. */
  lemma {:induction false} MemAtSound(line: string, c: nat)
    requires MemAt(line, c)
    ensures var (f, u, b) := MemChain(line[c + 1..]).value;
      && |f| > 0 && AllDigits(f) && |u| > 0 && AllDigits(u) && |b| > 0 && AllDigits(b)
      && Contains(line, f + " free,") && Contains(line, u + " used,") && Contains(line, b + " buff/cache")
  {
    var s0 := line[c + 1..];
    MemChainSound(s0);
    var (f, u, b) := MemChain(s0).value;
    ContainsSuffix(line, c + 1, f + " free,");
    ContainsSuffix(line, c + 1, u + " used,");
    ContainsSuffix(line, c + 1, b + " buff/cache");
  }

  /** What the memory pattern promises: three digit runs, each followed by
      its label, and no later comma starts another fit. */
  lemma {:induction false} MemFieldSound(line: string)
    requires MemField(line).Some?
    ensures var (f, u, b) := MemField(line).value;
      && |f| > 0 && AllDigits(f) && |u| > 0 && AllDigits(u) && |b| > 0 && AllDigits(b)
      && Contains(line, f + " free,") && Contains(line, u + " used,") && Contains(line, b + " buff/cache")
      && exists c: nat :: MemAt(line, c) && forall j :: c < j < |line| ==> !FitsAt(MemMark, line, j)
  {
    var c := LastFit(MemMark, line, |line| - 1).value;
    assert MemField(line) == MemChain(line[c + 1..]);
    assert MemAt(line, c) && forall j :: c < j < |line| ==> !FitsAt(MemMark, line, j);
    MemAtSound(line, c);
  }

  /** Blanks and digits followed by a text that is not the tag. */
  lemma {:induction false} NumberMismatch(pad: string, ds: string, rest: string, tag: string)
    requires Blank(pad) && |ds| > 0 && AllDigits(ds)
    requires |rest| > 0 && !IsDigit(rest[0]) && !HasPrefix(rest, tag)
    ensures Number(pad + ds + rest, tag) == None
  {
    NumberScan(pad, ds, rest);
  }

  /** Blanks, digits and the tag: the digits and what follows the tag. */
  lemma {:induction false} NumberOf(pad: string, ds: string, tag: string, rest: string)
    requires Blank(pad) && |ds| > 0 && AllDigits(ds)
    requires |tag| > 0 && !IsDigit(tag[0])
    ensures Number(pad + ds + (tag + rest), tag) == Some((ds, rest))
  {
    NumberScan(pad, ds, tag + rest);
    assert (tag + rest)[..|tag|] == tag && (tag + rest)[|tag|..] == rest;
  }

  /** The three figures of a `top` memory line, read after its comma; read
      after either later comma, the pattern does not fit. */
  lemma {:induction false} MemChainOf(p1: string, f: string, p2: string, u: string,
                                      p3: string, b: string, post: string)
    requires Blank(p1) && Blank(p2) && Blank(p3)
    requires |f| > 0 && AllDigits(f) && |u| > 0 && AllDigits(u) && |b| > 0 && AllDigits(b)
    ensures var s2 := p3 + b + (" buff/cache" + post);
      var s1 := p2 + u + (" used," + s2);
      MemChain(p1 + f + (" free," + s1)) == Some((f, u, b))
      && MemChain(s1) == None && MemChain(s2) == None
  {
    var s2 := p3 + b + (" buff/cache" + post);
    var s1 := p2 + u + (" used," + s2);
    NumberOf(p1, f, " free,", s1);
    NumberOf(p2, u, " used,", s2);
    NumberOf(p3, b, " buff/cache", post);
    assert (" used," + s2)[1] == 'u';
    NumberMismatch(p2, u, " used," + s2, " free,");
    assert (" buff/cache" + post)[1] == 'b';
    NumberMismatch(p3, b, " buff/cache" + post, " free,");
  }

  /** No comma in blanks, digits and a label without one. */
  lemma {:induction false} NoComma(pad: string, ds: string, tag: string)
    requires Blank(pad) && AllDigits(ds) && ',' !in tag
    ensures ',' !in pad + ds + tag
  {
    assert ',' !in pad && ',' !in ds;
  }

  /** The memory pattern fits at no comma of t (positions counted in t). */
  predicate NoFitIn(t: string) {
    forall i :: 0 <= i < |t| ==> t[i] != ',' || MemChain(t[i + 1..]).None?
  }

  /** A text without commas holds no fit. */
  lemma {:induction false} NoFitInPlain(t: string)
    requires ',' !in t
    ensures NoFitIn(t)
  {
  }

  /** Text without commas, a comma, then a text holding no fit and not
      fitting itself: still no fit. */
  lemma {:induction false} NoFitCons(a: string, t: string)
    requires ',' !in a && NoFitIn(t) && MemChain(t).None?
    ensures NoFitIn(a + "," + t)
  {
    var s := a + "," + t;
    forall i | 0 <= i < |s|
      ensures s[i] != ',' || MemChain(s[i + 1..]).None?
    {
      if i < |a| {
        assert s[i] == a[i];
      } else if i == |a| {
        assert s[i + 1..] == t;
      } else {
        var k := i - |a| - 1;
        assert s[i] == t[k] && s[i + 1..] == t[k + 1..];
      }
    }
  }

  /** After the comma of a `top` memory line: its figures, and no fit at
      any later comma. */
  lemma {:induction false} MemTailOf(p1: string, f: string, p2: string, u: string,
                                     p3: string, b: string, post: string)
    requires Blank(p1) && Blank(p2) && Blank(p3)
    requires |f| > 0 && AllDigits(f) && |u| > 0 && AllDigits(u) && |b| > 0 && AllDigits(b)
    requires ',' !in post
    ensures var s0 := (p1 + f + " free") + "," + ((p2 + u + " used") + "," + ((p3 + b + " buff/cache") + post));
      MemChain(s0) == Some((f, u, b)) && NoFitIn(s0)
  {
    var s2 := (p3 + b + " buff/cache") + post;
    var s1 := (p2 + u + " used") + "," + s2;
    var s0 := (p1 + f + " free") + "," + s1;
    MemChainOf(p1, f, p2, u, p3, b, post);
    MemTailGrouping(p1, f, p2, u, p3, b, post);
    assert MemChain(s0) == Some((f, u, b));
    MemTailNoFit(p1, f, p2, u, p3, b, post);
  }

  /** The memory tail regrouped the way MemChainOf reads it. */
  lemma {:induction false} MemTailGrouping(p1: string, f: string, p2: string, u: string,
                                           p3: string, b: string, post: string)
    ensures var s2 := (p3 + b + " buff/cache") + post;
      var s1 := (p2 + u + " used") + "," + s2;
      && s2 == p3 + b + (" buff/cache" + post)
      && s1 == p2 + u + (" used," + s2)
      && (p1 + f + " free") + "," + s1 == p1 + f + (" free," + s1)
  {
  }

  /** No comma of a `top` memory tail is followed by a fit of the memory
      pattern. */
  lemma {:induction false} MemTailNoFit(p1: string, f: string, p2: string, u: string,
                                        p3: string, b: string, post: string)
    requires Blank(p1) && Blank(p2) && Blank(p3)
    requires |f| > 0 && AllDigits(f) && |u| > 0 && AllDigits(u) && |b| > 0 && AllDigits(b)
    requires ',' !in post
    ensures NoFitIn((p1 + f + " free") + "," + ((p2 + u + " used") + "," + ((p3 + b + " buff/cache") + post)))
  {
    var a1, a2, a3 := p1 + f + " free", p2 + u + " used", p3 + b + " buff/cache";
    var s2 := a3 + post;
    var s1 := a2 + "," + s2;
    MemChainOf(p1, f, p2, u, p3, b, post);
    MemTailGrouping(p1, f, p2, u, p3, b, post);
    assert MemChain(s1) == None && MemChain(s2) == None;
    NoComma(p1, f, " free");
    NoComma(p2, u, " used");
    NoComma(p3, b, " buff/cache");
    NoFitInPlain(s2);
    NoFitCons(a2, s2);
    NoFitCons(a1, s1);
  }

  /** The text of a `top` memory line, grouped as MemTailOf reads it. */
  lemma {:induction false} MemLineGrouping(head: string, p1: string, f: string, p2: string, u: string,
                                           p3: string, b: string, post: string)
    ensures head + "," + p1 + f + " free," + p2 + u + " used," + p3 + b + " buff/cache" + post
      == head + "," + ((p1 + f + " free") + "," + ((p2 + u + " used") + "," + ((p3 + b + " buff/cache") + post)))
  {
  }

  /** A `top` memory line gives its free, used and buff/cache figures back,
      provided `Mem` and a colon come before the comma the figures follow
      and no comma comes after them. */
  lemma {:induction false} MemFieldOf(head: string, p1: string, f: string, p2: string, u: string,
                                      p3: string, b: string, post: string)
    requires MemColonBefore(head, |head|)
    requires Blank(p1) && Blank(p2) && Blank(p3)
    requires |f| > 0 && AllDigits(f) && |u| > 0 && AllDigits(u) && |b| > 0 && AllDigits(b)
    requires ',' !in post
    ensures MemField(head + "," + p1 + f + " free," + p2 + u + " used," + p3 + b + " buff/cache" + post)
      == Some((f, u, b))
  {
    var s0 := (p1 + f + " free") + "," + ((p2 + u + " used") + "," + ((p3 + b + " buff/cache") + post));
    MemLineGrouping(head, p1, f, p2, u, p3, b, post);
    MemTailOf(p1, f, p2, u, p3, b, post);
    MemFieldAt(head, s0);
  }

  /** The comma after a `Mem ... :` head is the last fit when the chain
      after it holds no other. */
  lemma {:induction false} MemFieldAt(head: string, s0: string)
    requires MemColonBefore(head, |head|)
    requires MemChain(s0).Some? && NoFitIn(s0)
    ensures MemField(head + "," + s0) == MemChain(s0)
  {
    var line := head + "," + s0;
    var c := |head|;
    assert line[c + 1..] == s0;
    var k :| 0 <= k < |head| && head[k] == ':' && Contains(head[..k], "Mem");
    assert line[k] == ':' && line[..k] == head[..k];
    assert MemAt(line, c);
    forall j | c < j < |line|
      ensures !FitsAt(MemMark, line, j)
    {
      assert line[j] == s0[j - c - 1] && line[j + 1..] == s0[j - c..];
    }
    LastFitAt(MemMark, line, |line| - 1, c);
  }

  // ---------------------------------------------------------------------
  // the graphics line of lspci, matched on the trimmed line

  /** The VGA pattern fits with `controller: ` at position c. */
  predicate VgaAt(t: string, c: nat) {
    OccursAt(t, Controller, c) && Contains(t[..c], "VGA")
  }

  /** The product named by one line of lspci. */
  function GpuProduct(line: string): (r: Option<string>)
  {
    var t := TrimSpace(line);
    if |t| < 12 then None
    else
      var c := LastFit(VgaMark, t, |t| - 12);
      if c.None? then None else Some(t[c.value + 12..])
  }

  /** A later `controller: ` inside the product would fit as well, since
      the same `VGA` precedes it. */
  lemma {:induction false} VgaLater(t: string, c: nat, i: int)
    requires VgaAt(t, c) && c + 12 <= |t| && 0 <= i
    ensures OccursAt(t[c + 12..], Controller, i) ==> VgaAt(t, c + 12 + i)
  {
    if OccursAt(t[c + 12..], Controller, i) {
      var j := c + 12 + i;
      assert t[c + 12..][i..i + 12] == t[j..j + 12];
      ContainsPrefix(t, c, j, "VGA");
    }
  }

  /** What the VGA pattern promises: the trimmed line ends in
      `controller: ` and the product, `VGA` comes before, and the product
      holds no further `controller: `. */
  lemma {:induction false} GpuProductSound(line: string)
    requires GpuProduct(line).Some?
    ensures var t, v := TrimSpace(line), GpuProduct(line).value;
      && HasSuffix(t, Controller + v)
      && Contains(t[..|t| - |v| - 12], "VGA")
      && !Contains(v, Controller)
  {
    var t := TrimSpace(line);
    var c := LastFit(VgaMark, t, |t| - 12).value;
    var v := t[c + 12..];
    assert GpuProduct(line) == Some(v);
    VgaValueSound(t, c);
    ProductClean(t, c);
  }

  /** A fit at c: the text ends in `controller: ` and what follows it,
      with `VGA` before. */
  lemma {:induction false} VgaValueSound(t: string, c: nat)
    requires c + 12 <= |t| && VgaAt(t, c)
    ensures var v := t[c + 12..];
      HasSuffix(t, Controller + v) && Contains(t[..|t| - |v| - 12], "VGA")
  {
    var v := t[c + 12..];
    assert t[c..] == Controller + v;
    assert |t| - |v| - 12 == c;
  }

  /** The text after the last fitting `controller: ` holds no other. */
  lemma {:induction false} ProductClean(t: string, c: nat)
    requires c + 12 <= |t| && VgaAt(t, c)
    requires forall j :: c < j <= |t| - 12 ==> !FitsAt(VgaMark, t, j)
    ensures !Contains(t[c + 12..], Controller)
  {
    var v := t[c + 12..];
    forall i | 0 <= i
      ensures !OccursAt(v, Controller, i)
    {
      VgaLater(t, c, i);
      if c + 12 + i <= |t| - 12 {
        assert !FitsAt(VgaMark, t, c + 12 + i);
      }
    }
    NotContains(v, Controller);
  }

  /** An lspci line `... VGA ... controller: product` names its product,
      provided the product does not itself hold `controller: `. */
  lemma {:induction false} GpuProductOf(pre: string, mid: string, v: string)
    requires var line := pre + "VGA" + mid + Controller + v;
      !IsSpace(line[0]) && !IsSpace(line[|line| - 1])
    requires !Contains(v, Controller)
    ensures GpuProduct(pre + "VGA" + mid + Controller + v) == Some(v)
  {
    var line := pre + "VGA" + mid + Controller + v;
    TrimSpaceStable(line);
    var c := |pre| + 3 + |mid|;
    assert line[..c] == pre + "VGA" + mid;
    ContainsMiddle(pre, "VGA", mid);
    assert line[c..c + 12] == Controller;
    assert VgaAt(line, c);
    assert line[c + 12..] == v;
    NoOccurrenceWithin(line, Controller, c + 1, c + 12);
    NoOccurrenceFrom(line, Controller, c + 12);
    forall j | c < j <= |line| - 12
      ensures !FitsAt(VgaMark, line, j)
    {
    }
    LastFitAt(VgaMark, line, |line| - 12, c);
  }

  // ---------------------------------------------------------------------
  // the report GetCPUMemProcessesUsages builds from the output of top;
  // empty lines are skipped, the first usable CPU and memory lines win,
  // every process row is kept in order

  /** A digit string parses to a value no smaller than zero (zero when it
      is out of range). */
  lemma {:induction false} DigitsParseNonNegative(ds: string)
    requires AllDigits(ds)
    ensures ParseInt(ds).value >= 0
  {
    if |ds| > 0 {
      assert ds[0] != '-' && ds[0] != '+';
    }
  }

  /** A CPU figure that strconv.ParseFloat (`floatOk`) accepts. */
  function CpuUsable(line: string, floatOk: string -> bool): (r: Option<string>)
  {
    if |line| == 0 then None
    else
      var v := CpuField(line);
      if v.Some? && floatOk(v.value) then v else None
  }

  /** The memory figures of a line, unless one of them parses to zero. */
  function MemUsable(line: string): (r: Option<MemUsage>)
    ensures r.Some? ==> r.value.FromTop? && r.value.free > 0 && r.value.used > 0 && r.value.buff > 0
  {
    if |line| == 0 then None
    else
      var m := MemField(line);
      if m.None? then None
      else
        var (f, u, b) := m.value;
        var free, used, buff := ParseInt(f).value, ParseInt(u).value, ParseInt(b).value;
        if free == 0 || used == 0 || buff == 0 then None
        else
          assert free > 0 && used > 0 && buff > 0 by {
            MemFieldSound(line);
            DigitsParseNonNegative(f);
            DigitsParseNonNegative(u);
            DigitsParseNonNegative(b);
          }
          Some(FromTop(free, used, buff))
  }

  /** A process row, on a non-empty line. */
  function ProcessUsable(line: string, floatOk: string -> bool): (r: Option<Process>)
  {
    if |line| == 0 then None else ProcessRow(line, floatOk)
  }

  datatype TopReport = TopReport(cpu: Option<string>, mem: Option<MemUsage>, processes: seq<Process>)

  function ParseTop(output: string, floatOk: string -> bool): TopReport
  {
    var lines := SplitLine(output);
    TopReport(
      FirstSome(lines, l => CpuUsable(l, floatOk)),
      FirstSome(lines, MemUsable),
      AllSome(lines, l => ProcessUsable(l, floatOk)))
  }

  /** The first line with a usable CPU figure decides the CPU usage. */
  lemma {:induction false} TopCpuFirst(output: string, floatOk: string -> bool, i: nat)
    requires var lines := SplitLine(output);
      i < |lines| && CpuUsable(lines[i], floatOk).Some?
      && forall j :: 0 <= j < i ==> CpuUsable(lines[j], floatOk).None?
    ensures ParseTop(output, floatOk).cpu == CpuUsable(SplitLine(output)[i], floatOk)
  {
    var lines := SplitLine(output);
    FirstSomeAt(lines, l => CpuUsable(l, floatOk), i);
  }

  /** The first line with usable memory figures decides the memory usage. */
  lemma {:induction false} TopMemFirst(output: string, floatOk: string -> bool, i: nat)
    requires var lines := SplitLine(output);
      i < |lines| && MemUsable(lines[i]).Some?
      && forall j :: 0 <= j < i ==> MemUsable(lines[j]).None?
    ensures ParseTop(output, floatOk).mem == MemUsable(SplitLine(output)[i])
  {
    var lines := SplitLine(output);
    FirstSomeAt(lines, MemUsable, i);
  }

  /** Memory figures read from top are top's own, and none of them is zero. */
  lemma {:induction false} TopMemPositive(output: string, floatOk: string -> bool)
    requires ParseTop(output, floatOk).mem.Some?
    ensures var m := ParseTop(output, floatOk).mem.value;
      m.FromTop? && m.free > 0 && m.used > 0 && m.buff > 0
  {
    var lines := SplitLine(output);
    FirstSomeSound(lines, MemUsable);
  }

  /** The process rows of two runs of lines are those of the first, then
      those of the second. */
  lemma {:induction false} TopProcessesInOrder(a: seq<string>, b: seq<string>, floatOk: string -> bool)
    ensures AllSome(a + b, l => ProcessUsable(l, floatOk))
      == AllSome(a, l => ProcessUsable(l, floatOk)) + AllSome(b, l => ProcessUsable(l, floatOk))
  {
    AllSomeAppend(a, b, l => ProcessUsable(l, floatOk));
  }

  /** A `top` memory line with figures in range gives the parsed figures. */
  lemma {:induction false} MemUsableOf(head: string, p1: string, f: string, p2: string, u: string,
                                       p3: string, b: string, post: string)
    requires MemColonBefore(head, |head|)
    requires Blank(p1) && Blank(p2) && Blank(p3)
    requires |f| > 0 && AllDigits(f) && |u| > 0 && AllDigits(u) && |b| > 0 && AllDigits(b)
    requires 0 < DigitsValue(f) <= MaxInt64 && 0 < DigitsValue(u) <= MaxInt64 && 0 < DigitsValue(b) <= MaxInt64
    requires ',' !in post
    ensures MemUsable(head + "," + p1 + f + " free," + p2 + u + " used," + p3 + b + " buff/cache" + post)
      == Some(FromTop(DigitsValue(f), DigitsValue(u), DigitsValue(b)))
  {
    MemFieldOf(head, p1, f, p2, u, p3, b, post);
    ParseIntDigits(f);
    ParseIntDigits(u);
    ParseIntDigits(b);
  }
}

=== FILE: host.dfy ===
/** The remote Linux host the executor talks to, reduced to what the command
    scripts of linux.go read and change: a file table, the passwd entries, the
    sudoers lines and the text the probing commands print. Running a command
    is a pure function of the host state; the connection records every
    command line it sent. The outputs given here are what SendCommands hands
    back (Transport shows how the prompt line is removed). */
module Host {
  import opened Wrappers
  import opened Strings
  import opened Util
  import opened Errors

  /** A directory's contents travel with it as one value. */
  datatype Node = File(data: string) | Dir(data: string)

  /** One passwd entry. */
  datatype UserEntry = UserEntry(name: string, uid: nat, gid: nat, home: string)

  datatype Remote = Remote(
    fs: map<string, Node>,
    users: seq<UserEntry>,
    sudoers: seq<string>,
    nextId: nat,          // uid and gid useradd gives the next account
    adminHasSudo: bool,
    osRelease: string,    // what os_info prints
    topText: string,
    meminfoText: string,
    lscpuText: string,
    lsgpuText: string,
    wText: string,
    gpuNameText: string,
    gpuUsageText: string,
    failing: set<string>,    // verbs whose command exits with an error
    unreadable: set<string>) // verbs whose script file cannot be read

  /** The commands the scripts of the catalog run, with their arguments. */
  datatype Command =
    | Mv(src: string, dst: string, force: bool)
    | IsFile(path: string)
    | IsDir(path: string)
    | PathExists(path: string)
    | Mkdir(path: string)
    | Top | Meminfo | Lscpu | Lsgpu | Who | GpuName | GpuUsage
    | CatSudoers
    | AddSudoers(name: string)
    | UserAdd(pwd: string, name: string)
    | Garbled        // Sprintf's %!(EXTRA ...) text of an unread, empty script
    | AccountList
    | UserDel(name: string)
    | HomeDir(name: string)
    | SudoPrivilege
    | OsInfo

  /** The script file each command comes from. */
  function Verb(c: Command): string {
    match c
    case Mv(_, _, force) => if force then "mv_force" else "mv"
    case IsFile(_) => "is_file"
    case IsDir(_) => "is_dir"
    case PathExists(_) => "path_exists"
    case Mkdir(_) => "mkdir"
    case Top => "top"
    case Meminfo => "meminfo"
    case Lscpu => "lscpu"
    case Lsgpu => "lsgpu"
    case Who => "w"
    case GpuName => "nvidia_gpu_name"
    case GpuUsage => "nvidia_gpu_usage"
    case CatSudoers => "cat_sudoers"
    case AddSudoers(_) => "add_sudoers"
    case UserAdd(_, _) => "user_add_with_openssl_pwd"
    case Garbled => "user_add_with_openssl_pwd"
    case AccountList => "get_account_list"
    case UserDel(_) => "user_del"
    case HomeDir(_) => "get_user_home_dir"
    case SudoPrivilege => "sudo_privilege"
    case OsInfo => "os_info"
  }

  /** The granted line add_sudoers appends. */
  function GrantLine(name: string): string {
    name + " ALL=(ALL:ALL) ALL"
  }

  /** `cat`: every line followed by a newline. */
  function Lines(ls: seq<string>): string {
    if |ls| == 0 then "" else ls[0] + "\n" + Lines(ls[1..])
  }

  /** The rendering of get_account_list: `name|uid|gid`. */
  function AccountLine(u: UserEntry): string {
    u.name + "|" + NatToString(u.uid) + "|" + NatToString(u.gid)
  }

  function AccountLines(users: seq<UserEntry>): seq<string> {
    if |users| == 0 then [] else [AccountLine(users[0])] + AccountLines(users[1..])
  }

  function FindUser(users: seq<UserEntry>, name: string): (r: Option<UserEntry>)
    ensures r.Some? ==> r.value in users && r.value.name == name
    ensures r.None? <==> forall k :: 0 <= k < |users| ==> users[k].name != name
  {
    if |users| == 0 then None
    else if users[0].name == name then Some(users[0])
    else FindUser(users[1..], name)
  }

  function RemoveUser(users: seq<UserEntry>, name: string): (r: seq<UserEntry>)
    ensures forall k :: 0 <= k < |r| ==> r[k].name != name && r[k] in users
    ensures forall u :: u in users && u.name != name ==> u in r
  {
    if |users| == 0 then []
    else (if users[0].name == name then [] else [users[0]]) + RemoveUser(users[1..], name)
  }

  /** The last path element (path.Base for paths without a trailing slash). */
  function Base(p: string): string {
    if |p| == 0 then ""
    else if p[|p| - 1] == '/' then ""
    else Base(p[..|p| - 1]) + [p[|p| - 1]]
  }

  /** Where `mv src dst` puts src: inside dst if dst is a directory. */
  function MoveTarget(fs: map<string, Node>, src: string, dst: string): string {
    if dst in fs && fs[dst].Dir? then dst + "/" + Base(src) else dst
  }

  /** Whether `mv` succeeds: the source exists, the target is not the source,
      and an existing target is a file being replaced by a file. */
  predicate MoveSucceeds(fs: map<string, Node>, src: string, dst: string) {
    var target := MoveTarget(fs, src, dst);
    src in fs && target != src
    && (target in fs ==> fs[target].File? && fs[src].File?)
  }

  function MoveFs(fs: map<string, Node>, src: string, dst: string): (r: map<string, Node>)
    requires MoveSucceeds(fs, src, dst)
    ensures var target := MoveTarget(fs, src, dst);
      && src !in r && target in r && r[target] == fs[src]
      && (forall p :: p in fs && p != src && p != target ==> p in r && r[p] == fs[p])
      && (forall p :: p in r ==> p == target || p in fs)
  {
    var target := MoveTarget(fs, src, dst);
    (fs - {src})[target := fs[src]]
  }

  /** What one command does: the new host, what it prints, whether it exits
      with status 0. */
  datatype Effect = Effect(remote: Remote, output: string, ok: bool)

  function Flag(b: bool): string {
    if b then "1\n" else "0\n"
  }

  function Execute(r: Remote, c: Command): (e: Effect)
    ensures Verb(c) in r.failing ==> e == Effect(r, "", false)
    ensures e.remote.failing == r.failing && e.remote.unreadable == r.unreadable
  {
    if Verb(c) in r.failing then Effect(r, "", false)
    else
      match c
      case Mv(src, dst, _) =>
        if MoveSucceeds(r.fs, src, dst) then Effect(r.(fs := MoveFs(r.fs, src, dst)), "", true)
        else Effect(r, "", false)
      case IsFile(p) => Effect(r, Flag(p in r.fs && r.fs[p].File?), true)
      case IsDir(p) => Effect(r, Flag(p in r.fs && r.fs[p].Dir?), true)
      case PathExists(p) => Effect(r, Flag(p in r.fs), true)
      case Mkdir(p) =>
        if p in r.fs then Effect(r, "", false) else Effect(r.(fs := r.fs[p := Dir("")]), "", true)
      case Top => Effect(r, r.topText, true)
      case Meminfo => Effect(r, r.meminfoText, true)
      case Lscpu => Effect(r, r.lscpuText, true)
      case Lsgpu => Effect(r, r.lsgpuText, true)
      case Who => Effect(r, r.wText, true)
      case GpuName => Effect(r, r.gpuNameText, true)
      case GpuUsage => Effect(r, r.gpuUsageText, true)
      case CatSudoers => Effect(r, Lines(r.sudoers), true)
      case AddSudoers(name) => Effect(r.(sudoers := r.sudoers + [GrantLine(name)]), "", true)
      case UserAdd(_, name) =>
        if FindUser(r.users, name).Some? then Effect(r, "", false)
        else
          var home := "/home/" + name;
          var fs := if home in r.fs then r.fs else r.fs[home := Dir("")];
          Effect(r.(users := r.users + [UserEntry(name, r.nextId, r.nextId, home)],
                    nextId := r.nextId + 1, fs := fs), "", true)
      case Garbled => Effect(r, "", false)
      case AccountList => Effect(r, Lines(AccountLines(r.users)), true)
      case UserDel(name) =>
        if FindUser(r.users, name).None? then Effect(r, "", false)
        else Effect(r.(users := RemoveUser(r.users, name)), "", true)
      case HomeDir(name) =>
        var u := FindUser(r.users, name);
        if u.Some? then Effect(r, u.value.home + "\n", true) else Effect(r, "", true)
      case SudoPrivilege => Effect(r, "", r.adminHasSudo)
      case OsInfo => Effect(r, r.osRelease, true)
  }

  /** An open connection: the host, and the commands sent so far. */
  datatype Conn = Conn(remote: Remote, sent: seq<Command>, host: string, port: nat)

  /** A command's result as SendCommands returns it. */
  datatype Reply = Reply(output: string, err: Option<APIErr>)

  /** The error SendCommands reports when the command exits non-zero. */
  function RunError(output: string): (e: APIErr)
    ensures e.origin == SSHConnection && e.stable
  {
    CustomMessage(SentinelErr(SSHConnection),
      "发送请求后，返回失败信息！失败信息为：Process exited with status 1，服务器输出为：" + output)
  }

  /** SendCommands on one command line. */
  function Send(c: Conn, cmd: Command): (r: (Conn, Reply))
    ensures r.0.sent == c.sent + [cmd]
    ensures r.0.host == c.host && r.0.port == c.port
    ensures r.1.err.None? <==> Execute(c.remote, cmd).ok
    ensures r.1.err.Some? ==> r.1.err.value.origin == SSHConnection
    ensures r.0.remote == Execute(c.remote, cmd).remote
    ensures r.1.output == Execute(c.remote, cmd).output
  {
    var e := Execute(c.remote, cmd);
    (Conn(e.remote, c.sent + [cmd], c.host, c.port),
     Reply(e.output, if e.ok then None else Some(RunError(e.output))))
  }

  /** loadCmdScript for one verb of the catalog. */
  function LoadScript(c: Conn, verb: string): (r: Option<APIErr>)
    ensures r.Some? <==> verb in c.remote.unreadable
    ensures r.Some? ==> r.value.origin == Internal
  {
    if verb in c.remote.unreadable then
      Some(CustomMessage(SentinelErr(Internal), "loadCmdScript加载命令行数据失败！err=[read error]"))
    else None
  }

  // ---------------------------------------------------------------------
  // Facts about the host

  /** A healthy host for a verb: its script loads and its command does not
      fail by injection. */
  predicate Healthy(r: Remote, verb: string) {
    verb !in r.failing && verb !in r.unreadable
  }

  /** useradd adds exactly the new account, or fails and changes nothing. */
  lemma UserAddEffect(r: Remote, pwd: string, name: string)
    ensures var e := Execute(r, UserAdd(pwd, name));
      e.ok <==> "user_add_with_openssl_pwd" !in r.failing && FindUser(r.users, name).None?
    ensures var e := Execute(r, UserAdd(pwd, name));
      e.ok ==> FindUser(e.remote.users, name).Some? && e.remote.sudoers == r.sudoers
    ensures var e := Execute(r, UserAdd(pwd, name));
      !e.ok ==> e.remote == r
  {
    var e := Execute(r, UserAdd(pwd, name));
    if e.ok {
      assert e.remote.users[|r.users|].name == name;
    }
  }

  /** Moving a directory away and back restores the file table. */
  lemma MoveBack(fs: map<string, Node>, home: string, target: string)
    requires home in fs && fs[home].Dir?
    requires target !in fs && home != target
    ensures MoveTarget(fs, home, target) == target && MoveSucceeds(fs, home, target)
    ensures var fs1 := MoveFs(fs, home, target);
      && MoveTarget(fs1, target, home) == home && MoveSucceeds(fs1, target, home)
      && MoveFs(fs1, target, home) == fs
  {
    var fs1 := MoveFs(fs, home, target);
    var fs2 := MoveFs(fs1, target, home);
    assert fs2.Keys == fs.Keys;
  }

  /** Lines joins with newlines and ends with one. */
  lemma {:induction false} LinesIsJoin(ls: seq<string>)
    ensures Lines(ls) == Join(ls + [""], "\n")
  {
    if |ls| > 0 {
      LinesIsJoin(ls[1..]);
      assert (ls + [""])[1..] == ls[1..] + [""];
      assert ls + [""] == [ls[0]] + (ls[1..] + [""]);
      JoinCons(ls[0], ls[1..] + [""], "\n");
    }
  }

  /** Splitting a `cat` output gives the lines back, plus a last empty piece. */
  lemma SplitLines(ls: seq<string>)
    requires forall k :: 0 <= k < |ls| ==> NoLineBreak(ls[k])
    ensures SplitLine(Lines(ls)) == ls + [""]
  {
    LinesIsJoin(ls);
    SplitLineJoin(ls + [""]);
  }
}

=== FILE: parsers.dfy ===
/** The recognisers linux.go applies to command output, written as
    functions over one line. Each regular expression is replaced by the
    match it finds under RE2's leftmost-first rules. */
module Parsers {
  import opened Wrappers
  import opened Strings
  import opened Util

  // ---------------------------------------------------------------------
  // get_account_list: `^(.+?)\|([0-9]+?)\|([0-9]+?)$`

  /** Index of the last `c`, or -1. */
  function LastIndex(s: string, c: char): (r: int)
    ensures -1 <= r < |s|
    ensures r >= 0 ==> s[r] == c
    ensures forall i :: r < i < |s| ==> s[i] != c
  {
    if |s| == 0 then -1
    else if s[|s| - 1] == c then |s| - 1
    else LastIndex(s[..|s| - 1], c)
  }

  lemma {:induction false} LastIndexExact(s: string, c: char, r: nat)
    requires r < |s| && s[r] == c
    requires forall i :: r < i < |s| ==> s[i] != c
    ensures LastIndex(s, c) == r
    decreases |s|
  {
    if r < |s| - 1 {
      LastIndexExact(s[..|s| - 1], c, r);
    }
  }

  /** The three groups: the digit groups hold no bar, so they sit after the
      last two bars and the name is everything before them. */
  function SplitAccountLine(line: string): (r: Option<(string, string, string)>)
    ensures r.Some? ==>
      var (n, u, g) := r.value;
      && line == n + "|" + u + "|" + g
      && |n| > 0 && '\n' !in n
      && |u| > 0 && AllDigits(u) && |g| > 0 && AllDigits(g)
  {
    var j := LastIndex(line, '|');
    if j < 0 then None
    else
      var i := LastIndex(line[..j], '|');
      if i < 0 then None
      else
        var n, u, g := line[..i], line[i + 1..j], line[j + 1..];
        if |n| > 0 && '\n' !in n && |u| > 0 && AllDigits(u) && |g| > 0 && AllDigits(g) then
          assert line == n + "|" + u + "|" + g;
          Some((n, u, g))
        else None
  }

  lemma {:induction false} LastIndexAfter(a: string, c: char, b: string)
    requires c !in b
    ensures LastIndex(a + [c] + b, c) == |a|
  {
    var s := a + [c] + b;
    assert s[|a|] == c;
    forall i | |a| < i < |s|
      ensures s[i] != c
    {
      assert s[i] == b[i - |a| - 1];
    }
    LastIndexExact(s, c, |a|);
  }

  lemma {:induction false} DigitsHaveNoBar(u: string)
    requires AllDigits(u)
    ensures '|' !in u
  {
    forall i | 0 <= i < |u|
      ensures u[i] != '|'
    {
      assert IsDigit(u[i]);
    }
  }

  /** Every line of that shape is recognised, with these groups. */
  lemma {:induction false} SplitAccountLineComplete(n: string, u: string, g: string)
    requires |n| > 0 && '\n' !in n
    requires |u| > 0 && AllDigits(u) && |g| > 0 && AllDigits(g)
    ensures SplitAccountLine(n + "|" + u + "|" + g) == Some((n, u, g))
  {
    var a := n + "|" + u;
    var line := n + "|" + u + "|" + g;
    assert line == a + ['|'] + g;
    DigitsHaveNoBar(u);
    DigitsHaveNoBar(g);
    LastIndexAfter(a, '|', g);
    var j := |a|;
    assert line[..j] == n + ['|'] + u;
    LastIndexAfter(n, '|', u);
    assert LastIndex(line, '|') == j;
    assert LastIndex(line[..j], '|') == |n|;
    assert line[..|n|] == n;
    assert line[|n| + 1..j] == u;
    assert line[j + 1..] == g;
  }

  /** An account as GetAccountList reports it. */
  datatype ListedAccount = ListedAccount(name: string, uid: int, gid: int)

  /** One line of get_account_list; strconv.Atoi must accept both numbers. */
  function ParseAccountLine(line: string): (r: Option<ListedAccount>)
    ensures r.Some? ==> (SplitAccountLine(line).Some?
      && var (n, u, g) := SplitAccountLine(line).value;
         r.value == ListedAccount(n, ParseInt(u).value, ParseInt(g).value)
         && ParseInt(u).ok && ParseInt(g).ok)
    ensures r.None? ==> (SplitAccountLine(line).None?
      || !ParseInt(SplitAccountLine(line).value.1).ok
      || !ParseInt(SplitAccountLine(line).value.2).ok)
  {
    match SplitAccountLine(line)
    case None => None
    case Some((n, u, g)) =>
      var pu, pg := ParseInt(u), ParseInt(g);
      if pu.ok && pg.ok then Some(ListedAccount(n, pu.value, pg.value)) else None
  }

  /** The lines that parse, in order. */
  function ParseAccountLines(lines: seq<string>): (r: seq<ListedAccount>)
    ensures |r| <= |lines|
  {
    if |lines| == 0 then []
    else
      var head := ParseAccountLine(lines[0]);
      (if head.Some? then [head.value] else []) + ParseAccountLines(lines[1..])
  }

  /** The line get_account_list prints for an account. */
  function RenderAccount(a: ListedAccount): string
    requires Renderable(a)
  {
    a.name + "|" + NatToString(a.uid) + "|" + NatToString(a.gid)
  }

  predicate Renderable(a: ListedAccount) {
    0 <= a.uid <= MaxInt64 && 0 <= a.gid <= MaxInt64
    && |a.name| > 0 && '\n' !in a.name && '\r' !in a.name
  }

  /** Parsing the rendering of an account gives the account back. */
  lemma ParseRenderAccount(a: ListedAccount)
    requires Renderable(a)
    ensures ParseAccountLine(RenderAccount(a)) == Some(a)
  {
    SplitAccountLineComplete(a.name, NatToString(a.uid), NatToString(a.gid));
    ParseIntRender(a.uid);
    ParseIntRender(a.gid);
  }

  function RenderAccounts(accs: seq<ListedAccount>): (r: seq<string>)
    requires forall k :: 0 <= k < |accs| ==> Renderable(accs[k])
    ensures |r| == |accs|
    ensures forall k :: 0 <= k < |r| ==> r[k] == RenderAccount(accs[k])
  {
    if |accs| == 0 then [] else [RenderAccount(accs[0])] + RenderAccounts(accs[1..])
  }

  /** Rendering a list line by line and parsing it back is the identity;
      lines that do not parse (the empty last piece) are skipped. */
  lemma {:induction false} ParseRenderAccounts(accs: seq<ListedAccount>)
    requires forall k :: 0 <= k < |accs| ==> Renderable(accs[k])
    ensures ParseAccountLines(RenderAccounts(accs) + [""]) == accs
  {
    var lines := RenderAccounts(accs) + [""];
    if |accs| == 0 {
      assert lines == [""];
      assert ParseAccountLine("") == None;
    } else {
      ParseRenderAccount(accs[0]);
      assert lines[1..] == RenderAccounts(accs[1..]) + [""];
      ParseRenderAccounts(accs[1..]);
    }
  }

  // ---------------------------------------------------------------------
  // /etc/sudoers: `^(.*)?\s+ALL\s*=\s*\(\s*ALL\s*:\s*ALL\s*\)\s*ALL$`

  /** The grant's tokens with the white space squeezed out. */
  const GrantText: string := "ALL=(ALL:ALL)ALL"

  /** White space may appear where `p` characters of GrantText are behind:
      before the first token, and between the tokens. */
  predicate SpaceAllowed(p: nat) {
    p == 0 || p == 3 || p == 4 || p == 5 || p == 8 || p == 9 || p == 12 || p == 13
  }

  /** `\s+ALL\s*=\s*\(\s*ALL\s*:\s*ALL\s*\)\s*ALL$` as a scanner. State 0
      waits for the first (mandatory) white space; state q > 0 has read
      q - 1 characters of GrantText. Every token starts with a non-space
      character, so the scanner never has to choose. */
  predicate GrantScan(s: string, q: nat)
    requires q <= 17
    decreases |s|
  {
    if |s| == 0 then q == 17
    else if q == 0 then IsRe2Space(s[0]) && GrantScan(s[1..], 1)
    else if IsRe2Space(s[0]) && SpaceAllowed(q - 1) then GrantScan(s[1..], q)
    else q < 17 && s[0] == GrantText[q - 1] && GrantScan(s[1..], q + 1)
  }

  /** The part of a grant line after the principal. */
  predicate GrantTail(r: string) {
    GrantScan(r, 0)
  }

  lemma {:induction false} GrantScanLength(s: string, q: nat)
    requires q <= 17 && GrantScan(s, q)
    ensures |s| >= 17 - q
    decreases |s|
  {
    if |s| > 0 {
      if q == 0 {
        GrantScanLength(s[1..], 1);
      } else if IsRe2Space(s[0]) && SpaceAllowed(q - 1) {
        GrantScanLength(s[1..], q);
      } else {
        GrantScanLength(s[1..], q + 1);
      }
    }
  }

  /** A grant tail is at least " ALL=(ALL:ALL)ALL" long. */
  lemma GrantTailLength(r: string)
    requires GrantTail(r)
    ensures |r| >= 17
  {
    GrantScanLength(r, 0);
  }

  /** The longest principal prefix no longer than `k` whose remainder is a
      grant tail; the greedy `(.*)?` takes the longest one. */
  function PrincipalFrom(line: string, k: nat): (r: Option<nat>)
    requires k <= |line|
    ensures r.Some? ==> (r.value <= k && GrantTail(line[r.value..])
      && forall j :: r.value < j <= k ==> !GrantTail(line[j..]))
    ensures r.None? ==> forall j :: 0 <= j <= k ==> !GrantTail(line[j..])
  {
    if GrantTail(line[k..]) then Some(k)
    else if k == 0 then None
    else PrincipalFrom(line, k - 1)
  }

  /** The captured principal of a sudoers line, if the line is a grant. */
  function Principal(line: string): (r: Option<string>)
    ensures r.Some? ==> (HasPrefix(line, r.value) && GrantTail(line[|r.value|..])
      && forall j :: |r.value| < j <= |line| ==> !GrantTail(line[j..]))
    ensures r.None? ==> forall j :: 0 <= j <= |line| ==> !GrantTail(line[j..])
  {
    var k := PrincipalFrom(line, |line|);
    if k.Some? then Some(line[..k.value]) else None
  }

  lemma {:induction false} PrincipalFromSkip(line: string, k: nat, k0: nat)
    requires k0 <= k <= |line|
    requires forall j :: k0 < j <= k ==> !GrantTail(line[j..])
    ensures PrincipalFrom(line, k) == PrincipalFrom(line, k0)
    decreases k
  {
    if k > k0 {
      PrincipalFromSkip(line, k - 1, k0);
    }
  }

  lemma GrantTextNoSpace()
    ensures forall i :: 0 <= i < |GrantText| ==> !IsRe2Space(GrantText[i])
  {
  }

  /** Reading the next k characters of GrantText. */
  lemma {:induction false} ScanText(x: string, q: nat, k: nat)
    requires 1 <= q && q + k <= 17
    requires GrantScan(x, q + k)
    ensures GrantScan(GrantText[q - 1..q - 1 + k] + x, q)
    decreases k
  {
    if k > 0 {
      var s := GrantText[q - 1..q - 1 + k] + x;
      GrantTextNoSpace();
      ScanText(x, q + 1, k - 1);
      assert s[0] == GrantText[q - 1];
      assert s[1..] == GrantText[q..q + k - 1] + x;
    } else {
      assert GrantText[q - 1..q - 1 + k] + x == x;
    }
  }

  lemma ScanSpace(x: string, q: nat)
    requires 1 <= q <= 17 && SpaceAllowed(q - 1) && GrantScan(x, q)
    ensures GrantScan(" " + x, q)
  {
    assert (" " + x)[1..] == x;
  }

  lemma GrantSuffix()
    ensures GrantTail(" ALL=(ALL:ALL) ALL")
  {
    ScanText("", 14, 3);
    assert GrantText[13..16] + "" == "ALL";
    ScanSpace("ALL", 14);
    ScanText(" ALL", 1, 13);
    assert GrantText[0..13] + " ALL" == "ALL=(ALL:ALL) ALL";
    assert (" ALL=(ALL:ALL) ALL")[1..] == "ALL=(ALL:ALL) ALL";
  }

  /** The line add_sudoers writes is recognised as a grant for exactly that
      name, so a second Add2Sudoers finds it. */
  lemma PrincipalOfGrant(name: string)
    requires |name| > 0
    ensures Principal(name + " ALL=(ALL:ALL) ALL") == Some(name)
  {
    var line := name + " ALL=(ALL:ALL) ALL";
    GrantSuffix();
    assert line[|name|..] == " ALL=(ALL:ALL) ALL";
    forall j | |name| < j <= |line|
      ensures !GrantTail(line[j..])
    {
      if j == |name| + 1 {
        assert line[j..][0] == 'A';
      } else if GrantTail(line[j..]) {
        GrantTailLength(line[j..]);
      }
    }
    PrincipalFromSkip(line, |line|, |name|);
    assert line[..|name|] == name;
  }

  // ---------------------------------------------------------------------
  // LoadSudoersLines and the grant lookup of Add2Sudoers

  predicate IsComment(line: string) {
    HasPrefix(line, "#")
  }

  /** Every line trimmed; comment lines dropped, blank lines kept. */
  function SudoersFilter(lines: seq<string>): (r: seq<string>)
    ensures |r| <= |lines|
    ensures forall k :: 0 <= k < |r| ==> !IsComment(r[k])
  {
    if |lines| == 0 then []
    else
      var t := TrimSpace(lines[0]);
      (if IsComment(t) then [] else [t]) + SudoersFilter(lines[1..])
  }

  /** A line is kept exactly when it is the trimmed form of some input line
      and not a comment. */
  lemma {:induction false} SudoersFilterMember(lines: seq<string>, x: string)
    ensures x in SudoersFilter(lines) <==>
      !IsComment(x) && exists k :: 0 <= k < |lines| && TrimSpace(lines[k]) == x
  {
    if |lines| > 0 {
      SudoersFilterMember(lines[1..], x);
      var t := TrimSpace(lines[0]);
      var rest := SudoersFilter(lines[1..]);
      assert SudoersFilter(lines) == (if IsComment(t) then [] else [t]) + rest;
      if exists k :: 0 <= k < |lines| && TrimSpace(lines[k]) == x {
        var k :| 0 <= k < |lines| && TrimSpace(lines[k]) == x;
        if k > 0 {
          assert TrimSpace(lines[1..][k - 1]) == x;
        }
      }
      if exists k :: 0 <= k < |lines| - 1 && TrimSpace(lines[1..][k]) == x {
        var k :| 0 <= k < |lines| - 1 && TrimSpace(lines[1..][k]) == x;
        assert TrimSpace(lines[k + 1]) == x;
      }
    }
  }

  /** Whether a kept line grants `name` everything: Add2Sudoers then does
      not add another. */
  function HasGrant(lines: seq<string>, name: string): bool
  {
    if |lines| == 0 then false
    else Principal(lines[0]) == Some(name) || HasGrant(lines[1..], name)
  }

  /** HasGrant looks at every line. */
  lemma {:induction false} HasGrantExists(lines: seq<string>, name: string)
    ensures HasGrant(lines, name) <==> exists k :: 0 <= k < |lines| && Principal(lines[k]) == Some(name)
  {
    if |lines| > 0 {
      HasGrantExists(lines[1..], name);
      if HasGrant(lines[1..], name) {
        var k :| 0 <= k < |lines| - 1 && Principal(lines[1..][k]) == Some(name);
        assert Principal(lines[k + 1]) == Some(name);
      }
      if exists k :: 0 <= k < |lines| && Principal(lines[k]) == Some(name) {
        var k :| 0 <= k < |lines| && Principal(lines[k]) == Some(name);
        if k > 0 {
          assert Principal(lines[1..][k - 1]) == Some(name);
        }
      }
    }
  }
}

=== FILE: probes.dfy ===
/** The recognisers for the probing commands of linux.go: lscpu, the meminfo
    fallback, w, the process rows of top. Each regular expression is written
    as the maximal-run Scan it amounts to. */
module Probes {
  import opened Wrappers
  import opened Strings
  import opened Util
  import opened Runs

  const Spaces: Step := Step(Re2Space, true)         // `\s+`
  const MaybeSpaces: Step := Step(Re2Space, false)   // `\s*`
  const Digits: Step := Step(Digit, true)            // `[0-9]+`
  const Tok: Step := Step(Token, true)               // `[^\s]+`

  // ---------------------------------------------------------------------
  // lscpu: `^Key:\s+([^\s]+)$` and `^Key:\s+(.*)$` on the trimmed line

  /** The value of a `Key:   value` line whose value is one word. */
  function KeyValue(line: string, key: string): (r: Option<string>)
  {
    var t := TrimSpace(line);
    if !HasPrefix(t, key) then None
    else
      var sc := Scan(t[|key|..], [Spaces, Tok]);
      if sc.Some? && sc.value.1 == "" then Some(sc.value.0[1]) else None
  }

  /** A recognised value is the non-blank end of the trimmed line, and only
      white space stands between it and the key. */
  lemma {:induction false} KeyValueSound(line: string, key: string)
    requires KeyValue(line, key).Some?
    ensures var t, v := TrimSpace(line), KeyValue(line, key).value;
      && HasPrefix(t, key) && HasSuffix(t, v) && |t| > |key| + |v|
      && |v| > 0 && NoRe2Space(v)
      && forall i :: |key| <= i < |t| - |v| ==> IsRe2Space(t[i])
  {
    var t := TrimSpace(line);
    var rest := t[|key|..];
    ScanSound(rest, [Spaces, Tok]);
    var ps := Scan(rest, [Spaces, Tok]).value.0;
    ConcatCons(ps[0], ps[1..]);
    ConcatCons(ps[1], []);
    assert ps == [ps[0]] + [ps[1]];
    assert [ps[1]] == [ps[1]] + [];
    assert rest == ps[0] + ps[1];
    assert t == key + ps[0] + ps[1];
    assert Fits(ps[0], Spaces) && Fits(ps[1], Tok);
  }

  /** `key`, white space, then a word: the word is the value. */
  lemma {:induction false} KeyValueOf(key: string, pad: string, v: string)
    requires |key| > 0 && !IsSpace(key[0])
    requires |pad| > 0 && forall i :: 0 <= i < |pad| ==> IsRe2Space(pad[i])
    requires |v| > 0 && NoSpace(v)
    ensures KeyValue(key + pad + v, key) == Some(v)
  {
    var line := key + pad + v;
    TrimSpaceStable(line);
    KeyValueScan(pad, v);
    assert line[|key|..] == pad + v;
    assert HasPrefix(line, key);
  }

  /** White space then a word scan as exactly those two pieces. */
  lemma {:induction false} KeyValueScan(pad: string, v: string)
    requires |pad| > 0 && forall i :: 0 <= i < |pad| ==> IsRe2Space(pad[i])
    requires |v| > 0 && NoSpace(v)
    ensures Scan(pad + v, [Spaces, Tok]) == Some(([pad, v], ""))
  {
    Re2SpaceIsSpace(v[0]);
    forall i | 0 <= i < |v|
      ensures InClass(v[i], Token)
    {
      Re2SpaceIsSpace(v[i]);
    }
    MaximalByNext([pad, v], "", [Spaces, Tok]);
    ScanComplete([pad, v], "", [Spaces, Tok]);
    ConcatCons(pad, [v]);
    ConcatCons(v, []);
    assert Concat([pad, v]) + "" == pad + v;
  }

  /** The text after `key` and the white space that follows it. */
  function KeyRest(line: string, key: string): (r: Option<string>)
  {
    var t := TrimSpace(line);
    if !HasPrefix(t, key) then None
    else
      var sc := Scan(t[|key|..], [Spaces]);
      if sc.Some? then Some(sc.value.1) else None
  }

  lemma {:induction false} KeyRestOf(key: string, pad: string, v: string)
    requires |key| > 0 && !IsSpace(key[0])
    requires |pad| > 0 && forall i :: 0 <= i < |pad| ==> IsRe2Space(pad[i])
    requires |v| > 0 && !IsSpace(v[0]) && !IsSpace(v[|v| - 1])
    ensures KeyRest(key + pad + v, key) == Some(v)
  {
    var line := key + pad + v;
    TrimSpaceStable(line);
    Re2SpaceIsSpace(v[0]);
    MaximalByNext([pad], v, [Spaces]);
    ScanComplete([pad], v, [Spaces]);
    ConcatCons(pad, []);
    assert line[|key|..] == Concat([pad]) + v;
  }

  /** What GetCPUHardware reports. */
  datatype CpuHardware = CpuHardware(
    architecture: Option<string>,
    cores: Option<int>,
    threadsPerCore: Option<int>,
    modelName: Option<string>)

  /** A key whose value must also be a number. */
  function KeyNumber(line: string, key: string): (r: Option<int>)
    ensures r.Some? <==> KeyValue(line, key).Some? && ParseInt(KeyValue(line, key).value).ok
  {
    var v := KeyValue(line, key);
    if v.Some? && ParseInt(v.value).ok then Some(ParseInt(v.value).value) else None
  }

  /** Every field comes from the first line that yields it; a CPU(s) line
      whose value is not a number leaves the field for a later line. */
  function ParseLscpu(output: string): CpuHardware
  {
    var lines := SplitLine(output);
    CpuHardware(
      FirstSome(lines, l => KeyValue(l, "Architecture:")),
      FirstSome(lines, l => KeyNumber(l, "CPU(s):")),
      FirstSome(lines, l => KeyNumber(l, "Thread(s) per core:")),
      FirstSome(lines, l => KeyRest(l, "Model name:")))
  }

  // ---------------------------------------------------------------------
  // /proc/meminfo: `^MemTotal:\s*([0-9]+)\s+kB$` on the trimmed line

  function KbValue(line: string, key: string): (r: Option<string>)
  {
    var t := TrimSpace(line);
    if !HasPrefix(t, key) then None
    else
      var sc := Scan(t[|key|..], [MaybeSpaces, Digits, Spaces]);
      if sc.Some? && sc.value.1 == "kB" then Some(sc.value.0[1]) else None
  }

  /** The meminfo rendering `Key:   digits kB` gives the digits back. */
  lemma {:induction false} KbValueOf(key: string, pad: string, ds: string)
    requires |key| > 0 && !IsSpace(key[0])
    requires forall i :: 0 <= i < |pad| ==> IsRe2Space(pad[i])
    requires |ds| > 0 && AllDigits(ds)
    ensures KbValue(key + pad + ds + " kB", key) == Some(ds)
  {
    var line := key + pad + ds + " kB";
    TrimSpaceStable(line);
    KbValueScan(pad, ds);
    assert line[|key|..] == pad + ds + " kB";
    assert HasPrefix(line, key);
  }

  /** White space, digits, one blank and `kB` scan as those pieces. */
  lemma {:induction false} KbValueScan(pad: string, ds: string)
    requires forall i :: 0 <= i < |pad| ==> IsRe2Space(pad[i])
    requires |ds| > 0 && AllDigits(ds)
    ensures Scan(pad + ds + " kB", [MaybeSpaces, Digits, Spaces]) == Some(([pad, ds, " "], "kB"))
  {
    MaximalByNext([pad, ds, " "], "kB", [MaybeSpaces, Digits, Spaces]);
    ScanComplete([pad, ds, " "], "kB", [MaybeSpaces, Digits, Spaces]);
    ConcatCons(pad, [ds, " "]);
    ConcatCons(ds, [" "]);
    ConcatCons(" ", []);
    assert Concat([pad, ds, " "]) + "kB" == pad + ds + " kB";
  }

  /** The memory figures: from the Mem line of top, or from meminfo. */
  datatype MemUsage =
    | FromTop(free: int, used: int, buff: int)
    | FromMeminfo(total: int, free: int)

  /** The MemTotal text, in whole MiB. */
  function MemTotalText(m: MemUsage): string {
    match m
    case FromTop(free, used, buff) => IntToString((free + used + buff) / 1024) + "MB"
    case FromMeminfo(total, _) => IntToString(total / 1024) + "MB"
  }

  /** The fallback: the last MemTotal and MemFree lines win; a missing or
      zero figure leaves the usage unknown. */
  function ParseMeminfo(output: string): (r: Option<MemUsage>)
    ensures r.Some? ==> r.value.FromMeminfo? && r.value.total > 0 && r.value.free > 0
  {
    var lines := SplitLine(output);
    var totalText := LastSome(lines, l => KbValue(l, "MemTotal:")).GetOr("");
    var freeText := LastSome(lines, l => KbValue(l, "MemFree:")).GetOr("");
    var free, total := ParseInt(freeText).value, ParseInt(totalText).value;
    if free == 0 || total == 0 then None
    else
      assert free > 0 && total > 0 by {
        KbDigitsNonNegative(lines, "MemFree:");
        KbDigitsNonNegative(lines, "MemTotal:");
      }
      Some(FromMeminfo(total, free))
  }

  /** The recognised figures are digit strings, so they parse to values no
      smaller than zero. */
  lemma {:induction false} KbDigitsNonNegative(lines: seq<string>, key: string)
    ensures ParseInt(LastSome(lines, l => KbValue(l, key)).GetOr("")).value >= 0
  {
    var r := LastSome(lines, l => KbValue(l, key));
    if r.Some? {
      LastSomeSound(lines, l => KbValue(l, key));
      var i :| 0 <= i < |lines| && KbValue(lines[i], key) == r && NoneAfter(lines, l => KbValue(l, key), i);
      KbValueDigits(lines[i], key);
    }
  }

  lemma {:induction false} KbValueDigits(line: string, key: string)
    requires KbValue(line, key).Some?
    ensures AllDigits(KbValue(line, key).value)
  {
    var t := TrimSpace(line);
    ScanSound(t[|key|..], [MaybeSpaces, Digits, Spaces]);
    var ps := Scan(t[|key|..], [MaybeSpaces, Digits, Spaces]).value.0;
    assert Fits(ps[1], Digits);
  }

  // ---------------------------------------------------------------------
  // w: `^(\w+)\s+[^\s]+\s+[^\s]+\s+[^\s]+\s+(.*)$` on the trimmed line

  /** One logged-in session: the account and what it is running. */
  datatype Session = Session(account: string, what: string)

  /** `n` times a column of non-blank characters and the blanks after it;
      what follows is returned. */
  function Columns(s: string, n: nat): (r: Option<string>)
    decreases n
  {
    if n == 0 then Some(s)
    else
      var sc := Scan(s, [Tok, Spaces]);
      if sc.None? then None else Columns(sc.value.1, n - 1)
  }

  /** The account column, then the tty, from and idle columns, then the
      command line. */
  function SessionLine(line: string): (r: Option<Session>)
  {
    SessionOf(TrimSpace(line))
  }

  /** The match on a line already trimmed. */
  function SessionOf(t: string): (r: Option<Session>)
  {
    var sc := Scan(t, [Step(Word, true), Spaces]);
    if sc.None? then None
    else
      var what := Columns(sc.value.1, 3);
      if what.None? then None else Some(Session(sc.value.0[0], what.value))
  }

  lemma {:induction false} SuffixOfAppend(p: string, s: string, v: string)
    requires HasSuffix(s, v)
    ensures HasSuffix(p + s, v)
  {
    assert (p + s)[|p + s| - |v|..] == s[|s| - |v|..];
  }

  /** One column step leaves a suffix of its input. */
  lemma {:induction false} ColumnStep(s: string, n: nat)
    requires n > 0 && Columns(s, n).Some?
    ensures Scan(s, [Tok, Spaces]).Some?
    ensures var rest := Scan(s, [Tok, Spaces]).value.1;
      HasSuffix(s, rest) && Columns(s, n) == Columns(rest, n - 1)
  {
    ScanPair(s, Tok, Spaces);
    var (ps, rest) := Scan(s, [Tok, Spaces]).value;
    assert s == (ps[0] + ps[1]) + rest;
  }

  /** A suffix of a suffix is a suffix. */
  lemma {:induction false} SuffixTrans(s: string, t: string, v: string)
    requires HasSuffix(s, t) && HasSuffix(t, v)
    ensures HasSuffix(s, v)
  {
    assert s[|s| - |v|..] == s[|s| - |t|..][|t| - |v|..];
  }

  /** Columns ends in a suffix of its input. */
  lemma {:induction false} ColumnsSuffix(s: string, n: nat)
    requires Columns(s, n).Some?
    ensures HasSuffix(s, Columns(s, n).value)
    decreases n
  {
    if n > 0 {
      ColumnStep(s, n);
      var rest := Scan(s, [Tok, Spaces]).value.1;
      ColumnsSuffix(rest, n - 1);
      SuffixTrans(s, rest, Columns(rest, n - 1).value);
    } else {
      assert s[|s| - |s|..] == s;
    }
  }

  /** After at least one column, what is left starts with a non-blank. */
  lemma {:induction false} ColumnsStart(s: string, n: nat)
    requires n > 0 && Columns(s, n).Some?
    ensures |Columns(s, n).value| > 0 ==> !IsRe2Space(Columns(s, n).value[0])
    decreases n
  {
    ScanPair(s, Tok, Spaces);
    var rest := Scan(s, [Tok, Spaces]).value.1;
    assert Columns(s, n) == Columns(rest, n - 1);
    if n > 1 {
      ColumnsStart(rest, n - 1);
    }
  }

  /** A recognised session names an account made of word characters at the
      start of the line, and its `what` is the end of the line. */
  lemma {:induction false} SessionLineSound(line: string)
    requires SessionLine(line).Some?
    ensures var t, s := TrimSpace(line), SessionLine(line).value;
      && |s.account| > 0 && HasPrefix(t, s.account) && HasSuffix(t, s.what)
      && (forall i :: 0 <= i < |s.account| ==> IsWordChar(s.account[i]))
      && (|s.what| > 0 ==> !IsRe2Space(s.what[0]))
  {
    var t := TrimSpace(line);
    ScanPair(t, Step(Word, true), Spaces);
    var (ps, rest) := Scan(t, [Step(Word, true), Spaces]).value;
    ColumnsSuffix(rest, 3);
    ColumnsStart(rest, 3);
    SuffixOfAppend(ps[0] + ps[1], rest, SessionLine(line).value.what);
  }

  /** Columns each followed by one blank. */
  function Spaced(cols: seq<string>): string {
    if |cols| == 0 then "" else cols[0] + " " + Spaced(cols[1..])
  }

  /** A column and the blanks after it are the two pieces of one step. */
  lemma {:induction false} PairOf(col: string, st: Step, pad: string, rest: string)
    requires Fits(col, st) && |col| > 0 && (st.cls == Word || st.cls == Token)
    requires |pad| > 0 && forall i :: 0 <= i < |pad| ==> IsRe2Space(pad[i])
    requires |rest| > 0 ==> !IsRe2Space(rest[0])
    ensures Scan(col + pad + rest, [st, Spaces]) == Some(([col, pad], rest))
  {
    assert !InClass(pad[0], st.cls);
    MaximalByNext([col, pad], rest, [st, Spaces]);
    ScanComplete([col, pad], rest, [st, Spaces]);
    ConcatCons(col, [pad]);
    ConcatCons(pad, []);
    assert [pad] == [pad] + [] && [col, pad] == [col] + [pad];
    assert Concat([col, pad]) == col + pad;
    assert Concat([col, pad]) + rest == col + pad + rest;
  }

  lemma {:induction false} ColumnsOf(cols: seq<string>, what: string)
    requires forall k :: 0 <= k < |cols| ==> |cols[k]| > 0 && NoSpace(cols[k])
    requires |what| > 0 ==> !IsRe2Space(what[0])
    ensures Columns(Spaced(cols) + what, |cols|) == Some(what)
  {
    if |cols| > 0 {
      var x := Spaced(cols[1..]) + what;
      if |cols| > 1 {
        assert x[0] == cols[1][0];
        Re2SpaceIsSpace(cols[1][0]);
      } else {
        assert x == what;
      }
      assert Spaced(cols) + what == cols[0] + " " + x;
      ColumnCons(cols[0], x, |cols| - 1);
      ColumnsOf(cols[1..], what);
    } else {
      assert Spaced(cols) + what == what;
    }
  }

  /** One column and its blank are consumed by one step of Columns. */
  lemma ColumnCons(col: string, x: string, n: nat)
    requires |col| > 0 && NoSpace(col)
    requires |x| > 0 ==> !IsRe2Space(x[0])
    ensures Columns(col + " " + x, n + 1) == Columns(x, n)
  {
    NoSpaceIsToken(col);
    PairOf(col, Tok, " ", x);
  }

  /** The columns of a w line, separated by single spaces. */
  lemma {:induction false} SessionLineOf(name: string, cols: seq<string>, what: string)
    requires |name| > 0 && forall i :: 0 <= i < |name| ==> IsWordChar(name[i])
    requires |cols| == 3 && forall k :: 0 <= k < 3 ==> |cols[k]| > 0 && NoSpace(cols[k])
    requires |what| > 0 && !IsSpace(what[0]) && !IsSpace(what[|what| - 1])
    ensures SessionLine(name + " " + Spaced(cols) + what) == Some(Session(name, what))
  {
    var x := Spaced(cols) + what;
    var line := name + " " + x;
    assert name + " " + Spaced(cols) + what == line;
    assert SessionLine(line) == SessionOf(line) by {
      assert line[0] == name[0];
      assert x[|x| - 1] == what[|what| - 1];
      assert line[|line| - 1] == x[|x| - 1];
      assert !IsSpace(name[0]);
      TrimSpaceStable(line);
    }
    assert |x| > 0 && !IsRe2Space(x[0]) by {
      assert x[0] == cols[0][0];
      Re2SpaceIsSpace(cols[0][0]);
    }
    assert Scan(line, [Step(Word, true), Spaces]) == Some(([name, " "], x)) by {
      assert Fits(name, Step(Word, true));
      PairOf(name, Step(Word, true), " ", x);
    }
    assert Columns(x, 3) == Some(what) by {
      Re2SpaceIsSpace(what[0]);
      ColumnsOf(cols, what);
    }
  }

  lemma {:induction false} NoSpaceIsToken(s: string)
    requires NoSpace(s)
    ensures Fits(s, Tok) || |s| == 0
  {
    forall i | 0 <= i < |s|
      ensures InClass(s[i], Token)
    {
      Re2SpaceIsSpace(s[i]);
    }
  }

  // ---------------------------------------------------------------------
  // top process rows: exactly 12 white-space separated columns

  const TwoTo64: int := 0x1_0000_0000_0000_0000

  /** Go's uint(v) for an int64 v. */
  function AsUint(v: int): (r: nat)
    requires MinInt64 <= v <= MaxInt64
    ensures r < TwoTo64 && r % TwoTo64 == v % TwoTo64
  {
    if v < 0 then v + TwoTo64 else v
  }

  /** One row of top. The CPU and memory columns are kept as their text;
      `floatOk` says which texts strconv.ParseFloat accepts. */
  datatype Process = Process(pid: nat, owner: string, command: string, cpu: string, mem: string)

  function ProcessRow(line: string, floatOk: string -> bool): (r: Option<Process>)
    ensures r.Some? ==> (|Fields(TrimSpace(line))| == 12
      && ParseInt(Fields(TrimSpace(line))[0]).ok && floatOk(Fields(TrimSpace(line))[8]))
  {
    var toks := Fields(TrimSpace(line));
    if |toks| != 12 then None
    else
      var p := ParseInt(toks[0]);
      if !p.ok || !floatOk(toks[8]) then None
      else Some(Process(AsUint(p.value), toks[1], toks[11], toks[8], toks[9]))
  }

  /** TrimLeft drops any amount of leading white space. */
  lemma {:induction false} TrimLeftPad(pad: string, s: string)
    requires forall i :: 0 <= i < |pad| ==> IsSpace(pad[i])
    requires |s| > 0 && !IsSpace(s[0])
    ensures TrimLeft(pad + s) == s
  {
    if |pad| > 0 {
      assert (pad + s)[1..] == pad[1..] + s;
      TrimLeftPad(pad[1..], s);
    } else {
      assert pad + s == s;
    }
  }

  /** A right-aligned row of twelve columns yields its process. */
  lemma {:induction false} ProcessRowOf(pad: string, cols: seq<string>, floatOk: string -> bool)
    requires forall i :: 0 <= i < |pad| ==> IsSpace(pad[i])
    requires |cols| == 12 && forall k :: 0 <= k < 12 ==> |cols[k]| > 0 && NoSpace(cols[k])
    requires ParseInt(cols[0]).ok && floatOk(cols[8])
    ensures ProcessRow(pad + Join(cols, " "), floatOk)
      == Some(Process(AsUint(ParseInt(cols[0]).value), cols[1], cols[11], cols[8], cols[9]))
  {
    var s := Join(cols, " ");
    JoinEnds(cols);
    TrimLeftPad(pad, s);
    TrimSpaceStable(s);
    FieldsJoin(cols);
  }

  /** A single-space join of non-blank columns starts and ends with a
      non-blank character. */
  lemma {:induction false} JoinEnds(cols: seq<string>)
    requires |cols| > 0 && forall k :: 0 <= k < |cols| ==> |cols[k]| > 0 && NoSpace(cols[k])
    ensures var s := Join(cols, " "); |s| > 0 && !IsSpace(s[0]) && !IsSpace(s[|s| - 1])
  {
    if |cols| > 1 {
      JoinEnds(cols[1..]);
      var rest := Join(cols[1..], " ");
      assert Join(cols, " ") == cols[0] + " " + rest;
    }
  }
}

=== FILE: readings.dfy ===
/** The probe methods of LinuxSSHExecutorServiceTemplate (linux.go:255-757):
    each loads its script, sends it, and reads what comes back with the
    parsers of Probes and Greedy. None of them changes the host. */
module Readings {
  import opened Wrappers
  import opened Strings
  import opened Util
  import opened Host
  import Runs
  import opened Probes
  import opened Greedy
  import opened Executor

  /** The command output a probe keeps, and what it read from it; `parsed`
      is None when the probe gave up before reading. */
  datatype Reading<T> = Reading(output: string, parsed: Option<T>)

  /** The common shape of the probes: run one command; on success read its
      output with `parse`. */
  function Probe<T>(c: Conn, verb: string, cmd: Command, parse: string -> T): (r: Out<Reading<T>>)
    requires Verb(cmd) == verb
    ensures r.conn.remote == Execute(c.remote, cmd).remote || r.conn.remote == c.remote
    ensures r.err.None? <==> Healthy(c.remote, verb) && Execute(c.remote, cmd).ok
    ensures r.err.None? ==> (r.resp.parsed == Some(parse(Execute(c.remote, cmd).output))
      && r.resp.output == Execute(c.remote, cmd).output && r.conn.sent == c.sent + [cmd])
    ensures r.err.Some? ==> r.resp.parsed.None?
  {
    var run := Run(c, verb, cmd);
    if run.err.Some? then Out(run.conn, Reading(run.resp, None), run.err)
    else Out(run.conn, Reading(run.resp, Some(parse(run.resp))), None)
  }

  /** The read-only commands leave the host as it is, and succeed exactly
      when their verb does not fail. */
  lemma ReadOnly(r: Remote, cmd: Command)
    requires cmd.Top? || cmd.Meminfo? || cmd.Lscpu? || cmd.Lsgpu? || cmd.Who? || cmd.GpuName? || cmd.GpuUsage?
    ensures Execute(r, cmd).remote == r
    ensures Execute(r, cmd).ok <==> Verb(cmd) !in r.failing
  {
  }

  // ---------------------------------------------------------------------
  // GetCPUMemProcessesUsages (linux.go:255-416)

  const MeminfoSeparator: string := "--- meminfo ---\n"

  /** top, read by ParseTop. */
  function TopProbe(c: Conn, floatOk: string -> bool): (r: Out<Reading<TopReport>>)
    ensures r.conn.remote == c.remote
    ensures r.err.None? <==> Healthy(c.remote, "top")
    ensures r.err.None? ==> (r.conn.sent == c.sent + [Top]
      && r.resp == Reading(c.remote.topText, Some(ParseTop(c.remote.topText, floatOk))))
    ensures r.err.Some? ==> r.resp.parsed.None?
  {
    ReadOnly(c.remote, Top);
    Probe(c, "top", Top, t => ParseTop(t, floatOk))
  }

  /** The /proc/meminfo step: its output goes after the separator, and its
      figures replace the memory of `report` when it runs. */
  function WithMeminfo(c: Conn, output: string, report: TopReport): (r: Out<Reading<TopReport>>)
    ensures r.conn.remote == c.remote
    ensures r.err.None? <==> Healthy(c.remote, "meminfo")
    ensures r.resp.parsed.Some? && HasPrefix(r.resp.output, output)
    ensures r.resp.parsed.value.cpu == report.cpu && r.resp.parsed.value.processes == report.processes
    ensures r.err.None? ==> (r.conn.sent == c.sent + [Meminfo]
      && r.resp.output == output + MeminfoSeparator + c.remote.meminfoText
      && r.resp.parsed.value.mem == ParseMeminfo(c.remote.meminfoText))
  {
    var load := LoadScript(c, "meminfo");
    if load.Some? then Out(c, Reading(output, Some(report)), load)
    else
      ReadOnly(c.remote, Meminfo);
      var (c2, reply) := Send(c, Meminfo);
      var text := output + MeminfoSeparator + reply.output;
      if reply.err.Some? then Out(c2, Reading(text, Some(report)), reply.err)
      else Out(c2, Reading(text, Some(report.(mem := ParseMeminfo(reply.output)))), None)
  }

  /** top, read by ParseTop; when top has no usable memory line the memory
      figures come from /proc/meminfo, whose output is appended after a
      separator. A meminfo whose figures are missing or zero leaves the
      memory unknown without an error. */
  function GetCPUMemProcessesUsages(c: Conn, floatOk: string -> bool): (r: Out<Reading<TopReport>>)
    ensures r.conn.remote == c.remote
    ensures r.err.None? <==> (Healthy(c.remote, "top")
      && (ParseTop(c.remote.topText, floatOk).mem.None? ==> Healthy(c.remote, "meminfo")))
    ensures !Healthy(c.remote, "top") ==> r.err.Some? && r.resp.parsed.None?
    ensures Healthy(c.remote, "top") ==> (r.resp.parsed.Some?
      && r.resp.parsed.value.cpu == ParseTop(c.remote.topText, floatOk).cpu
      && r.resp.parsed.value.processes == ParseTop(c.remote.topText, floatOk).processes
      && HasPrefix(r.resp.output, c.remote.topText))
  {
    var top := TopProbe(c, floatOk);
    if top.err.Some? then top
    else
      var report := top.resp.parsed.value;
      if report.mem.Some? then top
      else WithMeminfo(top.conn, top.resp.output, report)
  }

  /** Memory figures from top take precedence: when top has usable ones
      (the first such line, by TopMemFirst), they are reported and
      /proc/meminfo is never read. */
  lemma TopMemoryWins(c: Conn, floatOk: string -> bool)
    requires Healthy(c.remote, "top") && ParseTop(c.remote.topText, floatOk).mem.Some?
    ensures var r := GetCPUMemProcessesUsages(c, floatOk);
      && r.err.None? && r.conn.sent == c.sent + [Top]
      && r.resp.output == c.remote.topText
      && r.resp.parsed.value.mem == ParseTop(c.remote.topText, floatOk).mem
  {
    assert GetCPUMemProcessesUsages(c, floatOk) == TopProbe(c, floatOk);
  }

  /** Without a usable memory line in top, the memory figures are exactly
      those of /proc/meminfo, and both outputs are kept. */
  lemma MeminfoFallback(c: Conn, floatOk: string -> bool)
    requires Healthy(c.remote, "top") && Healthy(c.remote, "meminfo")
    requires forall j :: 0 <= j < |SplitLine(c.remote.topText)| ==> MemUsable(SplitLine(c.remote.topText)[j]).None?
    ensures var r := GetCPUMemProcessesUsages(c, floatOk);
      && r.err.None? && r.conn.sent == c.sent + [Top, Meminfo]
      && r.resp.output == c.remote.topText + MeminfoSeparator + c.remote.meminfoText
      && r.resp.parsed.value.mem == ParseMeminfo(c.remote.meminfoText)
  {
    var top := TopProbe(c, floatOk);
    var report := ParseTop(c.remote.topText, floatOk);
    assert report.mem.None?;
    assert GetCPUMemProcessesUsages(c, floatOk) == WithMeminfo(top.conn, c.remote.topText, report);
    assert c.sent + [Top] + [Meminfo] == c.sent + [Top, Meminfo];
  }

  // ---------------------------------------------------------------------
  // GetCPUHardware, GetGPUHardware, GetMemoryHardware (linux.go:418-590)

  /** lscpu, read by ParseLscpu. */
  function GetCPUHardware(c: Conn): (r: Out<Reading<CpuHardware>>)
    ensures r.conn.remote == c.remote
    ensures r.err.None? <==> Healthy(c.remote, "lscpu")
    ensures r.err.None? ==> (r.resp.output == c.remote.lscpuText
      && r.resp.parsed == Some(ParseLscpu(c.remote.lscpuText)))
  {
    ReadOnly(c.remote, Lscpu);
    Probe(c, "lscpu", Lscpu, ParseLscpu)
  }

  /** The architecture comes from the first line that names one. */
  lemma ArchitectureFirst(c: Conn, i: nat)
    requires Healthy(c.remote, "lscpu")
    requires var lines := SplitLine(c.remote.lscpuText);
      i < |lines| && KeyValue(lines[i], "Architecture:").Some?
      && forall j :: 0 <= j < i ==> KeyValue(lines[j], "Architecture:").None?
    ensures GetCPUHardware(c).resp.parsed.value.architecture
      == KeyValue(SplitLine(c.remote.lscpuText)[i], "Architecture:")
  {
    Runs.FirstSomeAt(SplitLine(c.remote.lscpuText), l => KeyValue(l, "Architecture:"), i);
  }

  /** The products of the VGA lines of a listing, in order. */
  function GpuProducts(t: string): (r: seq<string>)
    ensures |r| <= |SplitLine(t)|
  {
    Runs.AllSome(SplitLine(t), GpuProduct)
  }

  /** lspci filtered to VGA controllers: every matching line, in order. */
  function GetGPUHardware(c: Conn): (r: Out<Reading<seq<string>>>)
    ensures r.conn.remote == c.remote
    ensures r.err.None? <==> Healthy(c.remote, "lsgpu")
    ensures r.err.None? ==> (r.resp.output == c.remote.lsgpuText
      && r.resp.parsed.Some? && |r.resp.parsed.value| <= |SplitLine(c.remote.lsgpuText)|)
  {
    ReadOnly(c.remote, Lsgpu);
    Probe(c, "lsgpu", Lsgpu, GpuProducts)
  }

  /** Every product of a listing comes from one of its lines. */
  lemma GpuProductsSound(t: string, product: string)
    requires product in GpuProducts(t)
    ensures exists i :: (0 <= i < |SplitLine(t)|
      && var u := TrimSpace(SplitLine(t)[i]);
         HasSuffix(u, Controller + product) && Contains(u[..|u| - |product| - 12], "VGA"))
    ensures !Contains(product, Controller)
  {
    var lines := SplitLine(t);
    Runs.AllSomeSound(lines, GpuProduct, product);
    var i :| 0 <= i < |lines| && GpuProduct(lines[i]) == Some(product);
    GpuLineSound(lines[i], product);
    assert 0 <= i < |SplitLine(t)| && lines[i] == SplitLine(t)[i];
  }

  /** One line's product, restated for a known value. */
  lemma GpuLineSound(line: string, product: string)
    requires GpuProduct(line) == Some(product)
    ensures var u := TrimSpace(line);
      HasSuffix(u, Controller + product) && Contains(u[..|u| - |product| - 12], "VGA")
    ensures !Contains(product, Controller)
  {
    GpuProductSound(line);
  }

  /** Every reported product is what follows the last `controller: ` of a
      line that mentions VGA before it. */
  lemma GpuHardwareSound(c: Conn, product: string)
    requires GetGPUHardware(c).err.None?
    requires product in GetGPUHardware(c).resp.parsed.value
    ensures exists i :: (0 <= i < |SplitLine(c.remote.lsgpuText)|
      && var t := TrimSpace(SplitLine(c.remote.lsgpuText)[i]);
         HasSuffix(t, Controller + product) && Contains(t[..|t| - |product| - 12], "VGA"))
    ensures !Contains(product, Controller)
  {
    ReadOnly(c.remote, Lsgpu);
    assert GetGPUHardware(c).resp.parsed.value == GpuProducts(c.remote.lsgpuText);
    GpuProductsSound(c.remote.lsgpuText, product);
  }

  /** Every VGA line of lspci is reported. */
  lemma GpuHardwareComplete(c: Conn, i: nat)
    requires Healthy(c.remote, "lsgpu")
    requires i < |SplitLine(c.remote.lsgpuText)| && GpuProduct(SplitLine(c.remote.lsgpuText)[i]).Some?
    ensures GpuProduct(SplitLine(c.remote.lsgpuText)[i]).value in GetGPUHardware(c).resp.parsed.value
  {
    ReadOnly(c.remote, Lsgpu);
    Runs.AllSomeComplete(SplitLine(c.remote.lsgpuText), GpuProduct, i);
  }

  /** /proc/meminfo: the text after the first `MemTotal:` and its blanks. */
  function GetMemoryHardware(c: Conn): (r: Out<Reading<Option<string>>>)
    ensures r.conn.remote == c.remote
    ensures r.err.None? <==> Healthy(c.remote, "meminfo")
    ensures r.err.None? ==> r.resp.output == c.remote.meminfoText
  {
    ReadOnly(c.remote, Meminfo);
    Probe(c, "meminfo", Meminfo, t => Runs.FirstSome(SplitLine(t), l => KeyRest(l, "MemTotal:")))
  }

  /** A meminfo whose first MemTotal line is `MemTotal:`, blanks and a value
      reports that value, unit included. */
  lemma MemoryTotalOf(c: Conn, before: seq<string>, pad: string, v: string, after: string)
    requires Healthy(c.remote, "meminfo")
    requires |pad| > 0 && forall i :: 0 <= i < |pad| ==> IsRe2Space(pad[i])
    requires |v| > 0 && !IsSpace(v[0]) && !IsSpace(v[|v| - 1])
    requires SplitLine(c.remote.meminfoText) == before + ["MemTotal:" + pad + v] + SplitLine(after)
    requires forall j :: 0 <= j < |before| ==> KeyRest(before[j], "MemTotal:").None?
    ensures GetMemoryHardware(c).resp.parsed == Some(Some(v))
  {
    ReadOnly(c.remote, Meminfo);
    var lines := SplitLine(c.remote.meminfoText);
    KeyRestOf("MemTotal:", pad, v);
    assert lines[|before|] == "MemTotal:" + pad + v;
    forall j | 0 <= j < |before|
      ensures KeyRest(lines[j], "MemTotal:").None?
    {
      assert lines[j] == before[j];
    }
    Runs.FirstSomeAt(lines, l => KeyRest(l, "MemTotal:"), |before|);
  }

  // ---------------------------------------------------------------------
  // GetRemoteAccessInfos and GetGPUUsages (linux.go:686-757)

  /** w: one session per line that matches. */
  function GetRemoteAccessInfos(c: Conn): (r: Out<Reading<seq<Session>>>)
    ensures r.conn.remote == c.remote
    ensures r.err.None? <==> Healthy(c.remote, "w")
    ensures r.err.None? ==> (r.resp.output == c.remote.wText
      && r.resp.parsed.Some? && |r.resp.parsed.value| <= |SplitLine(c.remote.wText)|)
  {
    ReadOnly(c.remote, Who);
    Probe(c, "w", Who, t => Runs.AllSome(SplitLine(t), SessionLine))
  }

  /** Every reported session names an account of word characters that
      starts its line, and what it runs ends the line. */
  lemma RemoteAccessSound(c: Conn, s: Session)
    requires GetRemoteAccessInfos(c).err.None?
    requires s in GetRemoteAccessInfos(c).resp.parsed.value
    ensures exists i :: (0 <= i < |SplitLine(c.remote.wText)|
      && var t := TrimSpace(SplitLine(c.remote.wText)[i]);
         HasPrefix(t, s.account) && HasSuffix(t, s.what))
    ensures |s.account| > 0 && forall k :: 0 <= k < |s.account| ==> IsWordChar(s.account[k])
  {
    ReadOnly(c.remote, Who);
    var lines := SplitLine(c.remote.wText);
    Runs.AllSomeSound(lines, SessionLine, s);
    var i :| 0 <= i < |lines| && SessionLine(lines[i]) == Some(s);
    SessionLineSound(lines[i]);
  }

  /** Every line the session pattern recognises is reported. */
  lemma RemoteAccessComplete(c: Conn, i: nat)
    requires Healthy(c.remote, "w")
    requires i < |SplitLine(c.remote.wText)| && SessionLine(SplitLine(c.remote.wText)[i]).Some?
    ensures SessionLine(SplitLine(c.remote.wText)[i]).value in GetRemoteAccessInfos(c).resp.parsed.value
  {
    ReadOnly(c.remote, Who);
    Runs.AllSomeComplete(SplitLine(c.remote.wText), SessionLine, i);
  }

  /** GetGPUUsages: the GPU names, a newline, then the usage table. A
      failing name query is ignored (its output is empty); a missing script
      or a failing usage query is the error. */
  function GetGPUUsages(c: Conn): (r: Out<string>)
    ensures r.conn.remote == c.remote
    ensures r.err.None? <==> ("nvidia_gpu_name" !in c.remote.unreadable && Healthy(c.remote, "nvidia_gpu_usage"))
    ensures "nvidia_gpu_name" !in c.remote.unreadable && "nvidia_gpu_usage" !in c.remote.unreadable ==>
      r.resp == (if "nvidia_gpu_name" in c.remote.failing then "" else c.remote.gpuNameText)
        + "\n" + (if "nvidia_gpu_usage" in c.remote.failing then "" else c.remote.gpuUsageText)
  {
    var load := LoadScript(c, "nvidia_gpu_name");
    if load.Some? then Out(c, "", load)
    else
      GpuReads(c.remote);
      var (c1, names) := Send(c, GpuName);
      var load2 := LoadScript(c1, "nvidia_gpu_usage");
      if load2.Some? then Out(c1, "", load2)
      else
        var (c2, usage) := Send(c1, GpuUsage);
        Out(c2, names.output + "\n" + usage.output, usage.err)
  }

  /** The two nvidia-smi queries print their text and change nothing. */
  lemma GpuReads(r: Remote)
    ensures Execute(r, GpuName) == if "nvidia_gpu_name" in r.failing then Effect(r, "", false)
      else Effect(r, r.gpuNameText, true)
    ensures Execute(r, GpuUsage) == if "nvidia_gpu_usage" in r.failing then Effect(r, "", false)
      else Effect(r, r.gpuUsageText, true)
  {
  }

  /** Whether the name query fails makes no difference to the outcome, only
      to the text before the newline. */
  lemma GpuNameFailureIgnored(c: Conn)
    ensures var r1 := GetGPUUsages(c);
      var r2 := GetGPUUsages(c.(remote := c.remote.(failing := c.remote.failing + {"nvidia_gpu_name"})));
      r1.err.None? <==> r2.err.None?
  {
  }
}

=== FILE: reconcile.dfy ===
/** Reconciling the accounts stored in the database with the accounts the
    host lists (server.go:285-400): loadAccounts, combineDBAccounts and the
    backup-directory lookups that follow them. */
module Reconcile {
  import opened Wrappers
  import opened Errors
  import opened Host
  import opened Parsers
  import opened Executor
  import opened Accounts

  // ---------------------------------------------------------------------
  // Accounts as the service layer sees them

  /** ServerAccountBackupDirInfo with its common part. */
  datatype BackupInfo = BackupInfo(output: string, failed: Option<APIErr>, pathExists: bool, dirExists: bool, backupDir: string)

  /** ServerAccount: `notInServer` marks a stored account the host no
      longer lists; `backup` is set by the backup-directory lookups. */
  datatype ServerAccount = ServerAccount(
    name: string, pwd: string, host: string, port: nat,
    uid: int, gid: int, notInServer: bool, backup: Option<BackupInfo>)

  /** A row of the accounts table. */
  datatype DBAccount = DBAccount(name: string, pwd: string, host: string, port: nat)

  /** packAccount: a stored account, before anything is known about it. */
  function FromDB(a: DBAccount): ServerAccount {
    ServerAccount(a.name, a.pwd, a.host, a.port, 0, 0, false, None)
  }

  /** An account GetAccountList reported, on the connection's server. */
  function FromListing(a: ListedAccount, host: string, port: nat): ServerAccount {
    ServerAccount(a.name, "", host, port, a.uid, a.gid, false, None)
  }

  function FromListings(ls: seq<ListedAccount>, host: string, port: nat): (r: seq<ServerAccount>)
    ensures |r| == |ls|
    ensures forall k :: 0 <= k < |r| ==> r[k] == FromListing(ls[k], host, port)
  {
    if |ls| == 0 then [] else [FromListing(ls[0], host, port)] + FromListings(ls[1..], host, port)
  }

  /** The row an upsert writes for an account. */
  function ToDB(a: ServerAccount): DBAccount {
    DBAccount(a.name, a.pwd, a.host, a.port)
  }

  function ToDBs(s: seq<ServerAccount>): (r: seq<DBAccount>)
    ensures |r| == |s|
    ensures forall k :: 0 <= k < |r| ==> r[k] == ToDB(s[k])
  {
    if |s| == 0 then [] else [ToDB(s[0])] + ToDBs(s[1..])
  }

  // ---------------------------------------------------------------------
  // The name-keyed map of listed accounts (server.go:304-307)

  /** accountsInServerMap: a later entry with the same name replaces an
      earlier one. */
  function LiveMap(live: seq<ServerAccount>): (m: map<string, ServerAccount>)
    ensures forall n :: n in m ==> m[n].name == n
  {
    if |live| == 0 then map[]
    else LiveMap(live[..|live| - 1])[live[|live| - 1].name := live[|live| - 1]]
  }

  /** The map holds exactly the listed names, each with its last entry. */
  lemma LiveMapSpec(live: seq<ServerAccount>)
    ensures forall k :: 0 <= k < |live| ==> live[k].name in LiveMap(live)
    ensures forall n :: n in LiveMap(live) ==> exists k :: (0 <= k < |live| && LiveMap(live)[n] == live[k]
      && forall j :: k < j < |live| ==> live[j].name != n)
  {
    forall k | 0 <= k < |live|
      ensures live[k].name in LiveMap(live)
    {
      LiveMapHas(live, k);
    }
    forall n | n in LiveMap(live)
      ensures exists k :: (0 <= k < |live| && LiveMap(live)[n] == live[k]
        && forall j :: k < j < |live| ==> live[j].name != n)
    {
      LiveMapEntry(live, n);
    }
  }

  /** Every listed name is a key of the map. */
  lemma {:induction false} LiveMapHas(live: seq<ServerAccount>, k: int)
    requires 0 <= k < |live|
    ensures live[k].name in LiveMap(live)
  {
    if k < |live| - 1 {
      var init := live[..|live| - 1];
      LiveMapHas(init, k);
      assert init[k] == live[k];
    }
  }

  /** The map holds the last entry of each name. */
  lemma {:induction false} LiveMapEntry(live: seq<ServerAccount>, n: string)
    requires n in LiveMap(live)
    ensures exists k :: (0 <= k < |live| && LiveMap(live)[n] == live[k]
      && forall j :: k < j < |live| ==> live[j].name != n)
  {
    var last := live[|live| - 1];
    if n == last.name {
      assert LiveMap(live)[n] == live[|live| - 1];
    } else {
      var init := live[..|live| - 1];
      assert n in LiveMap(init) && LiveMap(live)[n] == LiveMap(init)[n];
      LiveMapEntry(init, n);
      var k :| 0 <= k < |init| && LiveMap(init)[n] == init[k]
        && forall j :: k < j < |init| ==> init[j].name != n;
      assert init[k] == live[k];
      forall j | k < j < |live|
        ensures live[j].name != n
      {
        if j < |init| {
          assert init[j] == live[j];
        }
      }
    }
  }

  /** The names of a listing, each once, in order of first appearance: the
      order in which the model visits the map (Go leaves it unspecified). */
  function KeysOf(live: seq<ServerAccount>): (r: seq<string>)
  {
    if |live| == 0 then []
    else
      var rest := KeysOf(live[..|live| - 1]);
      if live[|live| - 1].name in rest then rest else rest + [live[|live| - 1].name]
  }

  /** `keys` visits every key of `m` once and nothing else. */
  predicate Enumerates(keys: seq<string>, m: map<string, ServerAccount>) {
    && (forall i, j :: 0 <= i < j < |keys| ==> keys[i] != keys[j])
    && (forall i :: 0 <= i < |keys| ==> keys[i] in m)
    && (forall n :: n in m ==> n in keys)
  }

  lemma {:induction false} KeysEnumerate(live: seq<ServerAccount>)
    ensures Enumerates(KeysOf(live), LiveMap(live))
  {
    if |live| > 0 {
      KeysEnumerate(live[..|live| - 1]);
    }
  }

  /** The accounts of `m` under the keys of `keys` that it holds, in that
      order. */
  function Pick(keys: seq<string>, m: map<string, ServerAccount>): (r: seq<ServerAccount>)
    ensures |r| <= |keys|
  {
    if |keys| == 0 then []
    else (if keys[0] in m then [m[keys[0]]] else []) + Pick(keys[1..], m)
  }

  /** With distinct keys covering `m`, Pick lists every account of `m`
      exactly once. */
  lemma PickSpec(keys: seq<string>, m: map<string, ServerAccount>)
    requires forall i, j :: 0 <= i < j < |keys| ==> keys[i] != keys[j]
    requires forall n :: n in m ==> m[n].name == n
    ensures forall i :: 0 <= i < |Pick(keys, m)| ==>
      Pick(keys, m)[i].name in m && Pick(keys, m)[i] == m[Pick(keys, m)[i].name] && Pick(keys, m)[i].name in keys
    ensures forall i, j :: 0 <= i < j < |Pick(keys, m)| ==> Pick(keys, m)[i].name != Pick(keys, m)[j].name
    ensures forall n :: n in m && n in keys ==> exists i :: 0 <= i < |Pick(keys, m)| && Pick(keys, m)[i].name == n
  {
    var p := Pick(keys, m);
    forall i | 0 <= i < |p|
      ensures p[i].name in m && p[i] == m[p[i].name] && p[i].name in keys
    {
      PickAt(keys, m, i);
    }
    forall i, j | 0 <= i < j < |p|
      ensures p[i].name != p[j].name
    {
      PickDistinct(keys, m, i, j);
    }
    forall n | n in m && n in keys
      ensures exists i :: 0 <= i < |p| && p[i].name == n
    {
      PickCovers(keys, m, n);
    }
  }

  /** Each picked account is the one `m` holds under one of the keys. */
  lemma {:induction false} PickAt(keys: seq<string>, m: map<string, ServerAccount>, i: int)
    requires forall n :: n in m ==> m[n].name == n
    requires 0 <= i < |Pick(keys, m)|
    ensures var a := Pick(keys, m)[i]; a.name in m && a == m[a.name] && a.name in keys
    decreases |keys|
  {
    var q := Pick(keys[1..], m);
    if keys[0] in m {
      assert Pick(keys, m) == [m[keys[0]]] + q;
      if i > 0 {
        PickAt(keys[1..], m, i - 1);
        assert Pick(keys, m)[i] == q[i - 1];
        assert q[i - 1].name in keys[1..];
      }
    } else {
      assert Pick(keys, m) == q;
      PickAt(keys[1..], m, i);
      assert q[i].name in keys[1..];
    }
  }

  /** Distinct keys pick distinct names. */
  lemma {:induction false} PickDistinct(keys: seq<string>, m: map<string, ServerAccount>, i: int, j: int)
    requires forall i, j :: 0 <= i < j < |keys| ==> keys[i] != keys[j]
    requires forall n :: n in m ==> m[n].name == n
    requires 0 <= i < j < |Pick(keys, m)|
    ensures Pick(keys, m)[i].name != Pick(keys, m)[j].name
    decreases |keys|
  {
    var rest := keys[1..];
    var q := Pick(rest, m);
    if keys[0] in m {
      assert Pick(keys, m) == [m[keys[0]]] + q;
      if i == 0 {
        PickAt(rest, m, j - 1);
        var n := q[j - 1].name;
        var t :| 0 <= t < |rest| && rest[t] == n;
        assert keys[t + 1] == n;
      } else {
        PickDistinct(rest, m, i - 1, j - 1);
      }
    } else {
      assert Pick(keys, m) == q;
      PickDistinct(rest, m, i, j);
    }
  }

  /** Every key `m` holds is picked. */
  lemma {:induction false} PickCovers(keys: seq<string>, m: map<string, ServerAccount>, n: string)
    requires forall n :: n in m ==> m[n].name == n
    requires n in m && n in keys
    ensures exists i :: 0 <= i < |Pick(keys, m)| && Pick(keys, m)[i].name == n
    decreases |keys|
  {
    var q := Pick(keys[1..], m);
    if keys[0] == n {
      assert Pick(keys, m) == [m[n]] + q;
      assert Pick(keys, m)[0].name == n;
    } else {
      assert n in keys[1..];
      PickCovers(keys[1..], m, n);
      var i :| 0 <= i < |q| && q[i].name == n;
      if keys[0] in m {
        assert Pick(keys, m) == [m[keys[0]]] + q;
        assert Pick(keys, m)[i + 1].name == n;
      } else {
        assert Pick(keys, m) == q;
      }
    }
  }

  // ---------------------------------------------------------------------
  // combineDBAccounts (server.go:324-369)

  /** The first loop: a stored account still listed takes the host's uid
      and gid, any other is marked; each visited name leaves the copy. */
  function Match(db: seq<ServerAccount>, copied: map<string, ServerAccount>): (r: (seq<ServerAccount>, map<string, ServerAccount>))
    ensures |r.0| == |db|
    ensures r.1.Keys <= copied.Keys
    ensures forall n :: n in r.1 ==> r.1[n] == copied[n]
  {
    if |db| == 0 then ([], copied)
    else
      var acc := db[0];
      var acc' := if acc.name in copied then acc.(uid := copied[acc.name].uid, gid := copied[acc.name].gid)
                  else acc.(notInServer := true);
      var rest := Match(db[1..], copied - {acc.name});
      ([acc'] + rest.0, rest.1)
  }

  /** Whether `n` is the name of one of the accounts. */
  predicate Named(db: seq<ServerAccount>, n: string) {
    exists k :: 0 <= k < |db| && db[k].name == n
  }

  /** What is left of the copy: exactly the listed names no stored
      account has. */
  lemma {:induction false} MatchLeft(db: seq<ServerAccount>, copied: map<string, ServerAccount>)
    ensures forall n :: n in Match(db, copied).1 <==> n in copied && !Named(db, n)
  {
    if |db| > 0 {
      var acc := db[0];
      var c1 := copied - {acc.name};
      MatchLeft(db[1..], c1);
      var r := Match(db, copied);
      assert r.1 == Match(db[1..], c1).1;
      forall n
        ensures n in r.1 <==> n in copied && !Named(db, n)
      {
        if Named(db, n) && n != acc.name {
          var k :| 0 <= k < |db| && db[k].name == n;
          assert db[1..][k - 1].name == n;
        }
        if Named(db[1..], n) {
          var k :| 0 <= k < |db[1..]| && db[1..][k].name == n;
          assert db[k + 1].name == n;
        }
        assert db[0].name == acc.name;
      }
    }
  }

  /** What the first loop does to each stored account: the first one with
      a listed name takes its uid and gid, every other one is marked. */
  lemma {:induction false} MatchSpec(db: seq<ServerAccount>, copied: map<string, ServerAccount>)
    ensures forall k :: 0 <= k < |db| ==> var a, b := db[k], Match(db, copied).0[k];
      && b.name == a.name && b.pwd == a.pwd && b.host == a.host && b.port == a.port && b.backup == a.backup
      && (a.name in copied && !Named(db[..k], a.name) ==>
            b.uid == copied[a.name].uid && b.gid == copied[a.name].gid && b.notInServer == a.notInServer)
      && (!(a.name in copied && !Named(db[..k], a.name)) ==> b.notInServer && b.uid == a.uid && b.gid == a.gid)
  {
    if |db| > 0 {
      var acc := db[0];
      var c1 := copied - {acc.name};
      MatchSpec(db[1..], c1);
      var r := Match(db, copied);
      var rest := Match(db[1..], c1);
      assert r.0[1..] == rest.0;
      forall k | 1 <= k < |db|
        ensures (db[k].name in copied && !Named(db[..k], db[k].name)) <==>
          (db[k].name in c1 && !Named(db[1..][..k - 1], db[k].name))
      {
        assert db[..k][0] == acc;
        if Named(db[..k], db[k].name) && db[k].name != acc.name {
          var j :| 0 <= j < k && db[..k][j].name == db[k].name;
          assert db[1..][..k - 1][j - 1].name == db[k].name;
        }
        if Named(db[1..][..k - 1], db[k].name) {
          var j :| 0 <= j < k - 1 && db[1..][..k - 1][j].name == db[k].name;
          assert db[..k][j + 1].name == db[k].name;
        }
      }
      assert forall k :: 1 <= k < |db| ==> r.0[k] == rest.0[k - 1] && db[k] == db[1..][k - 1];
      assert !Named(db[..0], acc.name);
    }
  }

  /** The result of combineDBAccounts: the accounts, and the batch the
      upsert writes (None when no upsert is issued). */
  datatype Combined = Combined(accounts: seq<ServerAccount>, upsert: Option<seq<DBAccount>>)

  /** combineDBAccounts. `keys` is the order in which the map of listed
      accounts is visited. The outcome of the upsert is only logged, so
      it does not enter the result. */
  function Combine(db: seq<ServerAccount>, live: map<string, ServerAccount>, keys: seq<string>): (r: Combined)
    ensures |db| <= |r.accounts|
    ensures r.upsert.Some? ==> |r.upsert.value| == |r.accounts| - |db|
  {
    var (accs, left) := Match(db, live);
    if |left| == 0 then Combined(accs, None)
    else
      var added := Pick(keys, left);
      Combined(accs + added, Some(ToDBs(added)))
  }

  /** combineDBAccounts keeps every stored account, in order, takes uid
      and gid from the host for the ones it lists and marks the others. */
  lemma CombineKeepsStored(db: seq<ServerAccount>, live: map<string, ServerAccount>, keys: seq<string>)
    requires forall k :: 0 <= k < |db| ==> !Named(db[..k], db[k].name)
    ensures var r := Combine(db, live, keys);
      forall k :: 0 <= k < |db| ==>
        && r.accounts[k].name == db[k].name && r.accounts[k].pwd == db[k].pwd
        && (db[k].name in live ==> (r.accounts[k].uid == live[db[k].name].uid
              && r.accounts[k].gid == live[db[k].name].gid && r.accounts[k].notInServer == db[k].notInServer))
        && (db[k].name !in live ==> r.accounts[k].notInServer)
  {
    MatchSpec(db, live);
    var r := Combine(db, live, keys);
    assert forall k :: 0 <= k < |db| ==> r.accounts[k] == Match(db, live).0[k];
  }

  /** An upsert is issued exactly when the host lists a name no stored
      account has. */
  lemma CombineUpsertIff(db: seq<ServerAccount>, live: map<string, ServerAccount>, keys: seq<string>)
    ensures Combine(db, live, keys).upsert.None? <==> forall n :: n in live ==> Named(db, n)
  {
    MatchLeft(db, live);
    var left := Match(db, live).1;
    if |left| > 0 {
      var w :| w in left;
      assert w in live && !Named(db, w);
    } else {
      assert forall n :: n in live ==> n !in left;
    }
  }

  /** The listed accounts combineDBAccounts appends. */
  function Added(db: seq<ServerAccount>, live: map<string, ServerAccount>, keys: seq<string>): seq<ServerAccount> {
    Pick(keys, Match(db, live).1)
  }

  lemma {:induction false} PickNone(keys: seq<string>, m: map<string, ServerAccount>)
    requires |m| == 0
    ensures Pick(keys, m) == []
  {
    if |keys| > 0 {
      assert keys[0] !in m;
      PickNone(keys[1..], m);
    }
  }

  /** combineDBAccounts is the first loop followed by the appended
      accounts, which the upsert writes when there are any. */
  lemma CombineShape(db: seq<ServerAccount>, live: map<string, ServerAccount>, keys: seq<string>)
    ensures Combine(db, live, keys).accounts == Match(db, live).0 + Added(db, live, keys)
    ensures Combine(db, live, keys).upsert.Some? ==> Combine(db, live, keys).upsert.value == ToDBs(Added(db, live, keys))
  {
    if |Match(db, live).1| == 0 {
      PickNone(keys, Match(db, live).1);
    }
  }

  /** Each appended account is a listed one no stored account names, as
      the host lists it, and no name is appended twice. */
  lemma AddedSound(db: seq<ServerAccount>, live: map<string, ServerAccount>, keys: seq<string>)
    requires forall i, j :: 0 <= i < j < |keys| ==> keys[i] != keys[j]
    requires forall n :: n in live ==> live[n].name == n
    ensures var a := Added(db, live, keys);
      && (forall i :: 0 <= i < |a| ==> a[i].name in live && !Named(db, a[i].name) && a[i] == live[a[i].name])
      && (forall i, j :: 0 <= i < j < |a| ==> a[i].name != a[j].name)
  {
    MatchLeft(db, live);
    PickSpec(keys, Match(db, live).1);
  }

  /** Every listed name no stored account has is appended. */
  lemma AddedComplete(db: seq<ServerAccount>, live: map<string, ServerAccount>, keys: seq<string>, n: string)
    requires Enumerates(keys, live)
    requires forall n :: n in live ==> live[n].name == n
    requires n in live && !Named(db, n)
    ensures exists i :: 0 <= i < |Added(db, live, keys)| && Added(db, live, keys)[i] == live[n]
  {
    MatchLeft(db, live);
    var left := Match(db, live).1;
    PickSpec(keys, left);
    assert n in left && n in keys;
    var i :| 0 <= i < |Pick(keys, left)| && Pick(keys, left)[i].name == n;
    assert Added(db, live, keys) == Pick(keys, left);
    assert Added(db, live, keys)[i] == live[n];
  }

  /** Every listed account no stored account names is appended, and the
      one upsert batch writes it. */
  lemma CombineAddsUnstored(db: seq<ServerAccount>, live: map<string, ServerAccount>, keys: seq<string>, n: string)
    requires Enumerates(keys, live)
    requires forall n :: n in live ==> live[n].name == n
    requires n in live && !Named(db, n)
    ensures var r := Combine(db, live, keys);
      && r.upsert.Some? && ToDB(live[n]) in r.upsert.value
      && exists i :: |db| <= i < |r.accounts| && r.accounts[i] == live[n]
  {
    CombineShape(db, live, keys);
    CombineUpsertIff(db, live, keys);
    AddedComplete(db, live, keys, n);
    var r := Combine(db, live, keys);
    var a := Added(db, live, keys);
    var i :| 0 <= i < |a| && a[i] == live[n];
    assert r.accounts[|db| + i] == a[i];
    assert r.upsert.value[i] == ToDB(a[i]);
  }

  /** No listed account is appended twice. */
  lemma CombineAddsOnce(db: seq<ServerAccount>, live: map<string, ServerAccount>, keys: seq<string>)
    requires forall i, j :: 0 <= i < j < |keys| ==> keys[i] != keys[j]
    requires forall n :: n in live ==> live[n].name == n
    ensures var r := Combine(db, live, keys);
      forall i, j :: |db| <= i < j < |r.accounts| ==> r.accounts[i].name != r.accounts[j].name
  {
    CombineShape(db, live, keys);
    var left := Match(db, live).1;
    assert forall n :: n in left ==> left[n] == live[n];
    PickSpec(keys, left);
    AppendedDistinct(Match(db, live).0, Added(db, live, keys));
  }

  /** Names distinct within `a` stay distinct once `a` follows any prefix. */
  lemma AppendedDistinct(p: seq<ServerAccount>, a: seq<ServerAccount>)
    requires forall i, j :: 0 <= i < j < |a| ==> a[i].name != a[j].name
    ensures forall i, j :: |p| <= i < j < |p + a| ==> (p + a)[i].name != (p + a)[j].name
  {
    forall i, j | |p| <= i < j < |p + a|
      ensures (p + a)[i].name != (p + a)[j].name
    {
      assert (p + a)[i] == a[i - |p|] && (p + a)[j] == a[j - |p|];
    }
  }

  /** The appended accounts are listed ones no stored account names, as
      the host lists them. */
  lemma CombineAddsOnlyUnstored(db: seq<ServerAccount>, live: map<string, ServerAccount>, keys: seq<string>)
    requires forall i, j :: 0 <= i < j < |keys| ==> keys[i] != keys[j]
    requires forall n :: n in live ==> live[n].name == n
    ensures var r := Combine(db, live, keys);
      forall i :: |db| <= i < |r.accounts| ==>
        r.accounts[i].name in live && !Named(db, r.accounts[i].name) && r.accounts[i] == live[r.accounts[i].name]
  {
    CombineShape(db, live, keys);
    MatchLeft(db, live);
    var r := Combine(db, live, keys);
    var left := Match(db, live).1;
    var a := Pick(keys, left);
    assert Added(db, live, keys) == a;
    forall i | |db| <= i < |r.accounts|
      ensures r.accounts[i].name in live && !Named(db, r.accounts[i].name)
        && r.accounts[i] == live[r.accounts[i].name]
    {
      assert r.accounts[i] == a[i - |db|];
      PickAt(keys, left, i - |db|);
    }
  }

  // ---------------------------------------------------------------------
  // loadAccountBackupDirInfos (server.go:371-400), run one after another

  /** One lookup: the account's BackupDirInfo from GetBackupDir. */
  function BackupInfoOf(resp: BackupDirResp, err: Option<APIErr>): BackupInfo {
    if err.Some? then BackupInfo("", err, false, false, "")
    else BackupInfo(resp.output, None, resp.pathExists, resp.dirExists, resp.backupDir)
  }

  datatype Looked = Looked(conn: Conn, accounts: seq<ServerAccount>)

  /** Every account gets its own lookup, in order; a failed lookup marks
      that account only. */
  function LookupBackups(c: Conn, accounts: seq<ServerAccount>): (r: Looked)
    ensures |r.accounts| == |accounts|
    ensures forall k :: 0 <= k < |accounts| ==>
      r.accounts[k].backup.Some? && r.accounts[k] == accounts[k].(backup := r.accounts[k].backup)
    ensures r.conn.remote == c.remote || r.conn.remote == WithBackupRoot(c.remote)
    ensures r.conn.remote.failing == c.remote.failing && r.conn.remote.unreadable == c.remote.unreadable
    decreases |accounts|
  {
    if |accounts| == 0 then Looked(c, [])
    else
      var g := GetBackupDir(c, accounts[0].name);
      var rest := LookupBackups(g.conn, accounts[1..]);
      assert WithBackupRoot(WithBackupRoot(c.remote)) == WithBackupRoot(c.remote);
      Looked(rest.conn, [accounts[0].(backup := Some(BackupInfoOf(g.resp, g.err)))] + rest.accounts)
  }

  /** The scripts a backup-directory lookup runs. */
  predicate LookupHealthy(r: Remote) {
    Healthy(r, "path_exists") && Healthy(r, "mkdir") && Healthy(r, "is_dir")
  }

  /** One lookup on a host whose lookup scripts work. */
  lemma LookupStep(c: Conn, name: string)
    requires LookupHealthy(c.remote)
    ensures var g := GetBackupDir(c, name);
      && g.conn.remote == WithBackupRoot(c.remote)
      && BackupInfoOf(g.resp, g.err)
         == BackupInfo(g.resp.output, None, BackupPath(name) in c.remote.fs, IsDirIn(c.remote, BackupPath(name)), BackupPath(name))
  {
  }

  /** Making sure of /backup changes nothing a lookup reports. */
  lemma BackupRootKeeps(r: Remote, name: string)
    ensures BackupPath(name) in WithBackupRoot(r).fs <==> BackupPath(name) in r.fs
    ensures IsDirIn(WithBackupRoot(r), BackupPath(name)) == IsDirIn(r, BackupPath(name))
    ensures LookupHealthy(WithBackupRoot(r)) == LookupHealthy(r)
  {
    assert BackupPath(name) != BackupRoot;
  }

  /** On a host whose lookup scripts work, every account is told where its
      backup would be and whether something is already there. */
  lemma {:induction false} LookupBackupsFaithful(c: Conn, accounts: seq<ServerAccount>, k: nat)
    requires LookupHealthy(c.remote) && k < |accounts|
    ensures var b := LookupBackups(c, accounts).accounts[k].backup.value;
      && b.failed.None? && b.backupDir == BackupPath(accounts[k].name)
      && b.pathExists == (BackupPath(accounts[k].name) in c.remote.fs)
      && b.dirExists == IsDirIn(c.remote, BackupPath(accounts[k].name))
    decreases k
  {
    var g := GetBackupDir(c, accounts[0].name);
    LookupStep(c, accounts[0].name);
    var r := LookupBackups(c, accounts);
    var rest := LookupBackups(g.conn, accounts[1..]);
    assert r.accounts == [accounts[0].(backup := Some(BackupInfoOf(g.resp, g.err)))] + rest.accounts;
    if k > 0 {
      BackupRootKeeps(c.remote, accounts[k].name);
      LookupBackupsFaithful(g.conn, accounts[1..], k - 1);
      assert r.accounts[k] == rest.accounts[k - 1] && accounts[k] == accounts[1..][k - 1];
    }
  }

  /** The barrier schedule of the goroutines: after starting the lookup
      of account `i` the loop waits for all of them when `i % 5 == 0` or
      `i` is the last index. Returns the indices after which it waits and
      the most lookups ever outstanding at once. */
  method BarrierSchedule(n: nat) returns (barriers: seq<nat>, peak: nat)
    ensures forall i :: 0 <= i < n ==> (i in barriers <==> i % 5 == 0 || i == n - 1)
    ensures forall k :: 0 <= k < |barriers| ==> barriers[k] < n
    ensures forall j, k :: 0 <= j < k < |barriers| ==> barriers[j] < barriers[k]
    ensures n > 0 ==> |barriers| > 0 && barriers[|barriers| - 1] == n - 1
    ensures peak == if n == 0 then 0 else if n == 1 then 1 else if n - 1 < 5 then n - 1 else 5
  {
    barriers, peak := [], 0;
    var pending := 0;
    var i := 0;
    while i < n
      invariant 0 <= i <= n
      invariant forall j :: 0 <= j < i ==> (j in barriers <==> j % 5 == 0 || j == n - 1)
      invariant forall k :: 0 <= k < |barriers| ==> barriers[k] < i
      invariant forall j, k :: 0 <= j < k < |barriers| ==> barriers[j] < barriers[k]
      invariant i > 0 ==> pending == if i - 1 == n - 1 || (i - 1) % 5 == 0 then 0 else (i - 1) % 5
      invariant i == 0 ==> pending == 0
      invariant peak == if i == 0 then 0 else if i == 1 then 1 else if i - 1 < 5 then i - 1 else 5
      invariant i > 0 && ((i - 1) % 5 == 0 || i - 1 == n - 1) ==> |barriers| > 0 && barriers[|barriers| - 1] == i - 1
    {
      if i > 0 {
        assert (i - 1) % 5 == 4 <==> i % 5 == 0;
        assert (i - 1) % 5 != 4 ==> i % 5 == (i - 1) % 5 + 1;
        assert i <= 5 ==> (i - 1) % 5 == i - 1;
      }
      pending := pending + 1;
      if pending > peak {
        peak := pending;
      }
      if i % 5 == 0 || i == n - 1 {
        barriers := barriers + [i];
        pending := 0;
      }
      i := i + 1;
    }
  }

  // ---------------------------------------------------------------------
  // loadAccounts (server.go:285-322)

  /** ServerAccountInfos: the listing's output, the failure, and the
      accounts (None for Go's nil slice). */
  datatype AccountInfos = AccountInfos(output: string, failed: Option<APIErr>, accounts: Option<seq<ServerAccount>>)

  /** The options of LoadServerDetailArg that loadAccounts reads. */
  datatype AccountsArg = AccountsArg(withAccounts: bool, ignoreDB: bool, withBackupDirInfo: bool)

  datatype LoadedAccounts = LoadedAccounts(conn: Conn, infos: Option<AccountInfos>, upsert: Option<seq<DBAccount>>)

  /** The accounts the host lists, as ServerAccounts of this connection. */
  function Listing(c: Conn, resp: AccountListResp): seq<ServerAccount> {
    FromListings(resp.accounts, c.host, c.port)
  }

  /** loadAccounts. `before` is what the server info held: the stored
      accounts, or nothing. */
  function LoadAccounts(c: Conn, arg: AccountsArg, before: Option<AccountInfos>): (r: LoadedAccounts)
    ensures !arg.withAccounts ==> r == LoadedAccounts(c, before, None)
    ensures arg.withAccounts ==> r.infos.Some?
    ensures arg.withAccounts && !Healthy(c.remote, "get_account_list") ==>
      r.infos.value.failed.Some? && r.infos.value.accounts.None? && r.upsert.None? && r.conn.remote == c.remote
    ensures arg.withAccounts && Healthy(c.remote, "get_account_list") ==>
      r.infos.value.failed.None? && r.infos.value.accounts.Some?
    ensures arg.ignoreDB ==> r.upsert.None?
    ensures r.conn.remote == c.remote || r.conn.remote == WithBackupRoot(c.remote)
  {
    if !arg.withAccounts then LoadedAccounts(c, before, None)
    else
      var base := if before.None? || arg.ignoreDB then [] else before.value.accounts.GetOr([]);
      var list := GetAccountList(c);
      if list.err.Some? then LoadedAccounts(list.conn, Some(AccountInfos(list.resp.output, list.err, None)), None)
      else
        var live := Listing(c, list.resp);
        var m := LiveMap(live);
        var keys := KeysOf(live);
        var combined := if arg.ignoreDB then Combined(base + Pick(keys, m), None) else Combine(base, m, keys);
        var looked := if arg.withBackupDirInfo then LookupBackups(list.conn, combined.accounts)
                      else Looked(list.conn, combined.accounts);
        LoadedAccounts(looked.conn, Some(AccountInfos(list.resp.output, None, Some(looked.accounts))), combined.upsert)
  }

  /** The listed accounts one per name, each the last entry the listing
      gave for it, in order of first appearance. */
  function ByName(live: seq<ServerAccount>): seq<ServerAccount> {
    Pick(KeysOf(live), LiveMap(live))
  }

  /** ByName never repeats a name, and each of its accounts is the entry
      the name-keyed map holds. */
  lemma ByNameSpec(live: seq<ServerAccount>)
    ensures forall i, j :: 0 <= i < j < |ByName(live)| ==> ByName(live)[i].name != ByName(live)[j].name
    ensures forall i :: 0 <= i < |ByName(live)| ==>
      ByName(live)[i].name in LiveMap(live) && ByName(live)[i] == LiveMap(live)[ByName(live)[i].name]
  {
    KeysEnumerate(live);
    PickSpec(KeysOf(live), LiveMap(live));
  }

  /** ByName keeps only listed accounts. */
  lemma ByNameListed(live: seq<ServerAccount>, i: int)
    requires 0 <= i < |ByName(live)|
    ensures ByName(live)[i] in live
  {
    var m := LiveMap(live);
    ByNameSpec(live);
    LiveMapSpec(live);
    var n := ByName(live)[i].name;
    var k :| 0 <= k < |live| && m[n] == live[k] && forall j :: k < j < |live| ==> live[j].name != n;
  }

  /** ByName covers every listed name. */
  lemma ByNameCovers(live: seq<ServerAccount>, k: int)
    requires 0 <= k < |live|
    ensures exists i :: 0 <= i < |ByName(live)| && ByName(live)[i].name == live[k].name
  {
    var m := LiveMap(live);
    var keys := KeysOf(live);
    KeysEnumerate(live);
    LiveMapSpec(live);
    PickSpec(keys, m);
    assert live[k].name in m;
    assert live[k].name in keys;
    assert ByName(live) == Pick(keys, m);
    var i :| 0 <= i < |Pick(keys, m)| && Pick(keys, m)[i].name == live[k].name;
    assert ByName(live)[i].name == live[k].name;
  }

  /** Ignoring the database and without backup lookups, the accounts are
      exactly the listed ones by name, and nothing is written back. */
  lemma LoadAccountsIgnoringDB(c: Conn, before: Option<AccountInfos>)
    requires Healthy(c.remote, "get_account_list")
    ensures var r := LoadAccounts(c, AccountsArg(true, true, false), before);
      && r.infos.value.accounts == Some(ByName(Listing(c, GetAccountList(c).resp)))
      && r.upsert.None?
  {
    var live := Listing(c, GetAccountList(c).resp);
    assert [] + ByName(live) == ByName(live);
  }
}

=== FILE: runs.dfy ===
/** The building blocks of the line recognisers. A regular expression made
    of character-class runs (`\s+`, `[0-9]+`, `[^\s]+`, `\w+`) that follow one
    another, where no run's class contains the first character the next run
    needs, matches in exactly one way: every run takes as much as it can.
    `Scan` does that, and `ScanSound`/`ScanComplete` show it is the unique
    maximal split. */
module Runs {
  import opened Wrappers
  import opened Strings

  datatype CharClass =
    | Re2Space   // `\s`
    | Digit      // `[0-9]`
    | Rate       // `[0-9.]`
    | Word       // `\w`
    | Token      // `[^\s]`

  predicate InClass(c: char, k: CharClass) {
    match k
    case Re2Space => IsRe2Space(c)
    case Digit => IsDigit(c)
    case Rate => IsDigit(c) || c == '.'
    case Word => IsWordChar(c)
    case Token => !IsRe2Space(c)
  }

  /** One run of a pattern: `cls+` when `needed`, `cls*` otherwise. */
  datatype Step = Step(cls: CharClass, needed: bool)

  /** Length of the longest prefix inside the class. */
  function Run(s: string, k: CharClass): (n: nat)
    ensures n <= |s|
    ensures forall i :: 0 <= i < n ==> InClass(s[i], k)
    ensures n < |s| ==> !InClass(s[n], k)
  {
    if |s| > 0 && InClass(s[0], k) then 1 + Run(s[1..], k) else 0
  }

  lemma {:induction false} RunExact(s: string, k: CharClass, n: nat)
    requires n <= |s|
    requires forall i :: 0 <= i < n ==> InClass(s[i], k)
    requires n < |s| ==> !InClass(s[n], k)
    ensures Run(s, k) == n
  {
    if n > 0 {
      RunExact(s[1..], k, n - 1);
    }
  }

  function Concat(ps: seq<string>): string {
    if |ps| == 0 then "" else ps[0] + Concat(ps[1..])
  }

  lemma {:induction false} ConcatCons(p: string, ps: seq<string>)
    ensures Concat([p] + ps) == p + Concat(ps)
  {
    assert ([p] + ps)[1..] == ps;
  }

  /** A piece that a step may take. */
  predicate Fits(piece: string, st: Step) {
    (forall i :: 0 <= i < |piece| ==> InClass(piece[i], st.cls))
    && (st.needed ==> |piece| > 0)
  }

  /** Each piece is followed by a character outside its class (or by nothing). */
  predicate Maximal(ps: seq<string>, rest: string, steps: seq<Step>)
    requires |ps| == |steps|
  {
    forall j :: 0 <= j < |ps| ==>
      var after := Concat(ps[j + 1..]) + rest;
      |after| > 0 ==> !InClass(after[0], steps[j].cls)
  }

  /** Maximality checked piece by piece: every piece after the first is
      non-empty and starts outside the class of the piece before it. */
  lemma {:induction false} MaximalByNext(ps: seq<string>, rest: string, steps: seq<Step>)
    requires |ps| == |steps|
    requires forall j :: 0 < j < |ps| ==> |ps[j]| > 0 && !InClass(ps[j][0], steps[j - 1].cls)
    requires |ps| > 0 && |rest| > 0 ==> !InClass(rest[0], steps[|ps| - 1].cls)
    ensures Maximal(ps, rest, steps)
  {
    forall j | 0 <= j < |ps|
      ensures var after := Concat(ps[j + 1..]) + rest;
        |after| > 0 ==> !InClass(after[0], steps[j].cls)
    {
      if j + 1 < |ps| {
        assert ps[j + 1..] == [ps[j + 1]] + ps[j + 2..];
        ConcatCons(ps[j + 1], ps[j + 2..]);
      } else {
        assert ps[j + 1..] == [];
      }
    }
  }

  /** Match the runs one after the other, each as long as it can be; the
      remainder is left for the rest of the pattern. */
  function Scan(s: string, steps: seq<Step>): (r: Option<(seq<string>, string)>)
    ensures r.Some? ==> |r.value.0| == |steps|
    decreases |steps|
  {
    if |steps| == 0 then Some(([], s))
    else
      var n := Run(s, steps[0].cls);
      if steps[0].needed && n == 0 then None
      else
        var tail := Scan(s[n..], steps[1..]);
        if tail.None? then None
        else Some(([s[..n]] + tail.value.0, tail.value.1))
  }

  /** Pieces found in front of a scan's result. */
  function Prepend(ps: seq<string>, r: Option<(seq<string>, string)>): Option<(seq<string>, string)> {
    if r.None? then None else Some((ps + r.value.0, r.value.1))
  }

  /** One step of Scan: a fitting, maximal first piece is taken and the
      rest of the pattern goes on after it. */
  lemma {:induction false} ScanStep(p: string, s: string, st: Step, steps: seq<Step>)
    requires Fits(p, st) && (|s| > 0 ==> !InClass(s[0], st.cls))
    ensures Scan(p + s, [st] + steps) == Prepend([p], Scan(s, steps))
  {
    RunExact(p + s, st.cls, |p|);
    assert (p + s)[..|p|] == p && (p + s)[|p|..] == s;
    assert ([st] + steps)[1..] == steps;
  }

  /** Two fitting, maximal pieces followed by a remainder that does not
      continue the second run are what a two-step scan finds. */
  lemma {:induction false} ScanPairOf(a: string, b: string, rest: string, sa: Step, sb: Step)
    requires Fits(a, sa) && Fits(b, sb)
    requires |b| > 0 && !InClass(b[0], sa.cls)
    requires |rest| > 0 ==> !InClass(rest[0], sb.cls)
    ensures Scan(a + b + rest, [sa, sb]) == Some(([a, b], rest))
  {
    ScanStep(b, rest, sb, []);
    assert [sb] + [] == [sb];
    assert Scan(rest, []) == Some(([], rest));
    assert (b + rest)[0] == b[0];
    ScanStep(a, b + rest, sa, [sb]);
    assert [sa] + [sb] == [sa, sb];
    assert a + b + rest == a + (b + rest);
    assert [a] + ([b] + []) == [a, b];
  }

  /** A two-step scan, spelled out: the input is the two pieces and the
      remainder, and the remainder does not continue the second run. */
  lemma {:induction false} ScanPair(s: string, a: Step, b: Step)
    requires Scan(s, [a, b]).Some?
    ensures var (ps, rest) := Scan(s, [a, b]).value;
      && |ps| == 2 && s == ps[0] + ps[1] + rest
      && Fits(ps[0], a) && Fits(ps[1], b)
      && (|rest| > 0 ==> !InClass(rest[0], b.cls))
  {
    var n := Run(s, a.cls);
    var s1 := s[n..];
    var m := Run(s1, b.cls);
    assert [a, b][1..] == [b] && [b][1..] == [];
    assert Scan(s1, [b]).Some?;
    assert Scan(s1[m..], []) == Some(([], s1[m..]));
    assert [s1[..m]] + [] == [s1[..m]];
    assert Scan(s1, [b]) == Some(([s1[..m]], s1[m..]));
    assert Scan(s, [a, b]) == Some(([s[..n]] + [s1[..m]], s1[m..]));
    assert s == s[..n] + s1[..m] + s1[m..];
  }

  /** What Scan returns is a split of its input into fitting, maximal runs. */
  lemma {:induction false} ScanSound(s: string, steps: seq<Step>)
    requires Scan(s, steps).Some?
    ensures var (ps, rest) := Scan(s, steps).value;
      && Concat(ps) + rest == s
      && (forall j :: 0 <= j < |ps| ==> Fits(ps[j], steps[j]))
      && Maximal(ps, rest, steps)
    decreases |steps|
  {
    if |steps| > 0 {
      var n := Run(s, steps[0].cls);
      var t := s[n..];
      ScanSound(t, steps[1..]);
      var (tps, trest) := Scan(t, steps[1..]).value;
      assert Scan(s, steps) == Some(([s[..n]] + tps, trest));
      assert Fits(s[..n], steps[0]);
      assert s[..n] + t == s;
      ConsSound(s[..n], tps, trest, steps);
    }
  }

  /** A fitting piece, maximal in front of what a sound split leaves,
      extends that split soundly. */
  lemma ConsSound(p: string, tps: seq<string>, rest: string, steps: seq<Step>)
    requires |steps| > 0 && |tps| == |steps| - 1 && Fits(p, steps[0])
    requires var after := Concat(tps) + rest; |after| > 0 ==> !InClass(after[0], steps[0].cls)
    requires forall j :: 0 <= j < |tps| ==> Fits(tps[j], steps[1..][j])
    requires Maximal(tps, rest, steps[1..])
    ensures var ps := [p] + tps;
      && Concat(ps) + rest == p + (Concat(tps) + rest)
      && (forall j :: 0 <= j < |ps| ==> Fits(ps[j], steps[j]))
      && Maximal(ps, rest, steps)
  {
    ConcatCons(p, tps);
    ConsFits(p, tps, steps);
    ConsMaximal(p, tps, rest, steps);
  }

  /** Piece by piece, the extended split fits. */
  lemma ConsFits(p: string, tps: seq<string>, steps: seq<Step>)
    requires |steps| > 0 && |tps| == |steps| - 1 && Fits(p, steps[0])
    requires forall j :: 0 <= j < |tps| ==> Fits(tps[j], steps[1..][j])
    ensures forall j :: 0 <= j < |[p] + tps| ==> Fits(([p] + tps)[j], steps[j])
  {
    var ps := [p] + tps;
    forall j | 0 <= j < |ps|
      ensures Fits(ps[j], steps[j])
    {
      if j > 0 {
        assert ps[j] == tps[j - 1] && steps[j] == steps[1..][j - 1];
      }
    }
  }

  /** The extended split is maximal. */
  lemma ConsMaximal(p: string, tps: seq<string>, rest: string, steps: seq<Step>)
    requires |steps| > 0 && |tps| == |steps| - 1
    requires var after := Concat(tps) + rest; |after| > 0 ==> !InClass(after[0], steps[0].cls)
    requires Maximal(tps, rest, steps[1..])
    ensures Maximal([p] + tps, rest, steps)
  {
    var ps := [p] + tps;
    forall j | 0 <= j < |ps|
      ensures var after := Concat(ps[j + 1..]) + rest;
        |after| > 0 ==> !InClass(after[0], steps[j].cls)
    {
      if j > 0 {
        assert ps[j + 1..] == tps[j..];
        assert steps[j] == steps[1..][j - 1];
      } else {
        assert ps[1..] == tps;
      }
    }
  }

  /** Every split into fitting, maximal runs is the one Scan finds. */
  lemma {:induction false} ScanComplete(ps: seq<string>, rest: string, steps: seq<Step>)
    requires |ps| == |steps|
    requires forall j :: 0 <= j < |ps| ==> Fits(ps[j], steps[j])
    requires Maximal(ps, rest, steps)
    ensures Scan(Concat(ps) + rest, steps) == Some((ps, rest))
    decreases |steps|
  {
    if |steps| > 0 {
      var s := Concat(ps) + rest;
      var after := Concat(ps[1..]) + rest;
      assert s == ps[0] + after;
      RunExact(s, steps[0].cls, |ps[0]|);
      assert s[..|ps[0]|] == ps[0] && s[|ps[0]|..] == after;
      assert ps[1..][0..] == ps[1..];
      assert |after| > 0 ==> !InClass(after[0], steps[0].cls);
      assert Run(s, steps[0].cls) == |ps[0]|;
      forall j | 0 <= j < |ps[1..]|
        ensures var a := Concat(ps[1..][j + 1..]) + rest;
          |a| > 0 ==> !InClass(a[0], steps[1..][j].cls)
      {
        assert ps[1..][j + 1..] == ps[j + 2..];
      }
      assert Fits(ps[0], steps[0]);
      forall j | 0 <= j < |ps[1..]|
        ensures Fits(ps[1..][j], steps[1..][j])
      {
        assert ps[1..][j] == ps[j + 1];
      }
      ScanComplete(ps[1..], rest, steps[1..]);
      assert Scan(after, steps[1..]) == Some((ps[1..], rest));
      assert [ps[0]] + ps[1..] == ps;
      assert Scan(s, steps) == Some(([s[..|ps[0]|]] + ps[1..], rest));
    } else {
      assert ps == [] && Concat(ps) + rest == rest;
    }
  }

  /** `f` recognises none of the lines before `i`. */
  predicate NoneBefore<T>(lines: seq<string>, f: string -> Option<T>, i: int)
    requires i <= |lines|
  {
    forall j :: 0 <= j < i ==> f(lines[j]).None?
  }

  /** `f` recognises none of the lines after `i`. */
  predicate NoneAfter<T>(lines: seq<string>, f: string -> Option<T>, i: int)
    requires 0 <= i
  {
    forall j :: i < j < |lines| ==> f(lines[j]).None?
  }

  /** The first line `f` recognises, with what it recognised. */
  function FirstSome<T>(lines: seq<string>, f: string -> Option<T>): (r: Option<T>)
    ensures r.None? <==> forall i :: 0 <= i < |lines| ==> f(lines[i]).None?
  {
    if |lines| == 0 then None
    else if f(lines[0]).Some? then f(lines[0])
    else FirstSome(lines[1..], f)
  }

  /** What FirstSome reports was recognised on a line with none before it. */
  lemma {:induction false} FirstSomeSound<T>(lines: seq<string>, f: string -> Option<T>)
    requires FirstSome(lines, f).Some?
    ensures exists i :: 0 <= i < |lines| && f(lines[i]) == FirstSome(lines, f) && NoneBefore(lines, f, i)
  {
    if f(lines[0]).Some? {
      assert f(lines[0]) == FirstSome(lines, f) && NoneBefore(lines, f, 0);
    } else {
      FirstSomeSound(lines[1..], f);
      var i :| 0 <= i < |lines[1..]| && f(lines[1..][i]) == FirstSome(lines[1..], f) && NoneBefore(lines[1..], f, i);
      assert f(lines[i + 1]) == FirstSome(lines, f);
      forall j | 0 <= j < i + 1
        ensures f(lines[j]).None?
      {
        if j > 0 {
          assert lines[j] == lines[1..][j - 1];
        }
      }
      assert NoneBefore(lines, f, i + 1);
    }
  }

  /** The last line `f` recognises: a later match overwrites an earlier one. */
  function LastSome<T>(lines: seq<string>, f: string -> Option<T>): (r: Option<T>)
    ensures r.None? <==> forall i :: 0 <= i < |lines| ==> f(lines[i]).None?
  {
    if |lines| == 0 then None
    else
      var last := f(lines[|lines| - 1]);
      if last.Some? then last
      else
        var init := lines[..|lines| - 1];
        assert forall i :: 0 <= i < |init| ==> init[i] == lines[i];
        LastSome(init, f)
  }

  /** What LastSome reports was recognised on a line with none after it. */
  lemma {:induction false} LastSomeSound<T>(lines: seq<string>, f: string -> Option<T>)
    requires LastSome(lines, f).Some?
    ensures exists i :: 0 <= i < |lines| && f(lines[i]) == LastSome(lines, f) && NoneAfter(lines, f, i)
  {
    if f(lines[|lines| - 1]).Some? {
      assert f(lines[|lines| - 1]) == LastSome(lines, f) && NoneAfter(lines, f, |lines| - 1);
    } else {
      var init := lines[..|lines| - 1];
      LastSomeSound(init, f);
      var i :| 0 <= i < |init| && f(init[i]) == LastSome(init, f) && NoneAfter(init, f, i);
      assert f(lines[i]) == LastSome(lines, f);
      forall j | i < j < |lines|
        ensures f(lines[j]).None?
      {
        if j < |lines| - 1 {
          assert lines[j] == init[j];
        }
      }
      assert NoneAfter(lines, f, i);
    }
  }

  /** All lines `f` recognises, in order. */
  function AllSome<T>(lines: seq<string>, f: string -> Option<T>): (r: seq<T>)
    ensures |r| <= |lines|
  {
    if |lines| == 0 then []
    else
      var head := f(lines[0]);
      (if head.Some? then [head.value] else []) + AllSome(lines[1..], f)
  }

  /** Everything recognised on some line is reported. */
  lemma {:induction false} AllSomeComplete<T>(lines: seq<string>, f: string -> Option<T>, i: nat)
    requires i < |lines| && f(lines[i]).Some?
    ensures f(lines[i]).value in AllSome(lines, f)
    decreases i
  {
    if i > 0 {
      assert lines[1..][i - 1] == lines[i];
      AllSomeComplete(lines[1..], f, i - 1);
    }
  }

  /** A line `f` recognises, with none before it, is the first. */
  lemma {:induction false} FirstSomeAt<T>(lines: seq<string>, f: string -> Option<T>, i: nat)
    requires i < |lines| && f(lines[i]).Some? && NoneBefore(lines, f, i)
    ensures FirstSome(lines, f) == f(lines[i])
    decreases i
  {
    if i > 0 {
      assert f(lines[0]).None?;
      assert lines[1..][i - 1] == lines[i];
      forall j | 0 <= j < i - 1
        ensures f(lines[1..][j]).None?
      {
        assert lines[1..][j] == lines[j + 1];
      }
      FirstSomeAt(lines[1..], f, i - 1);
    }
  }

  /** A line `f` recognises, with none after it, is the last. */
  lemma {:induction false} LastSomeAt<T>(lines: seq<string>, f: string -> Option<T>, i: nat)
    requires i < |lines| && f(lines[i]).Some? && NoneAfter(lines, f, i)
    ensures LastSome(lines, f) == f(lines[i])
    decreases |lines| - i
  {
    if i < |lines| - 1 {
      var init := lines[..|lines| - 1];
      assert f(lines[|lines| - 1]).None?;
      assert init[i] == lines[i];
      forall j | i < j < |init|
        ensures f(init[j]).None?
      {
        assert init[j] == lines[j];
      }
      LastSomeAt(init, f, i);
    }
  }

  /** Everything AllSome reports was recognised on some line. */
  lemma {:induction false} AllSomeSound<T>(lines: seq<string>, f: string -> Option<T>, x: T)
    requires x in AllSome(lines, f)
    ensures exists i :: 0 <= i < |lines| && f(lines[i]) == Some(x)
    decreases |lines|
  {
    var head := f(lines[0]);
    if head != Some(x) {
      assert x in AllSome(lines[1..], f);
      AllSomeSound(lines[1..], f, x);
      var i :| 0 <= i < |lines[1..]| && f(lines[1..][i]) == Some(x);
      assert lines[1..][i] == lines[i + 1];
    }
  }

  /** Recognising two runs of lines one after the other keeps their order. */
  lemma {:induction false} AllSomeAppend<T>(a: seq<string>, b: seq<string>, f: string -> Option<T>)
    ensures AllSome(a + b, f) == AllSome(a, f) + AllSome(b, f)
    decreases |a|
  {
    if |a| == 0 {
      assert a + b == b;
    } else {
      assert (a + b)[0] == a[0] && (a + b)[1..] == a[1..] + b;
      AllSomeAppend(a[1..], b, f);
      var h := if f(a[0]).Some? then [f(a[0]).value] else [];
      assert AllSome(a + b, f) == h + AllSome(a[1..] + b, f);
      assert AllSome(a, f) == h + AllSome(a[1..], f);
      assert h + (AllSome(a[1..], f) + AllSome(b, f)) == (h + AllSome(a[1..], f)) + AllSome(b, f);
    }
  }
}

=== FILE: servers.dfy ===
/** The service layer of internal/service (server.go, server_account.go):
    work done around an open executor, the assembly of server infos, and
    the account use cases. The database is outside the model: what a query
    returns is a parameter, and the rows an operation asks to write are
    part of its result. */
module Servers {
  import opened Wrappers
  import opened Util
  import Strings
  import opened Errors
  import opened Validator
  import opened Host
  import opened Executor
  import Accounts
  import Readings
  import Probes
  import Greedy
  import opened Reconcile
  import opened Bootstrap

  // ---------------------------------------------------------------------
  // Rows of the servers table (server.go:140-152, 505-546)

  /** ServerBasic: what the servers table stores about a server. */
  datatype ServerBasic = ServerBasic(
    name: string, description: string, host: string, port: nat,
    adminAccount: string, adminPwd: string, osType: ServerOSType)

  /** A server row with the account rows stored for it. */
  datatype StoredServer = StoredServer(basic: ServerBasic, accounts: seq<DBAccount>)

  /** packAccounts: every stored row, in order. */
  function PackAccounts(rows: seq<DBAccount>): (r: seq<ServerAccount>)
    ensures |r| == |rows|
    ensures forall k :: 0 <= k < |r| ==> r[k] == FromDB(rows[k])
  {
    if |rows| == 0 then [] else [FromDB(rows[0])] + PackAccounts(rows[1..])
  }

  /** The parameters the service opens a stored server with. */
  function ParamOf(b: ServerBasic): OpenParam {
    OpenParam(b.host, b.port, b.osType, b.adminAccount, b.adminPwd)
  }

  /** Every server the service opens is a Linux server; OpenExecutorService
      panics on any other type. */
  predicate Openable(stored: Result<StoredServer, APIErr>) {
    stored.Ok? ==> stored.value.basic.osType == OSTypeLinux
  }

  // ---------------------------------------------------------------------
  // Opening and withConnection (server.go:23-64, 186-209)

  /** The executor opens on this host with these parameters. */
  predicate Opens(param: OpenParam, dial: Option<Remote>) {
    dial.Some? && Healthy(dial.value, "sudo_privilege") && dial.value.adminHasSudo
    && Healthy(dial.value, "os_info") && Classify(dial.value.osRelease) != Unknown
  }

  const ConnectLead: string :=
    "在尝试使用管理员账户" + ("与该服务器建连时失败！" + ("请检查该账户的配置" + ("以及网络状况！" + "内嵌的出错信息为：[")))

  /** The error openExecutorService reports for a failed opening. */
  function ConnectFailure(e: APIErr): (r: APIErr)
    ensures r.origin == SSHConnection && r.stable && r.status == StatusOK
  {
    CustomMessage(SentinelErr(SSHConnection), ConnectLead + e.message + "]")
  }

  /** ConnectFailure is the formatted message of the source. */
  lemma ConnectFailureFormat(e: APIErr)
    ensures VerbCount(ConnectLead + "%s]") == 1
    ensures ConnectFailure(e) == CustomMessageF(SentinelErr(SSHConnection), ConnectLead + "%s]", [e.message])
  {
    assert '%' !in "在尝试使用管理员账户" && '%' !in "与该服务器建连时失败！" && '%' !in "请检查该账户的配置";
    assert '%' !in "以及网络状况！" && '%' !in "内嵌的出错信息为：[" && '%' !in "]";
    SprintfOneVerb(ConnectLead, 's', "]", e.message);
    assert ConnectLead + "%s]" == ConnectLead + ['%', 's'] + "]";
  }

  /** openExecutorService: OpenExecutorService, its error re-worded as an
      SSH connection error that quotes the original message. */
  function OpenWrapped(param: OpenParam, dial: Option<Remote>): (r: Result<Service, APIErr>)
    requires param.osType == OSTypeLinux
    ensures r.Ok? <==> Opens(param, dial)
    ensures r.Ok? ==> (r.value.conn == Conn(dial.value, [SudoPrivilege, OsInfo], param.host, param.port)
      && r.value.account == param.adminAccount && r.value.pwd == param.adminPwd)
    ensures r.Err? ==> (r.error.origin == SSHConnection && r.error.stable
      && exists inner :: r.error.message == ConnectLead + inner + "]")
  {
    var o := OpenExecutorService(param, dial).result;
    if o.Ok? then Ok(o.value)
    else
      assert ConnectFailure(o.error).message == ConnectLead + o.error.message + "]";
      Err(ConnectFailure(o.error))
  }

  /** ConnectionTest: nil exactly when the executor opens. */
  function ConnectionTest(param: OpenParam, dial: Option<Remote>): (r: Option<APIErr>)
    requires param.osType == OSTypeLinux
    ensures r.None? <==> Opens(param, dial)
    ensures r.Some? ==> r.value.origin == SSHConnection
  {
    var o := OpenWrapped(param, dial);
    if o.Ok? then None else Some(o.error)
  }

  /** openExecutorServiceByHostPort: the stored server's parameters; a
      database error is returned as it is. */
  function OpenByHostPort(stored: Result<StoredServer, APIErr>, dial: Option<Remote>): (r: Result<Service, APIErr>)
    requires Openable(stored)
    ensures stored.Err? ==> r == Err(stored.error)
    ensures stored.Ok? ==> (r.Ok? <==> Opens(ParamOf(stored.value.basic), dial))
    ensures stored.Ok? && r.Err? ==> r.error.origin == SSHConnection
  {
    if stored.Err? then Err(stored.error) else OpenWrapped(ParamOf(stored.value.basic), dial)
  }

  /** What work on an open executor leaves: the connection, the value the
      work computed, its error, and the account rows it asks to upsert
      (one batch per upsert call). */
  datatype Used<T> = Used(conn: Conn, value: T, err: Option<APIErr>, writes: seq<seq<DBAccount>>)

  /** withConnection's outcome: whether the executor was closed, the
      connection the work left (None when nothing was opened), the work's
      value, the error and the rows written. */
  datatype Connected<T> = Connected(closed: bool, conn: Option<Conn>, value: Option<T>, err: Option<APIErr>,
                                    writes: seq<seq<DBAccount>>)

  /** withConnection: the work runs only on an opened executor, which is
      closed afterwards whatever the work returns; a failed opening is
      returned unchanged. */
  function WithConnection<T>(open: Result<Service, APIErr>, f: Service -> Used<T>): (r: Connected<T>)
    ensures r.closed <==> open.Ok?
    ensures r.value.Some? <==> open.Ok?
    ensures open.Err? ==> r.err == Some(open.error) && r.conn.None? && r.writes == []
    ensures open.Ok? ==> var u := f(open.value);
      r.conn == Some(u.conn) && r.value == Some(u.value) && r.err == u.err && r.writes == u.writes
  {
    match open
    case Err(e) => Connected(false, None, None, Some(e), [])
    case Ok(es) =>
      var u := f(es);
      Connected(true, Some(u.conn), Some(u.value), u.err, u.writes)
  }

  // ---------------------------------------------------------------------
  // Server infos (server.go:154-184, 211-283, 402-503)

  /** The options of LoadServerDetailArg. */
  datatype DetailArg = DetailArg(
    withAccounts: bool, ignoreDB: bool, withBackupDirInfo: bool, withHardwareInfo: bool,
    withRemoteAccessUsages: bool, withCPUMemProcessesUsage: bool, withGPUUsages: bool)

  function AccountsPart(arg: DetailArg): AccountsArg {
    AccountsArg(arg.withAccounts, arg.ignoreDB, arg.withBackupDirInfo)
  }

  /** ServerInfoCommon together with what was read: the output, the
      failure, and the parsed value. */
  datatype Section<T> = Section(output: string, failed: Option<APIErr>, info: Option<T>)

  /** ServerGPUUsageInfo: an output and a failure only. */
  datatype Common = Common(output: string, failed: Option<APIErr>)

  datatype Hardware = Hardware(cpu: Section<Probes.CpuHardware>, gpus: Section<seq<string>>)

  /** ServerInfo. `accessFailed` is the cause description of a server that
      could not be opened. */
  datatype ServerInfo = ServerInfo(
    basic: ServerBasic,
    accounts: Option<AccountInfos>,
    hardware: Option<Hardware>,
    remoteAccess: Option<Section<seq<Probes.Session>>>,
    usage: Option<Section<Greedy.TopReport>>,
    gpuUsage: Option<Common>,
    accessFailed: Option<string>)

  /** A reading as the info keeps it: the output always, the failure, and
      what was parsed (nothing when the command failed). */
  function SectionOf<T>(o: Out<Readings.Reading<T>>): Section<T> {
    Section(o.resp.output, o.err, o.resp.parsed)
  }

  /** loadHardwareInfo: lscpu, then the VGA listing; a failure of one does
      not stop the other. */
  function LoadHardwareInfo(c: Conn, arg: DetailArg, before: Option<Hardware>): (r: (Conn, Option<Hardware>))
    ensures r.0.remote == c.remote
    ensures !arg.withHardwareInfo ==> r == (c, before)
    ensures arg.withHardwareInfo ==> (r.1.Some?
      && (r.1.value.cpu.failed.None? <==> Healthy(c.remote, "lscpu"))
      && (r.1.value.gpus.failed.None? <==> Healthy(c.remote, "lsgpu"))
      && (r.1.value.cpu.failed.None? ==> r.1.value.cpu.info == Some(Probes.ParseLscpu(c.remote.lscpuText))))
  {
    if !arg.withHardwareInfo then (c, before)
    else
      var cpu := Readings.GetCPUHardware(c);
      var gpu := Readings.GetGPUHardware(cpu.conn);
      (gpu.conn, Some(Hardware(SectionOf(cpu), SectionOf(gpu))))
  }

  /** loadRemoteAccessUsages: the sessions `w` reports. */
  function LoadRemoteAccessUsages(c: Conn, arg: DetailArg, before: Option<Section<seq<Probes.Session>>>)
    : (r: (Conn, Option<Section<seq<Probes.Session>>>))
    ensures r.0.remote == c.remote
    ensures !arg.withRemoteAccessUsages ==> r == (c, before)
    ensures arg.withRemoteAccessUsages ==> (r.1.Some?
      && (r.1.value.failed.None? <==> Healthy(c.remote, "w"))
      && (r.1.value.failed.Some? <==> r.1.value.info.None?))
  {
    if !arg.withRemoteAccessUsages then (c, before)
    else
      var w := Readings.GetRemoteAccessInfos(c);
      (w.conn, Some(SectionOf(w)))
  }

  /** loadCPUMemProcessesUsageInfo: the `top` report. The output is kept
      in every case, but an error returns before the usage and the process
      rows are copied, so a failed section holds no report even when top
      itself worked and only the meminfo fallback failed. */
  function LoadCPUMemProcessesUsageInfo(c: Conn, arg: DetailArg, floatOk: string -> bool,
                                        before: Option<Section<Greedy.TopReport>>)
    : (r: (Conn, Option<Section<Greedy.TopReport>>))
    ensures r.0.remote == c.remote
    ensures !arg.withCPUMemProcessesUsage ==> r == (c, before)
    ensures arg.withCPUMemProcessesUsage ==> (r.1.Some?
      && (r.1.value.failed.Some? <==> r.1.value.info.None?)
      && (r.1.value.failed.None? <==> (Healthy(c.remote, "top")
            && (Greedy.ParseTop(c.remote.topText, floatOk).mem.None? ==> Healthy(c.remote, "meminfo"))))
      && (r.1.value.failed.None? ==>
            r.1.value.info.value.cpu == Greedy.ParseTop(c.remote.topText, floatOk).cpu
            && r.1.value.info.value.processes == Greedy.ParseTop(c.remote.topText, floatOk).processes)
      && (Healthy(c.remote, "top") ==> Strings.HasPrefix(r.1.value.output, c.remote.topText)))
  {
    if !arg.withCPUMemProcessesUsage then (c, before)
    else
      var top := Readings.GetCPUMemProcessesUsages(c, floatOk);
      var s := SectionOf(top);
      (top.conn, Some(if s.failed.Some? then s.(info := None) else s))
  }

  /** What loadGPUUsages leaves behind, or that it panicked. */
  datatype Outcome<T> = Done(value: T) | Panicked

  /** loadGPUUsages as written: on an error it assigns to a field of the
      FailedInfo it has just initialised to nil, which panics. */
  function LoadGPUUsagesAsWritten(c: Conn, arg: DetailArg, before: Option<Common>): (r: Outcome<(Conn, Option<Common>)>)
    ensures r.Panicked? <==> arg.withGPUUsages && Readings.GetGPUUsages(c).err.Some?
  {
    if !arg.withGPUUsages then Done((c, before))
    else
      var g := Readings.GetGPUUsages(c);
      if g.err.Some? then Panicked
      else Done((g.conn, Some(Common(g.resp, None))))
  }

  /** A host without a working nvidia-smi makes the load panic. */
  lemma GPUUsagesPanicWithoutNvidia(c: Conn, arg: DetailArg, before: Option<Common>)
    requires arg.withGPUUsages && "nvidia_gpu_usage" in c.remote.failing
    ensures LoadGPUUsagesAsWritten(c, arg, before).Panicked?
  {
  }

  /** loadGPUUsages as evidently intended: a failure is recorded in
      FailedInfo and the output stays empty. */
  function LoadGPUUsages(c: Conn, arg: DetailArg, before: Option<Common>): (r: (Conn, Option<Common>))
    ensures r.0.remote == c.remote
    ensures !arg.withGPUUsages ==> r == (c, before)
    ensures arg.withGPUUsages ==> (r.1.Some?
      && (r.1.value.failed.None? <==> ("nvidia_gpu_name" !in c.remote.unreadable && Healthy(c.remote, "nvidia_gpu_usage")))
      && (r.1.value.failed.Some? ==> r.1.value.output == ""))
  {
    if !arg.withGPUUsages then (c, before)
    else
      var g := Readings.GetGPUUsages(c);
      if g.err.Some? then (g.conn, Some(Common("", g.err)))
      else (g.conn, Some(Common(g.resp, None)))
  }

  /** The corrected load agrees with the source wherever the source does
      not panic. */
  lemma GPUUsagesAgree(c: Conn, arg: DetailArg, before: Option<Common>)
    ensures LoadGPUUsagesAsWritten(c, arg, before).Done? ==>
      LoadGPUUsagesAsWritten(c, arg, before).value == LoadGPUUsages(c, arg, before)
    ensures LoadGPUUsagesAsWritten(c, arg, before).Panicked? ==>
      LoadGPUUsages(c, arg, before).1.value.failed == Readings.GetGPUUsages(c).err
  {
  }

  /** loadInfoFromServer's result: the connection, the info, and the
      accounts loadAccounts asks to upsert. */
  datatype Loaded = Loaded(conn: Conn, info: ServerInfo, upsert: Option<seq<DBAccount>>)

  /** loadInfoFromServer: accounts, hardware, remote access, CPU and memory
      usage, GPU usage, in that order, each only when asked for. It is built
      on the corrected GPU load: where the GPU usage query errors, the source
      panics instead (LoadGPUUsagesAsWritten), and so do Info and Infos. */
  function LoadInfoFromServer(info: ServerInfo, c: Conn, arg: DetailArg, floatOk: string -> bool): (r: Loaded)
    ensures r.conn.remote == c.remote || r.conn.remote == WithBackupRoot(c.remote)
    ensures r.info.basic == info.basic && r.info.accessFailed == info.accessFailed
    ensures !arg.withAccounts ==> r.info.accounts == info.accounts && r.upsert.None?
    ensures !arg.withHardwareInfo ==> r.info.hardware == info.hardware
    ensures !arg.withRemoteAccessUsages ==> r.info.remoteAccess == info.remoteAccess
    ensures !arg.withCPUMemProcessesUsage ==> r.info.usage == info.usage
    ensures !arg.withGPUUsages ==> r.info.gpuUsage == info.gpuUsage
    ensures arg.withAccounts ==> r.info.accounts.Some?
    ensures arg.withHardwareInfo ==> r.info.hardware.Some?
    ensures arg.withRemoteAccessUsages ==> r.info.remoteAccess.Some?
    ensures arg.withCPUMemProcessesUsage ==> r.info.usage.Some?
    ensures arg.withGPUUsages ==> r.info.gpuUsage.Some?
  {
    var acc := LoadAccounts(c, AccountsPart(arg), info.accounts);
    var hw := LoadHardwareInfo(acc.conn, arg, info.hardware);
    var ra := LoadRemoteAccessUsages(hw.0, arg, info.remoteAccess);
    var us := LoadCPUMemProcessesUsageInfo(ra.0, arg, floatOk, info.usage);
    var gpu := LoadGPUUsages(us.0, arg, info.gpuUsage);
    Loaded(gpu.0, info.(accounts := acc.infos, hardware := hw.1, remoteAccess := ra.1,
                        usage := us.1, gpuUsage := gpu.1), acc.upsert)
  }

  /** Only the account lookups of backup directories change the host; a
      load that asks for nothing sends nothing and changes nothing. */
  lemma LoadNothing(info: ServerInfo, c: Conn, floatOk: string -> bool)
    ensures var r := LoadInfoFromServer(info, c, DetailArg(false, false, false, false, false, false, false), floatOk);
      r == Loaded(c, info, None)
  {
  }

  /** The fresh info of a stored server, before anything was loaded. */
  function Fresh(s: StoredServer): (r: ServerInfo)
    ensures r.basic == s.basic && r.accessFailed.None?
    ensures r.accounts == Some(AccountInfos("", None, Some(PackAccounts(s.accounts))))
  {
    ServerInfo(s.basic, Some(AccountInfos("", None, Some(PackAccounts(s.accounts)))), None, None, None, None, None)
  }

  /** Info's outcome: the info (None when the server row could not be
      read), the error, and the rows loadAccounts asked to upsert. */
  datatype InfoResult = InfoResult(info: Option<ServerInfo>, err: Option<APIErr>, upsert: Option<seq<DBAccount>>)

  /** Info: the stored server, then what its executor reports. A failed
      opening is returned as OpenExecutorService gave it (not re-worded)
      and its message becomes the info's access failure. */
  function Info(stored: Result<StoredServer, APIErr>, dial: Option<Remote>, arg: DetailArg, floatOk: string -> bool)
    : (r: InfoResult)
    requires Openable(stored)
    ensures stored.Err? ==> r == InfoResult(None, Some(stored.error), None)
    ensures stored.Ok? ==> (r.info.Some? && r.info.value.basic == stored.value.basic)
    ensures stored.Ok? ==> (r.err.None? <==> Opens(ParamOf(stored.value.basic), dial))
    ensures stored.Ok? && r.err.Some? ==> (r.err.value.origin == SSHConnection
      && r.info.value.accessFailed == Some(r.err.value.message) && r.upsert.None?)
    ensures r.err.None? ==> r.info.value.accessFailed.None?
  {
    if stored.Err? then InfoResult(None, Some(stored.error), None)
    else
      var s := stored.value;
      var info := Fresh(s);
      var w := WithConnection(OpenExecutorService(ParamOf(s.basic), dial).result,
                              (es: Service) => var l := LoadInfoFromServer(info, es.conn, arg, floatOk);
                                               Used(l.conn, l, None, if l.upsert.Some? then [l.upsert.value] else []));
      if w.err.Some? then InfoResult(Some(info.(accessFailed := Some(w.err.value.message))), w.err, None)
      else InfoResult(Some(w.value.value.info), None, w.value.value.upsert)
  }

  /** The info of one listed server: Some exactly when its executor
      opened. */
  function InfoOf(s: StoredServer, dial: Option<Remote>, arg: DetailArg, floatOk: string -> bool)
    : (r: (Option<ServerInfo>, Option<seq<DBAccount>>))
    requires s.basic.osType == OSTypeLinux
    ensures r.0.Some? <==> Opens(ParamOf(s.basic), dial)
    ensures r.0.Some? ==> r.0.value.basic == s.basic && r.0.value.accessFailed.None?
  {
    var i := Info(Ok(s), dial, arg, floatOk);
    if i.err.Some? then (None, None) else (i.info, i.upsert)
  }

  /** One page of the servers table: its rows and the count of all rows. */
  datatype Page = Page(servers: seq<StoredServer>, total: nat)

  predicate AllLinux(servers: seq<StoredServer>) {
    forall k :: 0 <= k < |servers| ==> servers[k].basic.osType == OSTypeLinux
  }

  predicate OpensIn(s: StoredServer, dial: (string, nat) -> Option<Remote>) {
    Opens(ParamOf(s.basic), dial(s.basic.host, s.basic.port))
  }

  /** What loading one server gave: its info when it opened, and the
      upsert its account load asked for. */
  datatype Attempt = Attempt(info: Option<ServerInfo>, upsert: Option<seq<DBAccount>>)

  /** The goroutine of one listed server. */
  function AttemptOf(s: StoredServer, dial: (string, nat) -> Option<Remote>, arg: DetailArg,
                     floatOk: string -> bool): (r: Attempt)
    requires s.basic.osType == OSTypeLinux
    ensures r.info.Some? <==> OpensIn(s, dial)
    ensures r.info.Some? ==> r.info.value.basic == s.basic
  {
    var one := InfoOf(s, dial(s.basic.host, s.basic.port), arg, floatOk);
    Attempt(one.0, one.1)
  }

  /** The goroutine of each listed server, one after the other. */
  function Attempts(servers: seq<StoredServer>, dial: (string, nat) -> Option<Remote>, arg: DetailArg,
                    floatOk: string -> bool): (r: seq<Attempt>)
    requires AllLinux(servers)
    ensures |r| == |servers|
    ensures forall k :: 0 <= k < |r| ==> r[k] == AttemptOf(servers[k], dial, arg, floatOk)
  {
    if |servers| == 0 then []
    else
      assert AllLinux(servers[1..]) by {
        forall k | 0 <= k < |servers| - 1 ensures servers[1..][k].basic.osType == OSTypeLinux {
          assert servers[1..][k] == servers[k + 1];
        }
      }
      [AttemptOf(servers[0], dial, arg, floatOk)] + Attempts(servers[1..], dial, arg, floatOk)
  }

  /** The infos of the attempts that opened, in order. */
  function Opened(attempts: seq<Attempt>): (r: seq<ServerInfo>)
    ensures |r| <= |attempts|
  {
    if |attempts| == 0 then []
    else (if attempts[0].info.Some? then [attempts[0].info.value] else []) + Opened(attempts[1..])
  }

  /** Every upsert batch the attempts asked for, in order. */
  function Upserts(attempts: seq<Attempt>): (r: seq<seq<DBAccount>>)
    ensures |r| <= |attempts|
  {
    if |attempts| == 0 then []
    else (if attempts[0].upsert.Some? then [attempts[0].upsert.value] else []) + Upserts(attempts[1..])
  }

  /** Opened keeps exactly the infos of the attempts that opened. */
  lemma {:induction false} OpenedIff(attempts: seq<Attempt>, info: ServerInfo)
    ensures info in Opened(attempts) <==> exists k :: 0 <= k < |attempts| && attempts[k].info == Some(info)
  {
    if |attempts| > 0 {
      OpenedIff(attempts[1..], info);
      var head := if attempts[0].info.Some? then [attempts[0].info.value] else [];
      assert Opened(attempts) == head + Opened(attempts[1..]);
      if exists k :: 0 <= k < |attempts[1..]| && attempts[1..][k].info == Some(info) {
        var k :| 0 <= k < |attempts[1..]| && attempts[1..][k].info == Some(info);
        assert attempts[k + 1].info == Some(info);
      }
      if exists k :: 0 <= k < |attempts| && attempts[k].info == Some(info) {
        var k :| 0 <= k < |attempts| && attempts[k].info == Some(info);
        if k > 0 {
          assert attempts[1..][k - 1].info == Some(info);
        }
      }
    }
  }

  /** Infos' outcome: the infos, the count of all rows, the error, and the
      upsert batches. */
  datatype InfosResult = InfosResult(infos: seq<ServerInfo>, total: nat, err: Option<APIErr>, writes: seq<seq<DBAccount>>)

  /** Infos: a page of servers, each loaded on its own executor; servers
      that cannot be opened are left out, and the total is the table's
      count whatever was left out. */
  function Infos(listed: Result<Page, APIErr>, dial: (string, nat) -> Option<Remote>, arg: DetailArg,
                 floatOk: string -> bool): (r: InfosResult)
    requires listed.Ok? ==> AllLinux(listed.value.servers)
    ensures listed.Err? ==> r == InfosResult([], 0, Some(listed.error), [])
    ensures listed.Ok? ==> r.err.None? && r.total == listed.value.total && |r.infos| <= |listed.value.servers|
  {
    if listed.Err? then InfosResult([], 0, Some(listed.error), [])
    else
      var a := Attempts(listed.value.servers, dial, arg, floatOk);
      InfosResult(Opened(a), listed.value.total, None, Upserts(a))
  }

  /** Every listed server whose executor opened is among the infos. */
  lemma InfosComplete(page: Page, dial: (string, nat) -> Option<Remote>, arg: DetailArg, floatOk: string -> bool, k: int)
    requires AllLinux(page.servers)
    requires 0 <= k < |page.servers| && OpensIn(page.servers[k], dial)
    ensures exists info :: info in Infos(Ok(page), dial, arg, floatOk).infos && info.basic == page.servers[k].basic
  {
    var a := Attempts(page.servers, dial, arg, floatOk);
    assert a[k] == AttemptOf(page.servers[k], dial, arg, floatOk);
    var info := a[k].info.value;
    OpenedIff(a, info);
    assert info in Infos(Ok(page), dial, arg, floatOk).infos;
  }

  /** Every info is that of a listed server whose executor opened. */
  lemma InfosSound(page: Page, dial: (string, nat) -> Option<Remote>, arg: DetailArg, floatOk: string -> bool, info: ServerInfo)
    requires AllLinux(page.servers)
    requires info in Infos(Ok(page), dial, arg, floatOk).infos
    ensures exists k :: 0 <= k < |page.servers| && OpensIn(page.servers[k], dial) && info.basic == page.servers[k].basic
  {
    var a := Attempts(page.servers, dial, arg, floatOk);
    OpenedIff(a, info);
    var k :| 0 <= k < |a| && a[k].info == Some(info);
    assert a[k] == AttemptOf(page.servers[k], dial, arg, floatOk);
  }

  // ---------------------------------------------------------------------
  // Account use cases (server_account.go)

  /** The error of a failed name check. The source prints the whole account
      infos with util.Pretty; the model prints the listing's output there. */
  function NameCheckFailure(output: string, host: string, port: nat, name: string): (e: APIErr)
    ensures e.origin == Internal && !e.stable
  {
    CustomMessage(SentinelErr(Internal),
      "查询账户列表时出错！出错信息为：AccountInfos=[" + output + "], Host=[" + host + "], Port=["
        + NatToString(port) + "], AccountName=[" + name + "]")
  }

  /** Some listed account carries the name. */
  predicate HasName(accs: seq<Parsers.ListedAccount>, name: string) {
    exists k :: 0 <= k < |accs| && accs[k].name == name
  }

  /** The names the host lists. */
  predicate Listed(c: Conn, name: string) {
    HasName(Accounts.GetAccountList(c).resp.accounts, name)
  }

  /** The listing of passwd entries carries exactly their names. */
  lemma ListedNames(users: seq<UserEntry>, name: string)
    ensures HasName(Accounts.Listed(users), name) <==> FindUser(users, name).Some?
  {
    var ls := Accounts.Listed(users);
    if FindUser(users, name).Some? {
      var k :| 0 <= k < |users| && users[k].name == name;
      assert ls[k].name == name;
    }
    if HasName(ls, name) {
      var k :| 0 <= k < |ls| && ls[k].name == name;
      assert users[k].name == name;
    }
  }

  /** accountNameExists: the name is looked up in what the host lists now,
      whatever the database stores; a listing failure is an internal
      error. Nothing is changed on the host. */
  function AccountNameExists(c: Conn, host: string, port: nat, name: string): (r: Used<bool>)
    ensures r.conn.remote == c.remote && r.writes == []
    ensures r.err.None? <==> Healthy(c.remote, "get_account_list")
    ensures r.err.Some? ==> r.err.value.origin == Internal && !r.value
  {
    var l := LoadAccounts(c, AccountsArg(true, true, false), None);
    var infos := l.infos.value;
    if infos.failed.Some? then Used(l.conn, false, Some(NameCheckFailure(infos.output, host, port, name)), [])
    else Used(l.conn, exists i :: 0 <= i < |infos.accounts.value| && infos.accounts.value[i].name == name, None, [])
  }

  /** The name check reads the accounts by name of the listing. */
  lemma NameExistsByName(c: Conn, host: string, port: nat, name: string)
    requires Healthy(c.remote, "get_account_list")
    ensures var accs := ByName(Listing(c, Accounts.GetAccountList(c).resp));
      AccountNameExists(c, host, port, name).value <==> exists i :: 0 <= i < |accs| && accs[i].name == name
  {
    LoadAccountsIgnoringDB(c, None);
  }

  /** The name check answers yes exactly for the names the host lists. */
  lemma NameExistsIff(c: Conn, host: string, port: nat, name: string)
    requires Healthy(c.remote, "get_account_list")
    ensures AccountNameExists(c, host, port, name).value <==> Listed(c, name)
  {
    var resp := Accounts.GetAccountList(c).resp;
    var live := Listing(c, resp);
    var accs := ByName(live);
    NameExistsByName(c, host, port, name);
    if i :| 0 <= i < |accs| && accs[i].name == name {
      ByNameListed(live, i);
      var k :| 0 <= k < |live| && live[k] == accs[i];
      assert resp.accounts[k].name == name;
    }
    if Listed(c, name) {
      var k :| 0 <= k < |resp.accounts| && resp.accounts[k].name == name;
      assert live[k].name == name;
      ByNameCovers(live, k);
    }
  }

  /** On a host whose accounts can all be listed, the name check answers
      yes exactly for the accounts in passwd. */
  lemma NameExistsIsUser(c: Conn, host: string, port: nat, name: string)
    requires Healthy(c.remote, "get_account_list")
    requires forall k :: 0 <= k < |c.remote.users| ==> Accounts.Listable(c.remote.users[k])
    ensures AccountNameExists(c, host, port, name).value <==> FindUser(c.remote.users, name).Some?
  {
    NameExistsIff(c, host, port, name);
    Accounts.AccountListRoundTrip(c);
    ListedNames(c.remote.users, name);
  }

  const BadPassword: string := "服务器账户密码不符合要求！"

  function PasswordRejected(): (e: APIErr)
    ensures e.origin == InvalidParam && e.stable
  {
    CustomMessage(SentinelErr(InvalidParam), BadPassword)
  }

  /** The message has no verb, so CustomMessageF prints it as it is. */
  lemma PasswordRejectedFormat()
    ensures VerbCount(BadPassword) == 0
    ensures PasswordRejected() == CustomMessageF(SentinelErr(InvalidParam), BadPassword, [])
  {
    SprintfPlain(BadPassword);
  }

  /** doAddAccount: the password rule first, then the executor's
      AddAccount; the row is upserted after a successful add, and a failed
      upsert is only logged, so it does not change the result. */
  function DoAddAccount(c: Conn, host: string, port: nat, name: string, pwd: string): (r: Used<()>)
    requires name != ""
    ensures !PasswordShape(pwd) ==> (r.conn == c && r.writes == [] && r.err.Some? && r.err.value.origin == InvalidParam)
    ensures r.err.None? ==> (PasswordShape(pwd) && FindUser(c.remote.users, name).None?
      && FindUser(r.conn.remote.users, name).Some? && r.writes == [[DBAccount(name, pwd, host, port)]])
    ensures r.err.Some? ==> r.writes == []
    ensures FindUser(c.remote.users, name).Some? ==> r.err.Some? && r.conn.remote == c.remote
    ensures r.conn.remote.failing == c.remote.failing && r.conn.remote.unreadable == c.remote.unreadable
  {
    if !PasswordShape(pwd) then Used(c, (), Some(PasswordRejected()), [])
    else
      PasswordShapeIsPlain(pwd);
      var a := Accounts.AddAccount(c, name, pwd);
      if a.err.Some? then
        Used(a.conn, (), Some(CustomMessage(a.err.value, "添加账户失败！出错信息为：err=[" + Error(a.err.value) + "]")), [])
      else Used(a.conn, (), None, [[DBAccount(name, pwd, host, port)]])
  }

  /** The work of AddAccount on an open connection. */
  function AddWork(c: Conn, host: string, port: nat, name: string, pwd: string): (r: Used<()>)
    requires name != ""
    ensures !Healthy(c.remote, "get_account_list") ==> (r.err.Some? && r.err.value.origin == Internal
      && r.conn.remote == c.remote && r.writes == [])
    ensures AccountNameExists(c, host, port, name).value ==>
      (r.err == Some(SentinelErr(CreateAccountNameAlreadyExists)) && r.conn.remote == c.remote && r.writes == [])
    ensures r.err.None? ==> (Healthy(c.remote, "get_account_list") && !AccountNameExists(c, host, port, name).value
      && PasswordShape(pwd) && FindUser(r.conn.remote.users, name).Some?
      && r.writes == [[DBAccount(name, pwd, host, port)]])
  {
    var ex := AccountNameExists(c, host, port, name);
    if ex.err.Some? then Used(ex.conn, (), ex.err, [])
    else if ex.value then Used(ex.conn, (), Some(SentinelErr(CreateAccountNameAlreadyExists)), [])
    else DoAddAccount(ex.conn, host, port, name, pwd)
  }

  /** AddAccount: the work above on the stored server's executor. Go's
      executor panics on an empty name. */
  function AddAccount(stored: Result<StoredServer, APIErr>, dial: Option<Remote>, host: string, port: nat,
                      name: string, pwd: string): (r: Option<APIErr>)
    requires Openable(stored) && name != ""
    ensures stored.Err? ==> r == Some(stored.error)
    ensures OpenByHostPort(stored, dial).Ok? ==> r == AddWork(OpenByHostPort(stored, dial).value.conn, host, port, name, pwd).err
    ensures stored.Ok? && !Opens(ParamOf(stored.value.basic), dial) ==> r.Some? && r.value.origin == SSHConnection
  {
    WithConnection(OpenByHostPort(stored, dial), (es: Service) => AddWork(es.conn, host, port, name, pwd)).err
  }

  /** The executor's DeleteAccount step: the directory is reported only
      when the account is gone. `es` is the service's String() text. */
  function RemoveStep(c: Conn, name: string, dir: string, es: string): (r: Used<string>)
    ensures r.err.None? <==> Healthy(c.remote, "user_del") && FindUser(c.remote.users, name).Some?
    ensures r.err.None? ==> (r.value == dir && FindUser(r.conn.remote.users, name).None?)
    ensures r.err.Some? ==> r.value == "" && r.conn.remote == c.remote
    ensures r.writes == []
  {
    var d := Accounts.DeleteAccount(c, name);
    if d.err.Some? then Used(d.conn, "", Some(CustomMessage(d.err.value, "删除账户失败！出错原因：[" + Error(d.err.value) + "]，ES=[" + es + "]")), [])
    else Used(d.conn, dir, None, [])
  }

  /** The work of DeleteAccount: check the name, back the home directory up
      when asked, then delete. */
  function DeleteWork(c: Conn, host: string, port: nat, name: string, backup: bool, es: string): (r: Used<string>)
    ensures r.writes == []
    ensures !Healthy(c.remote, "get_account_list") ==> (r.err.Some? && r.err.value.origin == Internal && r.conn.remote == c.remote)
    ensures Healthy(c.remote, "get_account_list") && !AccountNameExists(c, host, port, name).value ==>
      (r.err == Some(SentinelErr(DeleteAccountNameNotExists)) && r.conn.remote == c.remote)
    ensures r.err.Some? || !backup ==> r.value == ""
    ensures r.err.None? && backup ==> r.value == BackupPath(name)
    ensures r.err.None? ==> FindUser(r.conn.remote.users, name).None?
    ensures r.err.Some? ==> r.conn.remote.users == c.remote.users
  {
    var ex := AccountNameExists(c, host, port, name);
    if ex.err.Some? then Used(ex.conn, "", ex.err, [])
    else if !ex.value then Used(ex.conn, "", Some(SentinelErr(DeleteAccountNameNotExists)), [])
    else if backup then
      var b := BackupAccountHomeDir(ex.conn, name);
      if b.err.Some? then
        Used(b.conn, "", Some(CustomMessage(b.err.value, "备份该用户的home目录失败！出错原因：[" + Error(b.err.value) + "]，ES=[" + es + "]， 请手动检查！")), [])
      else RemoveStep(b.conn, name, b.resp.targetDir, es)
    else RemoveStep(ex.conn, name, "", es)
  }

  /** With a backup, the home directory is moved before the account is
      deleted: the last two commands are the move and the userdel. */
  lemma DeleteBacksUpFirst(c: Conn, host: string, port: nat, name: string, es: string)
    requires TidyHomes(c.remote)
    requires DeleteWork(c, host, port, name, true, es).err.None?
    ensures var sent := DeleteWork(c, host, port, name, true, es).conn.sent;
      |sent| >= 2 && sent[|sent| - 2] == Mv(HomeOf(c.remote, name), BackupPath(name), false)
      && sent[|sent| - 1] == UserDel(name)
  {
    var ex := AccountNameExists(c, host, port, name);
    assert ex.err.None? && ex.value;
    var b := BackupAccountHomeDir(ex.conn, name);
    assert b.err.None?;
    assert ex.conn.remote == c.remote;
    var r := DeleteWork(c, host, port, name, true, es);
    assert r == RemoveStep(b.conn, name, b.resp.targetDir, es);
    var d := Accounts.DeleteAccount(b.conn, name);
    assert d.err.None?;
    assert r.conn == d.conn;
    assert d.conn.sent == b.conn.sent + [UserDel(name)];
  }

  /** DeleteAccount: the backup directory, or "" with the error. */
  function DeleteAccount(stored: Result<StoredServer, APIErr>, dial: Option<Remote>, host: string, port: nat,
                         name: string, backup: bool): (r: (string, Option<APIErr>))
    requires Openable(stored)
    ensures stored.Err? ==> r == ("", Some(stored.error))
    ensures r.1.Some? || !backup ==> r.0 == ""
    ensures OpenByHostPort(stored, dial).Ok? ==> r.1 == DeleteWork(OpenByHostPort(stored, dial).value.conn, host, port, name, backup, ServiceText(OpenByHostPort(stored, dial).value)).err
  {
    var w := WithConnection(OpenByHostPort(stored, dial), (es: Service) => DeleteWork(es.conn, host, port, name, backup, ServiceText(es)));
    if w.err.Some? then ("", w.err) else (w.value.value, None)
  }

  /** The work of RecoverAccount: check the name, add the account again,
      then move the backup back, forcing only past an existing home. */
  function RecoverWork(c: Conn, host: string, port: nat, name: string, pwd: string, recoverBackup: bool, es: string): (r: Used<()>)
    requires name != ""
    ensures Healthy(c.remote, "get_account_list") && AccountNameExists(c, host, port, name).value ==>
      (r.err == Some(SentinelErr(CreateAccountNameAlreadyExists)) && r.conn.remote == c.remote && r.writes == [])
    ensures r.err.None? ==> FindUser(r.conn.remote.users, name).Some? && r.writes == [[DBAccount(name, pwd, host, port)]]
  {
    var ex := AccountNameExists(c, host, port, name);
    if ex.err.Some? then Used(ex.conn, (), ex.err, [])
    else if ex.value then Used(ex.conn, (), Some(SentinelErr(CreateAccountNameAlreadyExists)), [])
    else
      var a := DoAddAccount(ex.conn, host, port, name, pwd);
      if a.err.Some? then
        Used(a.conn, (), Some(CustomMessage(a.err.value,
          "恢复账户时，添加账户时出错！出错信息为：err=[" + Error(a.err.value) + "], Host=[" + host + "], Port=["
            + NatToString(port) + "], AccountName=[" + name + "]")), a.writes)
      else if recoverBackup then
        var h := RecoverAccountHomeDir(a.conn, name, true);
        if h.err.Some? then
          Used(h.conn, (), Some(CustomMessage(h.err.value, "恢复账户home目录失败！出错原因：[" + Error(h.err.value) + "]，ES=[" + es + "]")), a.writes)
        else Used(h.conn, (), None, a.writes)
      else a
  }

  /** Without the backup, recovering is adding: the same host, the same
      rows, the same success. */
  lemma RecoverWithoutBackupIsAdd(c: Conn, host: string, port: nat, name: string, pwd: string, es: string)
    requires name != ""
    ensures var r := RecoverWork(c, host, port, name, pwd, false, es);
      var a := AddWork(c, host, port, name, pwd);
      r.conn == a.conn && r.writes == a.writes && (r.err.None? <==> a.err.None?)
  {
  }

  /** With the backup, a successful recovery ends with the one plain move
      of the backup to the new home, and the row is written even when the
      move fails. */
  lemma RecoverMovesBackupLast(c: Conn, host: string, port: nat, name: string, pwd: string, es: string)
    requires name != ""
    requires AddWork(c, host, port, name, pwd).err.None?
    ensures var r := RecoverWork(c, host, port, name, pwd, true, es);
      r.writes == [[DBAccount(name, pwd, host, port)]]
      && (r.err.None? && TidyHomes(AddWork(c, host, port, name, pwd).conn.remote) ==>
            r.conn.sent[|r.conn.sent| - 1] == Mv(BackupPath(name), HomeOf(AddWork(c, host, port, name, pwd).conn.remote, name), false))
  {
  }

  /** RecoverAccount: the work above on the stored server's executor. */
  function RecoverAccount(stored: Result<StoredServer, APIErr>, dial: Option<Remote>, host: string, port: nat,
                          name: string, pwd: string, recoverBackup: bool): (r: Option<APIErr>)
    requires Openable(stored) && name != ""
    ensures stored.Err? ==> r == Some(stored.error)
    ensures OpenByHostPort(stored, dial).Ok? ==>
      r == RecoverWork(OpenByHostPort(stored, dial).value.conn, host, port, name, pwd, recoverBackup, ServiceText(OpenByHostPort(stored, dial).value)).err
  {
    WithConnection(OpenByHostPort(stored, dial), (es: Service) => RecoverWork(es.conn, host, port, name, pwd, recoverBackup, ServiceText(es))).err
  }

  /** The work of UpdateAccount: only the stored row changes, and unlike
      doAddAccount a failed upsert is the result. `upsertErr` is what the
      database answers. */
  function UpdateWork(c: Conn, host: string, port: nat, name: string, pwd: string, upsertErr: Option<APIErr>): (r: Used<()>)
    ensures r.conn.remote == c.remote
    ensures r.err.None? <==> (Healthy(c.remote, "get_account_list") && AccountNameExists(c, host, port, name).value
      && upsertErr.None?)
    ensures r.writes != [] <==> (Healthy(c.remote, "get_account_list") && AccountNameExists(c, host, port, name).value)
    ensures r.writes != [] ==> r.writes == [[DBAccount(name, pwd, host, port)]] && r.err == upsertErr
    ensures Healthy(c.remote, "get_account_list") && !AccountNameExists(c, host, port, name).value ==>
      r.err == Some(SentinelErr(UpdateAccountNameNotExists))
  {
    var ex := AccountNameExists(c, host, port, name);
    if ex.err.Some? then Used(ex.conn, (), ex.err, [])
    else if !ex.value then Used(ex.conn, (), Some(SentinelErr(UpdateAccountNameNotExists)), [])
    else Used(ex.conn, (), upsertErr, [[DBAccount(name, pwd, host, port)]])
  }

  /** UpdateAccount: the work above on the stored server's executor. */
  function UpdateAccount(stored: Result<StoredServer, APIErr>, dial: Option<Remote>, host: string, port: nat,
                         name: string, pwd: string, upsertErr: Option<APIErr>): (r: Option<APIErr>)
    requires Openable(stored)
    ensures stored.Err? ==> r == Some(stored.error)
    ensures OpenByHostPort(stored, dial).Ok? ==>
      r == UpdateWork(OpenByHostPort(stored, dial).value.conn, host, port, name, pwd, upsertErr).err
  {
    WithConnection(OpenByHostPort(stored, dial), (es: Service) => UpdateWork(es.conn, host, port, name, pwd, upsertErr)).err
  }

  /** ServerAccountBackupDirInfo as BackupDirInfo returns it. */
  datatype BackupDirView = BackupDirView(backupDir: string, pathExists: bool, dirExists: bool)

  /** BackupDirInfo: GetBackupDir on the stored server's executor; its
      error is returned as it is. */
  function BackupDirInfo(stored: Result<StoredServer, APIErr>, dial: Option<Remote>, name: string)
    : (r: (Option<BackupDirView>, Option<APIErr>))
    requires Openable(stored)
    ensures r.0.Some? <==> r.1.None?
    ensures stored.Err? ==> r == (None, Some(stored.error))
    ensures OpenByHostPort(stored, dial).Ok? ==> var c := OpenByHostPort(stored, dial).value.conn;
      r.1 == GetBackupDir(c, name).err
      && (r.0.Some? ==> r.0.value == BackupDirView(BackupPath(name), BackupPath(name) in c.remote.fs,
                                                   IsDirIn(c.remote, BackupPath(name))))
  {
    var w := WithConnection(OpenByHostPort(stored, dial), (es: Service) =>
      var g := GetBackupDir(es.conn, name);
      Used(g.conn, if g.err.Some? then None else Some(BackupDirView(g.resp.backupDir, g.resp.pathExists, g.resp.dirExists)),
           g.err, []));
    if w.err.Some? then (None, w.err) else (w.value.value, None)
  }
}

=== FILE: strings.dfy ===
/** The parts of Go's `strings` package and of the RE2 character classes that
    the core relies on, over `seq<char>`. */
module Strings {

  /** unicode.IsSpace, the class strings.TrimSpace and strings.Fields use. */
  predicate IsSpace(c: char) {
    c == '\t' || c == '\n' || c == '\U{000B}' || c == '\U{000C}' || c == '\r' || c == ' '
    || c == '\U{0085}' || c == '\U{00A0}' || c == '\U{1680}'
    || ('\U{2000}' <= c <= '\U{200A}')
    || c == '\U{2028}' || c == '\U{2029}' || c == '\U{202F}' || c == '\U{205F}' || c == '\U{3000}'
  }

  /** RE2's `\s`, which is [\t\n\f\r ]; it leaves out the vertical tab. */
  predicate IsRe2Space(c: char) {
    c == '\t' || c == '\n' || c == '\U{000C}' || c == '\r' || c == ' '
  }

  lemma Re2SpaceIsSpace(c: char)
    ensures IsRe2Space(c) ==> IsSpace(c)
  {
  }

  /** RE2's `\w`, which is [0-9A-Za-z_]. */
  predicate IsWordChar(c: char) {
    ('0' <= c <= '9') || ('a' <= c <= 'z') || ('A' <= c <= 'Z') || c == '_'
  }

  predicate IsDigit(c: char) {
    '0' <= c <= '9'
  }

  predicate AllDigits(s: string) {
    forall i :: 0 <= i < |s| ==> IsDigit(s[i])
  }

  predicate NoSpace(s: string) {
    forall i :: 0 <= i < |s| ==> !IsSpace(s[i])
  }

  predicate NoRe2Space(s: string) {
    forall i :: 0 <= i < |s| ==> !IsRe2Space(s[i])
  }

  predicate HasPrefix(s: string, p: string) {
    |p| <= |s| && s[..|p|] == p
  }

  predicate HasSuffix(s: string, p: string) {
    |p| <= |s| && s[|s| - |p|..] == p
  }

  /** strings.Contains, scanning left to right. */
  predicate Contains(s: string, t: string)
    decreases |s|
  {
    HasPrefix(s, t) || (|s| > 0 && Contains(s[1..], t))
  }

  /** `t` occurs in `s` at position `i`. */
  predicate OccursAt(s: string, t: string, i: int) {
    0 <= i && i + |t| <= |s| && s[i..i + |t|] == t
  }

  /** The scanning Contains agrees with "occurs at some position". */
  lemma {:induction false} ContainsIff(s: string, t: string)
    ensures Contains(s, t) <==> exists i :: OccursAt(s, t, i)
    decreases |s|
  {
    if Contains(s, t) {
      if HasPrefix(s, t) {
        assert OccursAt(s, t, 0);
      } else {
        ContainsIff(s[1..], t);
        var i :| OccursAt(s[1..], t, i);
        assert s[1..][i..i + |t|] == s[i + 1..i + 1 + |t|];
        assert OccursAt(s, t, i + 1);
      }
    }
    if exists i :: OccursAt(s, t, i) {
      var i :| OccursAt(s, t, i);
      if i == 0 {
        assert HasPrefix(s, t);
      } else {
        assert s[1..][i - 1..i - 1 + |t|] == s[i..i + |t|];
        assert OccursAt(s[1..], t, i - 1);
        ContainsIff(s[1..], t);
      }
    }
  }

  /** A one-character needle is found exactly when the character occurs. */
  lemma ContainsChar(s: string, c: char)
    ensures Contains(s, [c]) <==> c in s
  {
    ContainsIff(s, [c]);
    if c in s {
      var i :| 0 <= i < |s| && s[i] == c;
      assert OccursAt(s, [c], i);
    }
    if exists i :: OccursAt(s, [c], i) {
      var i :| OccursAt(s, [c], i);
      assert s[i] == s[i..i + 1][0];
    }
  }

  /** Drop leading unicode spaces. */
  function TrimLeft(s: string): (r: string)
    ensures |r| <= |s|
    ensures |r| > 0 ==> !IsSpace(r[0])
  {
    if |s| > 0 && IsSpace(s[0]) then TrimLeft(s[1..]) else s
  }

  /** TrimLeft keeps a suffix, and everything it drops is white space. */
  lemma {:induction false} TrimLeftDropsSpaces(s: string)
    ensures TrimLeft(s) == s[|s| - |TrimLeft(s)|..]
    ensures forall i :: 0 <= i < |s| - |TrimLeft(s)| ==> IsSpace(s[i])
    decreases |s|
  {
    if |s| > 0 && IsSpace(s[0]) {
      TrimLeftDropsSpaces(s[1..]);
      assert s[1..][|s| - 1 - |TrimLeft(s)|..] == s[|s| - |TrimLeft(s)|..];
      assert forall i :: 1 <= i < |s| - |TrimLeft(s)| ==> s[i] == s[1..][i - 1];
    }
  }

  /** Drop trailing unicode spaces. */
  function TrimRight(s: string): (r: string)
    ensures |r| <= |s|
    ensures |r| > 0 ==> !IsSpace(r[|r| - 1])
  {
    if |s| > 0 && IsSpace(s[|s| - 1]) then TrimRight(s[..|s| - 1]) else s
  }

  /** TrimRight keeps a prefix, and everything it drops is white space. */
  lemma {:induction false} TrimRightDropsSpaces(s: string)
    ensures TrimRight(s) == s[..|TrimRight(s)|]
    ensures forall i :: |TrimRight(s)| <= i < |s| ==> IsSpace(s[i])
    decreases |s|
  {
    if |s| > 0 && IsSpace(s[|s| - 1]) {
      TrimRightDropsSpaces(s[..|s| - 1]);
      assert s[..|s| - 1][..|TrimRight(s)|] == s[..|TrimRight(s)|];
      assert forall i :: 0 <= i < |s| - 1 ==> s[i] == s[..|s| - 1][i];
    }
  }

  /** strings.TrimSpace. */
  function TrimSpace(s: string): (r: string)
    ensures |r| > 0 ==> !IsSpace(r[0]) && !IsSpace(r[|r| - 1])
  {
    TrimRightDropsSpaces(TrimLeft(s));
    TrimRight(TrimLeft(s))
  }

  /** A string that starts and ends with a non-space character (or is empty)
      is left alone by TrimSpace. */
  lemma TrimSpaceStable(s: string)
    requires |s| > 0 ==> !IsSpace(s[0]) && !IsSpace(s[|s| - 1])
    ensures TrimSpace(s) == s
  {
  }

  lemma TrimSpaceIdempotent(s: string)
    ensures TrimSpace(TrimSpace(s)) == TrimSpace(s)
  {
    TrimSpaceStable(TrimSpace(s));
  }

  /** strings.ToLower, on the ASCII letters. */
  function ToLower(s: string): (r: string)
    ensures |r| == |s|
    ensures forall i :: 0 <= i < |s| ==> r[i] == LowerChar(s[i])
  {
    if |s| == 0 then "" else [LowerChar(s[0])] + ToLower(s[1..])
  }

  function LowerChar(c: char): char {
    if 'A' <= c <= 'Z' then (c as int + 32) as char else c
  }

  /** Length of the longest prefix of non-space characters. */
  function WordLen(s: string): (n: nat)
    ensures n <= |s|
    ensures forall i :: 0 <= i < n ==> !IsSpace(s[i])
    ensures n < |s| ==> IsSpace(s[n])
  {
    if |s| > 0 && !IsSpace(s[0]) then 1 + WordLen(s[1..]) else 0
  }

  lemma {:induction false} WordLenExact(s: string, n: nat)
    requires n <= |s|
    requires forall i :: 0 <= i < n ==> !IsSpace(s[i])
    requires n < |s| ==> IsSpace(s[n])
    ensures WordLen(s) == n
  {
    if n > 0 {
      WordLenExact(s[1..], n - 1);
    }
  }

  /** strings.Fields: the maximal runs of non-space characters. */
  function Fields(s: string): (r: seq<string>)
    ensures forall k :: 0 <= k < |r| ==> |r[k]| > 0 && NoSpace(r[k])
    decreases |s|
  {
    if |s| == 0 then []
    else if IsSpace(s[0]) then Fields(s[1..])
    else
      var n := WordLen(s);
      [s[..n]] + Fields(s[n..])
  }

  /** strings.Join. */
  function Join(parts: seq<string>, sep: string): string {
    if |parts| == 0 then ""
    else if |parts| == 1 then parts[0]
    else parts[0] + sep + Join(parts[1..], sep)
  }

  /** Fields undoes a single-space join of non-empty, space-free tokens. */
  lemma {:induction false} FieldsJoin(toks: seq<string>)
    requires forall k :: 0 <= k < |toks| ==> |toks[k]| > 0 && NoSpace(toks[k])
    ensures Fields(Join(toks, " ")) == toks
  {
    if |toks| > 0 {
      var s := Join(toks, " ");
      var w := toks[0];
      if |toks| == 1 {
        assert s == w;
        WordLenExact(s, |w|);
        assert s[..|w|] == w && s[|w|..] == "";
      } else {
        var rest := Join(toks[1..], " ");
        assert s == w + " " + rest;
        WordLenExact(s, |w|);
        assert s[..|w|] == w;
        assert s[|w|..] == " " + rest;
        FieldsJoin(toks[1..]);
        FieldsLeadingSpace(rest);
      }
    }
  }

  lemma FieldsLeadingSpace(rest: string)
    ensures Fields(" " + rest) == Fields(rest)
  {
    assert (" " + rest)[1..] == rest;
  }
}

=== FILE: transport.dfy ===
/** linux.go, SendCommands and sendCommandsWithSession: the reader that
    answers sudo password prompts and the clean-up of the collected output.
    The SSH session is a parameter: what it does with a command line is a
    SessionOutcome. Bytes are modelled as characters. */
module Transport {
  import opened Wrappers
  import opened Strings
  import opened Util
  import opened Errors

  const PromptPrefix: string := "[sudo] password for "
  const PromptSuffix: string := ": "

  /** The reader's `line` variable after the bytes `s`. */
  function CurrentLine(s: string): string {
    if |s| == 0 || s[|s| - 1] == '\n' then ""
    else CurrentLine(s[..|s| - 1]) + [s[|s| - 1]]
  }

  /** The line is the text after the last newline. */
  lemma {:induction false} CurrentLineIsLastLine(s: string)
    ensures var k := |s| - |CurrentLine(s)|;
      && 0 <= k && CurrentLine(s) == s[k..]
      && (forall i :: k <= i < |s| ==> s[i] != '\n')
      && (k > 0 ==> s[k - 1] == '\n')
  {
    if |s| > 0 && s[|s| - 1] != '\n' {
      var p := s[..|s| - 1];
      CurrentLineIsLastLine(p);
      var k := |p| - |CurrentLine(p)|;
      assert s[k..] == p[k..] + [s[|s| - 1]];
      assert forall i :: k <= i < |p| ==> s[i] == p[i];
    }
  }

  predicate IsPrompt(line: string) {
    HasPrefix(line, PromptPrefix) && HasSuffix(line, PromptSuffix)
  }

  /** How many received bytes leave the current line looking like a prompt. */
  function PromptCount(s: string): nat {
    if |s| == 0 then 0
    else PromptCount(s[..|s| - 1])
         + (if s[|s| - 1] != '\n' && IsPrompt(CurrentLine(s)) then 1 else 0)
  }

  /** One more byte: a newline clears the line, anything else extends it. */
  lemma CurrentLineStep(s: string, b: char)
    ensures CurrentLine(s + [b]) == if b == '\n' then "" else CurrentLine(s) + [b]
  {
    assert (s + [b])[..|s|] == s;
  }

  lemma PromptCountStep(s: string, b: char)
    ensures PromptCount(s + [b]) == PromptCount(s)
      + (if b != '\n' && IsPrompt(CurrentLine(s + [b])) then 1 else 0)
  {
    assert (s + [b])[..|s|] == s;
  }

  /** The reader goroutine: every byte is kept, in order, and the password is
      written once for each byte after which the line is a prompt. The write
      into stdin is taken to succeed. */
  method ReadOutput(received: string, password: string) returns (output: string, writes: seq<string>)
    ensures output == received
    ensures |writes| == PromptCount(received)
    ensures forall k :: 0 <= k < |writes| ==> writes[k] == password + "\n"
  {
    output := "";
    writes := [];
    var line := "";
    var i := 0;
    while i < |received|
      invariant 0 <= i <= |received|
      invariant output == received[..i]
      invariant line == CurrentLine(received[..i])
      invariant |writes| == PromptCount(received[..i])
      invariant forall k :: 0 <= k < |writes| ==> writes[k] == password + "\n"
    {
      var b := received[i];
      assert received[..i + 1] == received[..i] + [b];
      CurrentLineStep(received[..i], b);
      PromptCountStep(received[..i], b);
      output := output + [b];
      if b == '\n' {
        line := "";
      } else {
        line := line + [b];
        if IsPrompt(line) {
          writes := writes + [password + "\n"];
        }
      }
      i := i + 1;
    }
    assert received[..i] == received;
  }

  /** A needle at some position of `s` is found by the scan of `s`. */
  lemma {:induction false} ContainsFromSuffix(s: string, k: nat, t: string)
    requires k <= |s|
    ensures HasPrefix(s[k..], t) ==> Contains(s, t)
  {
    if k > 0 {
      assert s[1..][k - 1..] == s[k..];
      ContainsFromSuffix(s[1..], k - 1, t);
    } else {
      assert s[k..] == s;
    }
  }

  /** A needle found in a prefix is found in the whole. */
  lemma {:induction false} ContainsAppend(p: string, q: string, t: string)
    ensures Contains(p, t) ==> Contains(p + q, t)
    decreases |p|
  {
    if |p| > 0 {
      assert (p + q)[1..] == p[1..] + q;
      ContainsAppend(p[1..], q, t);
      if HasPrefix(p, t) {
        assert (p + q)[..|t|] == p[..|t|];
      }
    }
  }

  /** No password is ever written if the prompt text never arrives. */
  lemma {:induction false} NoPromptNoWrite(s: string)
    requires !Contains(s, PromptPrefix)
    ensures PromptCount(s) == 0
    decreases |s|
  {
    if |s| > 0 {
      var p := s[..|s| - 1];
      assert s == p + [s[|s| - 1]];
      ContainsAppend(p, [s[|s| - 1]], PromptPrefix);
      NoPromptNoWrite(p);
      var line := CurrentLine(s);
      CurrentLineIsLastLine(s);
      ContainsFromSuffix(s, |s| - |line|, PromptPrefix);
    }
  }

  /** The lines that survive: every line that does not start with the
      prompt text, in the original order. */
  function DropPrompts(lines: seq<string>): (r: seq<string>)
    ensures |r| <= |lines|
    ensures forall k :: 0 <= k < |r| ==> !HasPrefix(r[k], PromptPrefix) && r[k] in lines
  {
    if |lines| == 0 then []
    else (if HasPrefix(lines[0], PromptPrefix) then [] else [lines[0]]) + DropPrompts(lines[1..])
  }

  /** Dropping distributes over concatenation, so the order of the kept
      lines is the order in which they were received. */
  lemma {:induction false} DropPromptsAppend(a: seq<string>, b: seq<string>)
    ensures DropPrompts(a + b) == DropPrompts(a) + DropPrompts(b)
  {
    if |a| > 0 {
      assert (a + b)[0] == a[0] && (a + b)[1..] == a[1..] + b;
      DropPromptsAppend(a[1..], b);
    } else {
      assert a + b == b;
    }
  }

  /** Lines without the prompt text are all kept. */
  lemma {:induction false} DropPromptsKeeps(lines: seq<string>)
    requires forall k :: 0 <= k < |lines| ==> !HasPrefix(lines[k], PromptPrefix)
    ensures DropPrompts(lines) == lines
  {
    if |lines| > 0 {
      DropPromptsKeeps(lines[1..]);
    }
  }

  /** The clean-up after a successful run. */
  function Sanitise(raw: string): string {
    Join(DropPrompts(SplitLine(raw)), "\n")
  }

  /** Lines of a clean text: split lines that carry no prompt. */
  predicate Clean(s: string) {
    '\r' !in s && forall k :: 0 <= k < |SplitLine(s)| ==> !HasPrefix(SplitLine(s)[k], PromptPrefix)
  }

  lemma {:induction false} JoinNoLineBreak(parts: seq<string>)
    requires forall k :: 0 <= k < |parts| ==> NoLineBreak(parts[k])
    ensures '\r' !in Join(parts, "\n")
  {
    if |parts| > 1 {
      JoinNoLineBreak(parts[1..]);
    }
  }

  /** The cleaned output holds no carriage return and no prompt line. */
  lemma SanitiseIsClean(raw: string)
    ensures Clean(Sanitise(raw))
  {
    var kept := DropPrompts(SplitLine(raw));
    JoinNoLineBreak(kept);
    if |kept| > 0 {
      SplitLineJoin(kept);
    } else {
      assert SplitLine("") == [""];
    }
  }

  /** Output that is already clean passes unchanged. */
  lemma SanitiseKeepsClean(s: string)
    requires Clean(s)
    ensures Sanitise(s) == s
  {
    DropPromptsKeeps(SplitLine(s));
    JoinSplitLine(s);
  }

  /** Cleaning twice is cleaning once. */
  lemma SanitiseIdempotent(raw: string)
    ensures Sanitise(Sanitise(raw)) == Sanitise(raw)
  {
    SanitiseIsClean(raw);
    SanitiseKeepsClean(Sanitise(raw));
  }

  /** A first line that starts with the prompt text is removed. */
  lemma SanitiseDropsFirstLine(first: string, out: string)
    requires NoLineBreak(first) && HasPrefix(first, PromptPrefix)
    requires Clean(out)
    ensures Sanitise(first + "\n" + out) == out
  {
    assert first + "\n" + out == first + ("\n" + out);
    SplitLinePrefix(first, "\n" + out);
    assert ("\n" + out)[1..] == out;
    assert SplitLine("\n" + out) == [""] + SplitLine(out);
    assert first + "" == first;
    assert ([""] + SplitLine(out))[1..] == SplitLine(out);
    assert SplitLine(first + "\n" + out) == [first] + SplitLine(out);
    DropPromptsAppend([first], SplitLine(out));
    assert [first][1..] == [];
    assert DropPrompts([first]) == [];
    DropPromptsKeeps(SplitLine(out));
    assert DropPrompts(SplitLine(first + "\n" + out)) == SplitLine(out);
    JoinSplitLine(out);
  }

  /** The prompt line the remote prints before the command's own output is
      removed again, so the caller sees only the command's output. */
  lemma SanitiseDropsPromptLine(user: string, out: string)
    requires NoLineBreak(user)
    requires Clean(out)
    ensures Sanitise(PromptPrefix + user + PromptSuffix + "\n" + out) == out
  {
    var first := PromptPrefix + user + PromptSuffix;
    assert first[..|PromptPrefix|] == PromptPrefix;
    assert forall i :: 0 <= i < |first| ==> first[i] != '\r' && first[i] != '\n';
    SanitiseDropsFirstLine(first, out);
  }

  /** What the SSH session does with one command line. */
  datatype SessionOutcome =
    | NoSession                               // NewSession fails
    | PtyFailed(why: string)                  // RequestPty fails
    | RunFailed(why: string, received: string) // Run reports an error
    | Finished(received: string)              // Run succeeds

  datatype Reply = Reply(output: string, err: Option<APIErr>)

  /** The command line the session runs. */
  function CommandLine(cmds: seq<string>): string {
    Join(cmds, "; ")
  }

  /** SendCommands. */
  function SendCommands(cmds: seq<string>, session: string -> SessionOutcome): (r: Reply)
    ensures var o := session(CommandLine(cmds));
      && (r.err.None? <==> o.Finished?)
      && (r.err.Some? ==> r.err.value.origin == SSHConnection && r.err.value.stable)
      && (o.Finished? ==> r.output == Sanitise(o.received) && Clean(r.output))
      && (o.RunFailed? ==> r.output == o.received)
      && (o.NoSession? || o.PtyFailed? ==> r.output == "")
  {
    var line := CommandLine(cmds);
    var e := SentinelErr(SSHConnection);
    match session(line)
    case NoSession => Reply("", Some(CustomMessage(e, "SSH New Session Failed")))
    case PtyFailed(why) => Reply("", Some(CustomMessage(e, "发送ssh命令失败！失败信息为：" + why)))
    case RunFailed(why, received) =>
      Reply(received, Some(CustomMessage(e, "发送请求后，返回失败信息！失败信息为：" + why + "，服务器输出为：" + received)))
    case Finished(received) =>
      SanitiseIsClean(received);
      Reply(Sanitise(received), None)
  }
}

=== FILE: util.dfy ===
/** util/regexp.go (SplitLine) and util/parse.go (ParseInt), together with
    the decimal rendering that strconv uses. */
module Util {
  import opened Strings

  predicate NoLineBreak(s: string) {
    '\r' !in s && '\n' !in s
  }

  /** SplitLine: split on the separators `\r\n`, `\r` and `\n`, where `\r\n`
      is taken as one separator because it is the first alternative. */
  function SplitLine(s: string): (r: seq<string>)
    ensures |r| >= 1
    ensures forall k :: 0 <= k < |r| ==> NoLineBreak(r[k])
    decreases |s|
  {
    if |s| == 0 then [""]
    else if |s| >= 2 && s[0] == '\r' && s[1] == '\n' then [""] + SplitLine(s[2..])
    else if s[0] == '\r' || s[0] == '\n' then [""] + SplitLine(s[1..])
    else
      var rest := SplitLine(s[1..]);
      [[s[0]] + rest[0]] + rest[1..]
  }

  /** Number of `\n` characters. */
  function CountNewlines(s: string): nat {
    if |s| == 0 then 0 else (if s[0] == '\n' then 1 else 0) + CountNewlines(s[1..])
  }

  /** Number of `\r` characters that are not followed by `\n`. */
  function CountLoneReturns(s: string): nat {
    if |s| == 0 then 0
    else (if s[0] == '\r' && (|s| == 1 || s[1] != '\n') then 1 else 0) + CountLoneReturns(s[1..])
  }

  /** One piece more than there are separators, counting `\r\n` once. */
  lemma {:induction false} SplitLineCount(s: string)
    ensures |SplitLine(s)| == CountNewlines(s) + CountLoneReturns(s) + 1
    decreases |s|
  {
    if |s| == 0 {
    } else if |s| >= 2 && s[0] == '\r' && s[1] == '\n' {
      SplitLineCount(s[2..]);
      assert s[1..][1..] == s[2..];
    } else {
      SplitLineCount(s[1..]);
    }
  }

  lemma JoinCons(x: string, rest: seq<string>, sep: string)
    requires |rest| > 0
    ensures Join([x] + rest, sep) == x + sep + Join(rest, sep)
  {
    assert ([x] + rest)[1..] == rest;
  }

  lemma JoinConsChar(c: char, x: string, rest: seq<string>, sep: string)
    ensures Join([[c] + x] + rest, sep) == [c] + Join([x] + rest, sep)
  {
    if |rest| > 0 {
      JoinCons([c] + x, rest, sep);
      JoinCons(x, rest, sep);
    }
  }

  /** Without carriage returns, joining the pieces with `\n` gives back the
      text, so a trailing newline shows as a trailing empty piece. */
  lemma {:induction false} JoinSplitLine(s: string)
    requires '\r' !in s
    ensures Join(SplitLine(s), "\n") == s
    decreases |s|
  {
    if |s| == 0 {
    } else if s[0] == '\n' {
      JoinSplitLine(s[1..]);
      JoinCons("", SplitLine(s[1..]), "\n");
      assert s == "\n" + s[1..];
    } else {
      var rest := SplitLine(s[1..]);
      JoinSplitLine(s[1..]);
      assert rest == [rest[0]] + rest[1..];
      JoinConsChar(s[0], rest[0], rest[1..], "\n");
      assert s == [s[0]] + s[1..];
    }
  }

  /** Splitting a text that starts with a line-break-free piece. */
  lemma {:induction false} SplitLinePrefix(x: string, t: string)
    requires NoLineBreak(x)
    ensures SplitLine(x + t) == [x + SplitLine(t)[0]] + SplitLine(t)[1..]
    decreases |x|
  {
    if |x| > 0 {
      assert (x + t)[1..] == x[1..] + t;
      assert (x + t)[0] == x[0];
      assert x[0] != '\r' && x[0] != '\n';
      SplitLinePrefix(x[1..], t);
      assert [x[0]] + (x[1..] + SplitLine(t)[0]) == x + SplitLine(t)[0];
    } else {
      var r := SplitLine(t);
      assert x + t == t;
      assert x + r[0] == r[0];
      assert r == [r[0]] + r[1..];
    }
  }

  /** Splitting undoes a `\n`-join of line-break-free pieces. */
  lemma {:induction false} SplitLineJoin(lines: seq<string>)
    requires |lines| >= 1
    requires forall k :: 0 <= k < |lines| ==> NoLineBreak(lines[k])
    ensures SplitLine(Join(lines, "\n")) == lines
  {
    if |lines| == 1 {
      SplitLinePrefix(lines[0], "");
      assert lines[0] + "" == lines[0];
    } else {
      var j := Join(lines[1..], "\n");
      JoinCons(lines[0], lines[1..], "\n");
      assert lines == [lines[0]] + lines[1..];
      assert lines[0] + "\n" + j == lines[0] + ("\n" + j);
      SplitLinePrefix(lines[0], "\n" + j);
      assert ("\n" + j)[1..] == j;
      SplitLineJoin(lines[1..]);
      assert SplitLine("\n" + j) == [""] + lines[1..];
      assert lines[0] + "" == lines[0];
    }
  }

  // ---------------------------------------------------------------------
  // Decimal numbers (strconv)

  const MaxInt64: int := 0x7fff_ffff_ffff_ffff
  const MinInt64: int := -0x8000_0000_0000_0000

  function DigitValue(c: char): nat
    requires IsDigit(c)
  {
    c as int - '0' as int
  }

  function DigitChar(d: nat): char
    requires d < 10
  {
    ('0' as int + d) as char
  }

  /** Value of a digit string, most significant digit first. */
  function DigitsValue(ds: string): nat
    requires AllDigits(ds)
  {
    if |ds| == 0 then 0 else DigitsValue(ds[..|ds| - 1]) * 10 + DigitValue(ds[|ds| - 1])
  }

  /** strconv.Itoa on a non-negative value. */
  function NatToString(n: nat): (r: string)
    ensures |r| > 0 && AllDigits(r)
  {
    if n < 10 then [DigitChar(n)] else NatToString(n / 10) + [DigitChar(n % 10)]
  }

  /** strconv.Itoa / FormatInt in base 10. */
  function IntToString(n: int): string {
    if n < 0 then "-" + NatToString(-n) else NatToString(n)
  }

  lemma {:induction false} NatToStringValue(n: nat)
    ensures DigitsValue(NatToString(n)) == n
  {
    if n >= 10 {
      var a := NatToString(n / 10);
      NatToStringValue(n / 10);
      assert (a + [DigitChar(n % 10)])[..|a|] == a;
    }
  }

  /** The result of util.ParseInt: Go returns (0, err) on failure. */
  datatype Parsed = Parsed(value: int, ok: bool)

  /** What strconv.ParseInt(s, 10, 64) accepts as syntax: an optional sign
      followed by one or more decimal digits. */
  predicate IntSyntax(s: string) {
    |s| > 0 &&
    if s[0] == '+' || s[0] == '-' then |s| > 1 && AllDigits(s[1..]) else AllDigits(s)
  }

  function SignedValue(s: string): int
    requires IntSyntax(s)
  {
    if s[0] == '-' then 0 - DigitsValue(s[1..])
    else if s[0] == '+' then DigitsValue(s[1..])
    else DigitsValue(s)
  }

  /** util.ParseInt: base-10, 64-bit. */
  function ParseInt(s: string): (r: Parsed)
    ensures !r.ok ==> r.value == 0
    ensures r.ok ==> MinInt64 <= r.value <= MaxInt64
    ensures r.ok ==> |s| > 0 && IsDigit(s[|s| - 1])
    ensures (exists i :: 0 <= i < |s| && !IsDigit(s[i]) && s[i] != '+' && s[i] != '-') ==> !r.ok
  {
    if IntSyntax(s) && MinInt64 <= SignedValue(s) <= MaxInt64 then
      assert s[0] == '+' || s[0] == '-' ==> s[|s| - 1] == s[1..][|s| - 2];
      Parsed(SignedValue(s), true)
    else Parsed(0, false)
  }

  /** A plain digit string within range parses to its value. */
  lemma ParseIntDigits(ds: string)
    requires |ds| > 0 && AllDigits(ds) && DigitsValue(ds) <= MaxInt64
    ensures ParseInt(ds) == Parsed(DigitsValue(ds), true)
  {
  }

  /** Parsing the rendering of any 64-bit integer gives it back. */
  lemma ParseIntRender(n: int)
    requires MinInt64 <= n <= MaxInt64
    ensures ParseInt(IntToString(n)) == Parsed(n, true)
  {
    if n < 0 {
      var s := IntToString(n);
      NatToStringValue(-n);
      assert s[1..] == NatToString(-n);
    } else {
      NatToStringValue(n);
      var s := NatToString(n);
      assert s[0] != '+' && s[0] != '-';
    }
  }
}

=== FILE: validator.dfy ===
/** internal/service/validator.go: the account password rule
    `^[a-zA-Z][0-9a-zA-Z~!@#$%^&*?]{5,14}$`. */
module Validator {

  predicate IsAsciiLetter(c: char) {
    ('a' <= c <= 'z') || ('A' <= c <= 'Z')
  }

  /** The repeated class of the pattern: digits, letters and ~!@#$%^&*? */
  predicate IsPasswordChar(c: char) {
    IsAsciiLetter(c) || ('0' <= c <= '9')
    || c == '~' || c == '!' || c == '@' || c == '#' || c == '$'
    || c == '%' || c == '^' || c == '&' || c == '*' || c == '?'
  }

  /** What the anchored pattern describes: one letter, then 5 to 14 characters
      of the class, and nothing else (RE2's `$` matches only at the very end). */
  predicate PasswordShape(pwd: string) {
    6 <= |pwd| <= 15
    && IsAsciiLetter(pwd[0])
    && forall i :: 1 <= i < |pwd| ==> IsPasswordChar(pwd[i])
  }

  /** ValidateAccountPassword: a left-to-right scan of the password. */
  method ValidateAccountPassword(pwd: string) returns (ok: bool)
    ensures ok <==> PasswordShape(pwd)
  {
    if |pwd| < 6 || |pwd| > 15 || !IsAsciiLetter(pwd[0]) {
      return false;
    }
    var i := 1;
    while i < |pwd|
      invariant 1 <= i <= |pwd|
      invariant forall j :: 1 <= j < i ==> IsPasswordChar(pwd[j])
    {
      if !IsPasswordChar(pwd[i]) {
        return false;
      }
      i := i + 1;
    }
    return true;
  }

  /** An accepted password is non-empty and holds no white space, colon or
      quote, so it stays one token of the command it is formatted into. */
  lemma PasswordShapeIsPlain(pwd: string)
    requires PasswordShape(pwd)
    ensures pwd != ""
    ensures forall i :: 0 <= i < |pwd| ==>
      pwd[i] != ' ' && pwd[i] != '\t' && pwd[i] != '\n' && pwd[i] != '\r'
      && pwd[i] != ':' && pwd[i] != '"' && pwd[i] != '\''
  {
  }
}

=== FILE: wrappers.dfy ===
/** Optional values and results, used wherever the Go code returns a nil
    pointer or a (value, error) pair. */
module Wrappers {

  datatype Option<+T> = None | Some(value: T) {
    function GetOr(default: T): T {
      match this
      case Some(v) => v
      case None => default
    }
  }

  datatype Result<+T, +E> = Ok(value: T) | Err(error: E)
}
